=== FILE: README.md ===
# SURA coordination core in Dafny

A model of the deterministic coordination engine of the SURA multi-agent grid
world, with proofs about it.

**The world.** Agents and goals sit on a square grid with obstacles:
- Row 0 is at the bottom, and `up` is `row + 1`.
- Every synchronized timestep, each active agent proposes one 4-neighbour
  step, or stays put.
- A same-cell collision pass lets the lower index keep its move.
- The positions are committed.
- Any agent standing on a goal retires.

**What the model covers:**
- the grid queries of `GridWorld`;
- the BFS distance oracle and its path-reconstructing twin;
- the two distance tabulations;
- the exhaustive bottleneck assignment;
- the rank-based conflict resolver and the rankings fed to it;
- the parsing and filtering of language-model rankings;
- the `select_direction_opt` movement heuristic, as the ollama agent defines it;
- the bilateral top-two negotiation;
- the per-step commit engine;
- the five `run` loops built from these parts:
  - greedy;
  - rank-priority;
  - ollama, with head-on swap blocking;
  - top-two negotiation;
  - multi yes/no, with assigned goals.

**Modules:**

| module | file | contents |
|---|---|---|
| `Wrappers` | `wrappers.dfy` | `Option` |
| `Seqs` | `seqs.dfy` | `list.index` and two small sequence facts |
| `Grid` | `grid.dfy` | cells, directions, boards, worlds, `is_valid`, `get_valid_actions`, `move_agent`, the bounds-only action list |
| `Setup` | `setup.dfy` | `sample_position` and `initialize_agents_goals` |
| `Labels` | `labels.dfy` | goal labels `chr(65 + i)` and their inverse `ord(l) - 65` |
| `Bfs` | `bfs.dfy` | `shortest_path_length` as a level-synchronous search over cell sets, and the reference meaning it is proved against: sets reachable in `k` steps, and explicit paths |
| `Paths` | `paths.dfy` | `find_path_bfs`, the FIFO search over parent-linked entries |
| `Distances` | `distances.dfy` | `compute_distance_table`, `compute_distance_matrix` |
| `Assignment` | `assignment.dfy` | `itertools.permutations` in its listing order; `find_best_assignment` |
| `Greedy` | `greedy.dfy` | `compute_greedy_rankings`: a stable sort by (distance, goal index) |
| `Resolver` | `resolver.dfy` | `resolve_conflicts`, proved equal to serial dictatorship in index order |
| `Parsing` | `parsing.dfy` | `str.strip`, ASCII `str.upper`, the ranking parser over a decoded JSON value, and the order-preserving dedupe filter with its fallback |
| `Heuristic` | `heuristic.dfy` | `select_direction_opt` |
| `Negotiation` | `negotiation.dfy` | conflict-pair detection, `run_negotiation` over a sequence of replies, the allowed-goal list, the reading of `Agent {id}` keys, the application of resolutions, and the exceptions of phase 2 |
| `Collision` | `collision.dfy` | the same-cell collision pass, its declarative meaning (a first-come reservation), and the head-on swap check |
| `Engine` | `engine.dfy` | the loop state, proposals, commit, the two claiming rules, and one step of each loop |
| `Runs` | `runs.dfy` | the five loops, the reported optimum, the `failed` flag, and the lone-agent optimality theorem |

**Distances.** A distance is `Fin(n)` or `Inf`. `Inf` stands for
`float('inf')`: `Below` is Python's `<` and `AtMost` is `<=` on this
extended type.

**Inputs from language models and randomness.** Everything that comes from a
language model or from `random` is a parameter:
- `random.choice` and the model's choice of a direction become a `pick: nat`,
  reduced modulo the number of candidates. `Engine.OracleCanChooseAnyValidMove`
  and `Setup.SampleDrawsEach` show that every candidate is reachable this way.
- A parsed ranking reply is a decoded JSON value (`Parsing.Document`).
- A negotiation turn is one of `ParseFail`, `Missing`, `Accept(p)`,
  `Reject` or `Counter(p)`. `Missing` is a reply without a key the loop
  reads, which raises.

**Agent state.** All loops keep `agent_positions` and `env.agents` equal, so
one list of optional cells stands for both. `Engine.WellFormed` is the
invariant every step keeps:
- an agent is active exactly when it has a cell;
- no two active agents share a cell.

## Model

| member | source | states |
|---|---|---|
| Grid.ValidIffFreeAndUnoccupied | core/environment.py:12-19 | a cell is valid exactly when it is in bounds, not an obstacle and not the cell of any agent |
| Grid.OwnCellNotValid | core/environment.py:18 | an agent's own current cell is never valid |
| Grid.GetValidActions | core/environment.py:47-59 | the list holds exactly the directions whose neighbour is valid, in the order up, down, left, right, without repeats |
| Grid.MoveAgent | core/environment.py:61-74 | an unknown direction name leaves the agent where it is; a known one yields the neighbour when it is valid and the agent's own cell otherwise; no other cell is ever returned |
| Grid.ValidActionIffMoves | core/environment.py:47-74 | a direction is listed as valid exactly when moving that way changes the cell |
| Grid.MoveStaysFreeOrPut | core/environment.py:61-74 | a move either stays put or lands on a free, adjacent cell that no agent occupies |
| Grid.BoundsOnlyActions | agent.py:7-18 | up is offered iff row < size-1, down iff row > 0, left iff col > 0, right iff col < size-1, in the fixed order |
| Grid.InteriorGetsAllFour | agent.py:7-18 | an interior cell gets all four directions |
| Grid.BoundsOnlyMatchesEmptyWorld | agent.py:7-18 | on a board with no obstacles and no agents, the bounds-only list equals the `GridWorld` list |
| Setup.SamplePosition | core/environment.py:21-29 | the result is a valid cell outside `exclude`, and it is absent exactly when no such cell exists |
| Setup.SampleDrawsEach | core/environment.py:21-29 | every eligible cell is drawn by exactly one pick below the number of candidates |
| Setup.InitializeAgentsGoals | core/environment.py:31-45 | `n` agent slots and `n` goal slots; every placed cell is free and no cell is placed twice; with at least `2n` free cells, no slot stays empty |
| Labels.LabelRoundTrip | agents/agent_greedy.py:15 | reading a goal label back gives the goal index it was made from |
| Labels.IndexRoundTrip | utils/agent_ollama/agent.py:74 | a one-character label whose index is in range is the label of that index |
| Labels.LabelInjective | agents/agent_greedy.py:15 | different goal indices get different labels |
| Bfs.ShortestPathLength | core/utils.py:3-22 | equal endpoints give 0 before any check; a finite answer is the first level at which the goal is reachable; `Inf` means no level ever reaches it |
| Bfs.SearchFindsFirstLevel | core/utils.py:8-21 | the queue loop, one BFS level at a time, stops at the first level that holds the goal, or drains when the goal is unreachable |
| Bfs.ShortestPathWitness | core/utils.py:8-21 | a finite distance is the length of an actual path over free cells |
| Bfs.ShortestPathMinimal | core/utils.py:8-21 | no path is shorter than the reported distance |
| Bfs.UnreachableIffNoPath | core/utils.py:22 | the sentinel is returned exactly when no path exists |
| Bfs.BlockedGoalUnreachable | core/utils.py:15-19 | a goal that is an obstacle or off the grid, other than the start, is unreachable |
| Bfs.Symmetric | core/utils.py:7-19 | between two free cells, distance is symmetric |
| Bfs.AsymmetricFromObstacle | core/utils.py:7-19 | from an obstacle start the search still expands, so on a 2x2 board with one obstacle the distance is 1 one way and unreachable the other way |
| Bfs.ObstacleFreeIsManhattan | core/utils.py:8-21 | with no obstacles, the distance between in-bounds cells is the Manhattan distance |
| Bfs.CornerToCornerFiveByFive | core/utils.py:8-21 | (0,0) to (4,4) on an empty 5x5 board is 8 |
| Paths.PathSearchAgrees | figures/plot_optim_sol.py:17-24 | the FIFO path search finds a path exactly when the distance search finds a level, and the path runs from start to goal with one cell per level |
| Paths.FindPathBfs | figures/plot_optim_sol.py:9-25 | a reachable goal yields a path from start to goal, over free adjacent cells, whose length minus one is the BFS distance; an unreachable goal yields `[start]` |
| Paths.FindPathIsShortest | figures/plot_optim_sol.py:9-24 | the returned path is no longer than any path between the same cells |
| Paths.FallbackIffUnreachable | figures/plot_optim_sol.py:13-16 | `[start]` is returned exactly when start equals goal or no path exists |
| Distances.DistanceOpt | core/find_optim_sol.py:5-16 | for slots that may be `None`: a `None` goal is unreachable from a cell, two `None`s are 0 apart, and real cells get the BFS distance |
| Distances.ComputeDistanceTable | core/plot_human_cases.py:29-43 | outer keys are exactly the indices of agents still on the board; inner keys are exactly the indices of goals still on the board; each entry is the BFS distance |
| Distances.ComputeDistanceMatrix | core/find_optim_sol.py:5-16 | one row per agent and one column per goal; entry `[i][j]` is the distance from agent `i` to goal `j` |
| Distances.TableAgreesWithMatrix | core/plot_human_cases.py:29-43 | the table and the matrix agree wherever both agent and goal are present, and a claimed goal shows as unreachable in the matrix |
| Assignment.PermsSound | core/find_optim_sol.py:30 | every listed arrangement is a rearrangement of the input |
| Assignment.PermsComplete | core/find_optim_sol.py:30 | every rearrangement of the input is listed |
| Assignment.PermutationIffListed | core/find_optim_sol.py:26-30 | the listed arrangements of `range(n)` are exactly the permutations of `0..n-1` |
| Assignment.ListedInItertoolsOrder | core/find_optim_sol.py:30 | permutations are listed in lexicographic order, as `itertools.permutations` lists them |
| Assignment.Cost | core/find_optim_sol.py:32-33 | the cost of an assignment is the largest distance any agent travels under it |
| Assignment.FindBestAssignment | core/find_optim_sol.py:18-38 | the result is optimal over all permutations; among equally cheap ones it is the first listed; it is `(None, inf)` exactly when every permutation costs the sentinel |
| Assignment.FirstCheapest | core/find_optim_sol.py:30-36 | the strict `<` scan returns the first index of least cost, or nothing with the sentinel when every cost is the sentinel |
| Greedy.RankGoals | agents/agent_greedy.py:10-14 | the goal indices form a permutation sorted by (distance, index) |
| Greedy.RankGoalsIsTheSortedPermutation | agents/agent_greedy.py:14 | any permutation sorted by (distance, index) is exactly the one computed |
| Greedy.ComputeGreedyRankings | agents/agent_greedy.py:6-16 | each agent's ranking lists every goal label once, by ascending distance, with ties going to the lower goal index |
| Greedy.ComputeGreedyRankingsLive | agents/agent_greedy.py:6-16 | the corrected ranking: retired agents get `[]`, and live agents are ranked as in the source |
| Greedy.LiveRankingsAgree | agents/agent_greedy.py:6-16 | on every live agent, the corrected ranking equals the source's |
| Greedy.GreedyRankingIsUnique | agents/agent_greedy.py:14-15 | a ranking sorted by (distance, index) is the one computed |
| Greedy.GreedyTopIsNearest | agents/agent_greedy.py:14-15 | the top label names a goal strictly ahead of every other goal in (distance, index) order |
| Resolver.SlackShrinks | agents/agent_greedy.py:23-40 | cursors only grow, and a round that advances one lowers the total remaining ranking length, so the loop ends |
| Resolver.RoundKeepsInvariant | agents/agent_greedy.py:33-40 | after every round, each goal an agent has skipped is still held by a lower active agent |
| Resolver.SettledIsSerialDictatorship | agents/agent_greedy.py:29-31 | once no conflict remains, each agent holds the first goal of its ranking that no lower active agent holds |
| Resolver.ResolveConflicts | agents/agent_greedy.py:18-41 | the result is the serial-dictatorship assignment, and no two active agents hold the same non-empty goal |
| Resolver.LowestActiveGetsFirstChoice | agents/agent_greedy.py:26-36 | the lowest-indexed active agent gets the top of its ranking |
| Parsing.Strip | agents/agent_rank_priority_bfs.py:21-23 | the result is a contiguous slice with only whitespace cut from both ends, and it neither starts nor ends with whitespace |
| Parsing.StripTrimmed | agents/agent_rank_priority_bfs.py:23 | stripping a string without surrounding whitespace changes nothing |
| Parsing.Upper | agents/agent_rank_priority_bfs.py:23 | the same length, no lower-case ASCII letter left, every other character kept |
| Parsing.NormalizeIsNormal | agents/agent_rank_priority_bfs.py:23 | strip-then-upper yields a normal label, and leaves a normal label unchanged |
| Parsing.NormalizeIdempotent | agents/agent_rank_priority_bfs.py:23 | normalizing twice is normalizing once |
| Parsing.ParseRanking | agents/agent_rank_priority_bfs.py:15-29 | entries come out normalized; an undecodable reply, a non-object, or a non-string `reasoning`/`explanation` yields `[]` |
| Parsing.ParseRankingRoundTrip | agents/agent_rank_priority_bfs.py:15-29 | a well-formed reply carrying normal labels parses back to exactly those labels |
| Parsing.NormalizeStringsSplit | agents/agent_rank_priority_bfs.py:23 | the comprehension works item by item: parsing a concatenation is concatenating the parses |
| Parsing.ValidLabels | agents/agent_rank_priority_bfs.py:65 | exactly the labels of goals still on the board, each once |
| Parsing.KeepFirst | agents/agent_rank_priority_bfs.py:66-73 | the kept labels are exactly the valid, not yet seen labels of the raw ranking, without repeats |
| Parsing.KeepFirstKeepsOrder | agents/agent_rank_priority_bfs.py:69-73 | the kept labels appear in the order of their first occurrence |
| Parsing.FilterRanking | agents/agent_rank_priority_bfs.py:64-78 | a ranking with some valid label keeps exactly its valid labels in first-occurrence order; otherwise the result is one remaining goal, or `[]` when none is left |
| Parsing.FilterIdempotent | agents/agent_rank_priority_bfs.py:64-78 | filtering a filtered ranking changes nothing, whatever the fallback pick |
| Heuristic.GoalSlotIsPythonIndex | utils/agent_ollama/agent.py:74-78 | an index below the list's length names the slot its remainder modulo the length names, so a negative index counts from the end as in Python; a found slot is one of the list's entries |
| Heuristic.FirstMin | utils/agent_ollama/agent.py:89-95 | the scan returns the first index of strictly least finite score, or nothing when every score is the sentinel |
| Heuristic.SelectDirectionOpt | utils/agent_ollama/agent.py:67-96 | nothing for a falsy, out-of-range or claimed goal; otherwise a valid direction of least finite distance that beats every earlier valid direction, or nothing when no valid neighbour reaches the goal |
| Heuristic.HeuristicMakesProgress | utils/agent_ollama/agent.py:89-96 | an agent that can reach its goal, with no agent beside it, is sent to a neighbour exactly one step closer |
| Negotiation.ConflictPairs | agents/agent_rank_top2.py:378-388 | the pairs are exactly the goals top-ranked by exactly two active agents, as (lower, higher, goal), in ascending order of the lower agent |
| Negotiation.CrowdedGoalsAreNotNegotiated | agents/agent_rank_top2.py:383-388 | a goal top-ranked by three or more active agents gets no pair |
| Negotiation.AllowedGoals | agents/agent_rank_top2.py:185-187 | the sorted union, without repeats, of both agents' top-two goals |
| Negotiation.Settle | agents/agent_rank_top2.py:278-283 | no standing proposal, or a false one, gives no deal; a true one that is not an object, or lacks either agent's `Agent {id}` key, raises; otherwise the deal holds exactly the two agents' keys with their targets from the proposal |
| Negotiation.FirstDecisive | agents/agent_rank_top2.py:215-277 | the first turn that is not a counter-proposal, within the turn limit |
| Negotiation.RunNegotiation | agents/agent_rank_top2.py:178-283 | the set-up raises unless every allowed goal is a one-letter label that indexes the `n` distances; then the first non-counter reply within `2 * max_rounds` turns decides: a parse failure gives nothing, a missing key raises, an accept gives that reply's own proposal, a reject or running out of rounds settles the last counter-proposal |
| Negotiation.RoundsFollowFirstDecisive | agents/agent_rank_top2.py:215-283 | the alternating-turn loop, lower agent first, agrees with the first-decisive-turn description from any round on |
| Negotiation.NegotiationReadsAtMostTwoPerRound | agents/agent_rank_top2.py:215-277 | replies past `2 * max_rounds` never affect the outcome |
| Negotiation.AcceptedProposalIsUnchecked | agents/agent_rank_top2.py:243-247 | an accepted proposal naming a goal outside the allowed list is returned as is |
| Negotiation.LastWord | agents/agent_rank_top2.py:410 | `split()[-1]` raises exactly when the key is all whitespace; otherwise it is a maximal run of non-space characters followed only by whitespace |
| Negotiation.ParseIntOfDecimal | agents/agent_rank_top2.py:410 | `int()` reads a decimal numeral, with any number of leading zeros, as its value |
| Negotiation.ParseIntOfSignedDecimal | agents/agent_rank_top2.py:410 | after a `+` sign the same numeral is read as its value, after a `-` sign as its negation |
| Negotiation.ParseInt | agents/agent_rank_top2.py:410 | `int()` accepts exactly an optional sign followed by digits with single underscores between digits; only a minus sign gives a negative value |
| Negotiation.AgentKeyRoundTrip | agents/agent_rank_top2.py:280 | the key `f"Agent {id}"` written for an agent is read back as that agent's id |
| Negotiation.Assign | agents/agent_rank_top2.py:409-412 | the loop raises exactly when some key names no agent id `1..n`; otherwise each agent ends with the target of the last item naming it, or keeps its goal |
| Negotiation.ApplyResolution | agents/agent_rank_top2.py:408-412 | a false resolution changes nothing; a true non-object raises, as does a key that names no agent; otherwise each agent ends with the target of the last item naming it, or keeps its goal |
| Negotiation.TwoAgentResolution | agents/agent_rank_top2.py:408-412 | the two-key resolution that `run_negotiation` builds sets exactly the two named agents' goals |
| Negotiation.SettledResolutionTouchesTwo | agents/agent_rank_top2.py:278-283 | a deal settled after a rejection or the last round applies without raising and leaves every other agent's goal unchanged |
| Negotiation.NegotiationPhase | agents/agent_rank_top2.py:376-412 | phase 2 raises exactly when the negotiation of some conflict pair, or the application of its resolution, raises; with no conflict the proposed goals are the agents' first choices |
| Negotiation.AtMostOneAgentNoConflict | agents/agent_rank_top2.py:378-388 | with at most one agent there is no conflict pair |
| Negotiation.TwoLetterTopRaises | agents/agent_rank_top2.py:185-188 | two active agents that both rank the two-letter label `AB` first make the phase raise, whatever the replies |
| Collision.CollisionPassReserves | agents/agent_greedy.py:93-98 | on orderly proposals, the pass yields the first-come reservation in index order, counts one collision per agent sent back, leaves live agents on distinct cells, and leaves retired agents without a cell |
| Collision.ReservesIsUnique | agents/agent_greedy.py:93-98 | the first-come reservation is uniquely determined |
| Collision.LowestKeepsProposal | agents/agent_greedy.py:94-98 | agent 0 always keeps its proposal, and every agent ends on its proposal or its start |
| Collision.SwapBlock | utils/agent_ollama/agent.py:612-629 | an agent ends at its start exactly when it is part of a head-on trade, and at its committed cell otherwise |
| Collision.HeadOnTradeIsUndone | utils/agent_ollama/agent.py:612-629 | two agents that trade cells are both put back |
| Collision.SwapBlockIsIdle | utils/agent_ollama/agent.py:612-629 | after the collision pass on orderly proposals, the swap check never changes anything |
| Engine.HeuristicMove | agents/agent_greedy.py:73-90 | an agent moves to the neighbour chosen by `select_direction_opt`, or stays put when none is chosen |
| Engine.HeuristicProposals | agents/agent_rank_priority_bfs.py:230-266 | each active agent steps to a valid adjacent cell or stays, and it stays exactly when no direction is chosen; retired agents keep their `None` |
| Engine.OracleMove | agents/agent_multi_yesno.py:60-91 | the agent stays exactly when no action is valid, and otherwise moves in one of the valid directions |
| Engine.OracleCanChooseAnyValidMove | agents/agent_multi_yesno.py:84-86 | every valid move is some pick's choice |
| Engine.OracleProposals | agents/agent_multi_yesno.py:54-91 | retired agents propose nothing; an active agent stays exactly when it has no valid action |
| Engine.ProposalsAreOrderly | core/environment.py:18 | proposals built from `move_agent` never land on a cell occupied at the start of the step |
| Engine.AdvanceKeepsWellFormed | agents/agent_greedy.py:93-101 | the commit keeps active agents on distinct cells, equal to the first-come reservation, with the collision count grown by the agents sent back |
| Engine.ClearAllClearsFirstSlots | agents/agent_greedy.py:119-121 | clearing the claimed goals one by one empties exactly the first slot holding each claimed cell |
| Engine.ClaimAny | agents/agent_greedy.py:105-121 | every active agent on any remaining goal retires and loses its cell; the first goal slot holding its cell becomes empty; nothing else changes |
| Engine.ClaimOwn | agents/agent_multi_yesno.py:110-122 | an agent retires only on its own goal; its cell and its own goal slot become empty; other slots are kept |
| Engine.RankPriorityRankings | agents/agent_rank_priority_bfs.py:170-207 | retired agents keep their previous ranking; live agents get a filtered ranking of valid labels |
| Engine.GreedyDeclared | agents/agent_greedy.py:69-70 | the goal resolved from the live greedy rankings for every active agent is either empty or a one-letter label whose index into the goal list does not raise |
| Engine.GreedyStep | agents/agent_greedy.py:64-123 | one step keeps the invariant, counts one more step, never revives a retired agent, and keeps the board and the number of goal slots (corrected ranking) |
| Engine.RankPriorityStep | agents/agent_rank_priority_bfs.py:210-302 | the same for the rank-priority step |
| Engine.OllamaStep | utils/agent_ollama/agent.py:558-655 | the same for the ollama step, whose goals are fixed before the loop |
| Engine.TopTwoMoves | agents/agent_rank_top2.py:414-501 | the moves of the top-two step keep the invariant, count one more step, never revive a retired agent, and keep the board and the number of goal slots |
| Engine.TopTwoStep | agents/agent_rank_top2.py:329-501 | the step raises exactly when its negotiation phase raises, that is, when the negotiation or the resolution of some conflict pair raises; otherwise it makes the moves of `Engine.TopTwoMoves`, keeps the invariant and counts one more step |
| Engine.YesNoStep | agents/agent_multi_yesno.py:52-124 | the same for the yes/no step, which claims only own goals |
| Runs.GreedyLoop | agents/agent_greedy.py:64-123 | the loop stops with nobody active or at the step limit, and never passes the limit (corrected ranking) |
| Runs.RankLoop | agents/agent_rank_priority_bfs.py:163-302 | the same for the rank-priority loop |
| Runs.OllamaLoop | utils/agent_ollama/agent.py:558-655 | the same for the ollama loop |
| Runs.TopTwoLoop | agents/agent_rank_top2.py:329-501 | a loop that is not ended by an exception stops with nobody active or at the step limit and never passes the limit; a loop that is already stopped returns its state |
| Runs.TopTwoRankings | agents/agent_rank_top2.py:336-373 | every agent that does not rank this step keeps its last ranking; an active agent's new ranking holds only normalized labels |
| Runs.TopTwoRankingOfReply | agents/agent_rank_top2.py:336-373 | an active agent whose reply (read by `parse_ranking_response`) carries normal labels ranks exactly those labels; an undecodable reply gives it the empty ranking |
| Runs.LoneTopTwoCompletes | agents/agent_rank_top2.py:376-412 | a loop with at most one agent is never ended by an exception |
| Runs.YesNoLoop | agents/agent_multi_yesno.py:52-124 | the same for the yes/no loop |
| Runs.ReportOf | agents/agent_greedy.py:125 | `failed` is set exactly when the step count reached the limit |
| Runs.FailedFlagsDiffer | agents/agent_greedy.py:125 | on a stopped loop, `step >= max_steps` differs from "some agent is still active" exactly when the last agent retired on the very last allowed step |
| Runs.GreedyRun | agents/agent_greedy.py:43-134 | `failed` holds exactly when the step count equals the limit; a run that did not fail left no agent active (corrected ranking) |
| Runs.RankRun | agents/agent_rank_priority_bfs.py:120-311 | the same `failed` flag for the rank-priority run |
| Runs.OllamaRun | utils/agent_ollama/agent.py:480-664 | the same `failed` flag for the ollama run |
| Runs.TopTwoRun | agents/agent_rank_top2.py:286-510 | a run that is not ended by an exception has the same `failed` flag; a run with at most one agent always completes |
| Runs.YesNoRun | agents/agent_multi_yesno.py:47-127 | the run raises exactly when there are more agents than goal slots (`goal_positions[i]`) or no agent at all (`max([])`); otherwise it has the same `failed` flag |
| Runs.Nearest | agents/agent_greedy.py:53 | the least distance from a start to any remaining goal, or 0 when no goal remains |
| Runs.TotalOpt | agents/agent_greedy.py:52-55 | the reported optimum sums each present agent's nearest-goal distance; it is finite exactly when every term is, and it is at least each term |
| Runs.TotalOptAppend | utils/agent_ollama/agent.py:487-490 | the optimum of a concatenation of agent lists is the sum of the two optima |
| Runs.MaxOwn | agents/agent_multi_yesno.py:47-51 | the yes/no optimum is the largest distance from an agent's start to its own goal |
| Runs.LoneGreedyRunIsOptimal | agents/agent_greedy.py:64-125 | a lone agent whose nearest goal is `n` steps away, with `n <= max_steps`, finishes in exactly `n` steps with no collision, and the reported optimum is `n` |
| Runs.ArrivalOnLastStepReportedFailed | agents/agent_greedy.py:125 | when `max_steps` equals the lone agent's distance, the agent arrives on the last step and the run still reports failure |
| Runs.GreedyRunIntended | agents/agent_greedy.py:125 | the corrected flag is set exactly when some agent is still active; steps and collisions are as in the source |
| Runs.ArrivalOnLastStepIntended | agents/agent_greedy.py:125 | with the corrected flag, the arrival on the last step reports success |
| Runs.ClaimingBreaksGreedyRanking | agents/agent_greedy.py:114-116 | once an agent retires while another stays active and a goal remains, the world no longer meets the source ranking's need for every agent to have a cell |

## Left out

- Language-model calls, prompt building, response regexes and logprob scoring (`send_*`, `build_*_prompt`, `extract_*`) are I/O and floating point. Their outcome enters as a parameter: a pick index, a decoded JSON value, or a negotiation turn.
- `json.loads` and the fenced-block regex of `parse_ranking_response` are not modelled. The parser starts from a decoded value, or from `Undecodable` for any failure.
- `select_target` of the ollama agent and the ranking phase before its loop are not modelled. The ollama run takes the resolved goals as a parameter (`fixed`).
- The logged `target_goals` and the lists shown in prompts are not modelled. This covers the stale rankings of retired agents, the reduced distance tables and the agent-target dictionaries. They only reach logs and prompts.
- In the top-two run, negotiated goals only reach the direction prompt, so the moves follow the model's pick (`Engine.TopTwoMoves`). The negotiation phase decides only whether the step raises. A raising step ends the run with `None`.
- Exceptions raised by the language-model calls themselves are not modelled. This covers network errors and a reply without logprobs for `extract_top_goals`. Only the exceptions of the negotiation phase end a top-two run early.
- `Heuristic.SelectDirectionOpt`: agents/agent_greedy.py:4, agents/agent_rank_priority_bfs.py:10 and agents/agent_rank_top2.py:12 import `select_direction_opt` from `core.utils`, but core/utils.py defines only `shortest_path_length`. The model takes the ollama agent's definition (utils/agent_ollama/agent.py:67-96) as its meaning in every loop.
- `Negotiation.ParseInt`: reads ASCII digits only. Python's `int()` also accepts other Unicode decimal digits. `Negotiation.LastWord` splits on the same whitespace set as Python's `str.split()`.
- `Negotiation.Proposal`: targets are strings or `null`. Other JSON values as targets would only be stored and shown in prompts. An object is a list of items: `json.loads` yields distinct keys, and the model accepts repeated keys too, the last one winning.
- CSV logging, plotting, printing, `time.sleep`, and the `GridWorld(config_path)` constructor are not modelled. The model starts from a given world.
- `used.add(None)` in `initialize_agents_goals` is modelled as adding no cell. A `None` in the set can never equal a cell, so nothing is lost.
- `Parsing.Upper`: upper-cases ASCII letters only, because Unicode case mapping is not modelled.
- `Labels.Label`: defined for indices below `0xD800 - 65`, so `chr(65 + i)` stays a scalar value. Callers with more goals are outside the model.
- `Runs.LoneGreedyRunIsOptimal`: stated for at most 32 goals. Labels from index 32 on are lower-case letters, and `.upper()` in `select_direction_opt` maps them onto the labels of other goals.
- `Runs.LoneGreedyRunIsOptimal`: stated for a nearest goal at least one step away. An agent that starts on a goal walks off to a neighbour and is claimed after its second step. So the run takes 2 steps against an optimum of 0.
- `Distances.DistanceOpt`: requires a real start whenever the goal is real. The search cannot unpack a `None` start and raises.
- `Assignment.FindBestAssignment`: requires at least one agent and at least as many goal columns as agents. The source raises on `max([])` and on a short row.
- `Greedy.ComputeGreedyRankings`: requires every agent to have a cell, or no goal to remain, because the source raises otherwise (see Findings). The greedy loop uses `Greedy.ComputeGreedyRankingsLive`.
- `Engine.GreedyStep`, `Runs.GreedyLoop` and `Runs.GreedyRun` model the corrected ranking, `Greedy.ComputeGreedyRankingsLive`. As written, the greedy run raises at agents/agent_greedy.py:9-12 once an agent has retired while another is still active and a goal remains (`Runs.ClaimingBreaksGreedyRanking`). Runs reaching that state are therefore the corrected program's runs, not the source's.
- `Runs.RankRun`, `Runs.OllamaRun`, `Runs.TopTwoRun` and `Runs.YesNoRun` state the loop bounds and the `failed` flag only. Their moves depend on model outputs, so no optimality holds in general.
- `Runs.Start`: requires every agent to start on its own cell, distinct from the others. This applies to `Runs.GreedyRun`, `Runs.RankRun`, `Runs.OllamaRun`, `Runs.TopTwoRun` and `Runs.YesNoRun`. A `None` agent from `initialize_agents_goals` (core/environment.py:29, 38-40), or two agents sharing a cell from a config file, is outside the model.

## Findings

| source | as written | input that shows it | evidently intended | confidence | as-written member | corrected member |
|---|---|---|---|---|---|---|
| agents/agent_greedy.py:125 | `failed = step >= max_steps`, the same in every loop | one agent whose nearest goal is `n` steps away, with `max_steps = n`: it retires on step `n` and the run reports `failed = True` | fail only when some agent is still active after the loop | not executed | Runs.ArrivalOnLastStepReportedFailed | Runs.ArrivalOnLastStepIntended |
| agents/agent_greedy.py:9-12 | rankings run the search from every agent's position, including the `None` left by a retired agent (line 116) | two agents and two goals, where agent 0 retires in step 1 and agent 1 does not: in step 2 `shortest_path_length(None, goal)` fails to unpack the start (core/utils.py:9) | rank only agents that are still on the board | not executed | Runs.ClaimingBreaksGreedyRanking | Greedy.LiveRankingsAgree |

=== FILE: assignment.dfy ===
/**
 * `find_best_assignment` of core/find_optim_sol.py: the bottleneck
 * (minimise-the-maximum) assignment of agents to goals by exhaustive search
 * over `itertools.permutations(range(n))`, keeping the first permutation
 * that is strictly cheaper than every earlier one.
 */
module Assignment {
  import opened Wrappers
  import opened Bfs

  /** `a <= c` between two distances, with the sentinel above every number. */
  predicate AtMost(a: Distance, c: Distance)
  {
    !Below(c, a)
  }

  /** `list(range(n))`. */
  function Range(n: nat): (r: seq<nat>)
    ensures |r| == n && forall i :: 0 <= i < n ==> r[i] == i
  {
    seq(n, i requires 0 <= i => i)
  }

  /** `p` is a rearrangement of `0, 1, ..., n - 1`. */
  predicate IsPermutation(p: seq<nat>, n: nat)
  {
    multiset(p) == multiset(Range(n))
  }

  function Remove(s: seq<nat>, i: nat): (r: seq<nat>)
    requires i < |s|
    ensures |r| == |s| - 1
  {
    s[..i] + s[i + 1..]
  }

  /** Each of `ps` with `x` put in front. */
  function Prefix(x: nat, ps: seq<seq<nat>>): (r: seq<seq<nat>>)
    ensures |r| == |ps| && forall k :: 0 <= k < |ps| ==> r[k] == [x] + ps[k]
  {
    seq(|ps|, k requires 0 <= k < |ps| => [x] + ps[k])
  }

  /**
   * `itertools.permutations(s)`: for each position in turn, the element there
   * followed by every permutation of the others.
   */
  function Perms(s: seq<nat>): seq<seq<nat>>
    decreases |s|, 1, 0
  {
    if s == [] then [[]] else PermsFrom(s, 0)
  }

  /** The permutations of `s` whose first element comes from position `i` or later. */
  function PermsFrom(s: seq<nat>, i: nat): seq<seq<nat>>
    requires i <= |s|
    decreases |s|, 0, |s| - i
  {
    if i == |s| then [] else Prefix(s[i], Perms(Remove(s, i))) + PermsFrom(s, i + 1)
  }

  lemma RemoveMultiset(s: seq<nat>, i: nat)
    requires i < |s|
    ensures multiset(Remove(s, i)) == multiset(s) - multiset{s[i]}
    ensures multiset(s) == multiset(Remove(s, i)) + multiset{s[i]}
  {
    assert s == s[..i] + [s[i]] + s[i + 1..];
  }

  /** Every listed permutation rearranges `s`. */
  lemma {:induction false} PermsSound(s: seq<nat>, p: seq<nat>)
    requires p in Perms(s)
    ensures multiset(p) == multiset(s)
    decreases |s|, 1, 0
  {
    if s != [] {
      PermsFromSound(s, 0, p);
    }
  }

  lemma {:induction false} PermsFromSound(s: seq<nat>, i: nat, p: seq<nat>)
    requires i <= |s| && p in PermsFrom(s, i)
    ensures multiset(p) == multiset(s)
    decreases |s|, 0, |s| - i
  {
    var block := Prefix(s[i], Perms(Remove(s, i)));
    if p in block {
      var k :| 0 <= k < |block| && block[k] == p;
      var q := Perms(Remove(s, i))[k];
      PermsSound(Remove(s, i), q);
      RemoveMultiset(s, i);
      assert p == [s[i]] + q;
    } else {
      PermsFromSound(s, i + 1, p);
    }
  }

  lemma {:induction false} PermsFromContains(s: seq<nat>, i: nat, j: nat, q: seq<nat>)
    requires i <= j < |s| && q in Perms(Remove(s, j))
    ensures [s[j]] + q in PermsFrom(s, i)
    decreases j - i
  {
    if i < j {
      PermsFromContains(s, i + 1, j, q);
    } else {
      var k :| 0 <= k < |Perms(Remove(s, j))| && Perms(Remove(s, j))[k] == q;
      assert Prefix(s[j], Perms(Remove(s, j)))[k] == [s[j]] + q;
    }
  }

  /** Every rearrangement of `s` is listed. */
  lemma {:induction false} PermsComplete(s: seq<nat>, p: seq<nat>)
    requires multiset(p) == multiset(s)
    ensures p in Perms(s)
    decreases |s|
  {
    if s == [] {
      assert p == [];
    } else {
      assert |p| == |multiset(p)| == |s|;
      assert p[0] in multiset(s);
      var j :| 0 <= j < |s| && s[j] == p[0];
      RemoveMultiset(s, j);
      assert p == [p[0]] + p[1..];
      assert multiset(p[1..]) == multiset(Remove(s, j)) by {
        assert multiset(p) == multiset{p[0]} + multiset(p[1..]);
      }
      PermsComplete(Remove(s, j), p[1..]);
      PermsFromContains(s, 0, j, p[1..]);
    }
  }

  /** The permutations of `range(n)` are exactly the listed ones. */
  lemma PermutationIffListed(n: nat, p: seq<nat>)
    ensures IsPermutation(p, n) <==> p in Perms(Range(n))
  {
    if IsPermutation(p, n) {
      PermsComplete(Range(n), p);
    }
    if p in Perms(Range(n)) {
      PermsSound(Range(n), p);
    }
  }

  /** A permutation of `range(n)` has length `n`, entries below `n` and no repeats. */
  lemma PermutationShape(p: seq<nat>, n: nat)
    requires IsPermutation(p, n)
    ensures |p| == n
    ensures forall i :: 0 <= i < |p| ==> p[i] < n
    ensures forall i, j :: 0 <= i < j < |p| ==> p[i] != p[j]
  {
    assert |p| == |multiset(p)| == |multiset(Range(n))| == n;
    forall i | 0 <= i < |p| ensures p[i] < n {
      assert p[i] in multiset(Range(n));
    }
    forall i, j | 0 <= i < j < |p| ensures p[i] != p[j] {
      RepeatCountsTwice(p, i, j);
      RangeCountAtMostOne(n, p[i]);
    }
  }

  lemma RepeatCountsTwice(p: seq<nat>, i: nat, j: nat)
    requires i < j < |p|
    ensures p[i] == p[j] ==> multiset(p)[p[i]] >= 2
  {
    assert p == p[..i] + [p[i]] + p[i + 1..j] + [p[j]] + p[j + 1..];
  }

  lemma {:induction false} RangeCountAtMostOne(n: nat, x: nat)
    ensures multiset(Range(n))[x] <= 1
    decreases n
  {
    if n > 0 {
      assert Range(n) == Range(n - 1) + [n - 1];
      RangeCountAtMostOne(n - 1, x);
      if x == n - 1 {
        RangeNotContains(n - 1);
      }
    }
  }

  lemma RangeNotContains(n: nat)
    ensures n !in Range(n)
  {
  }

  /** Strict lexicographic order on sequences, as Python compares tuples of equal length. */
  predicate LexLess(a: seq<nat>, c: seq<nat>)
    decreases |a|
  {
    |a| > 0 && |c| > 0 && (a[0] < c[0] || (a[0] == c[0] && LexLess(a[1..], c[1..])))
  }

  predicate Increasing(s: seq<nat>)
  {
    forall i, j :: 0 <= i < j < |s| ==> s[i] < s[j]
  }

  predicate LexSorted(ps: seq<seq<nat>>)
  {
    forall i, j :: 0 <= i < j < |ps| ==> LexLess(ps[i], ps[j])
  }

  lemma PrefixKeepsOrder(x: nat, ps: seq<seq<nat>>)
    requires LexSorted(ps)
    ensures LexSorted(Prefix(x, ps))
  {
    var r := Prefix(x, ps);
    forall i, j | 0 <= i < j < |r| ensures LexLess(r[i], r[j]) {
      assert r[i][1..] == ps[i] && r[j][1..] == ps[j];
    }
  }

  lemma SortedConcat(a: seq<seq<nat>>, c: seq<seq<nat>>)
    requires LexSorted(a) && LexSorted(c)
    requires forall i, j :: 0 <= i < |a| && 0 <= j < |c| ==> LexLess(a[i], c[j])
    ensures LexSorted(a + c)
  {
    var r := a + c;
    forall i, j | 0 <= i < j < |r| ensures LexLess(r[i], r[j]) {
      if j < |a| {
        assert r[i] == a[i] && r[j] == a[j];
      } else if i < |a| {
        assert r[i] == a[i] && r[j] == c[j - |a|];
      } else {
        assert r[i] == c[i - |a|] && r[j] == c[j - |a|];
      }
    }
  }

  lemma RemoveKeepsIncreasing(s: seq<nat>, i: nat)
    requires i < |s| && Increasing(s)
    ensures Increasing(Remove(s, i))
  {
    var r := Remove(s, i);
    forall a, b | 0 <= a < b < |r| ensures r[a] < r[b] {
      var a' := if a < i then a else a + 1;
      var b' := if b < i then b else b + 1;
      assert r[a] == s[a'] && r[b] == s[b'];
    }
  }

  /**
   * Listed from an increasing sequence such as `range(n)`, the permutations
   * come in strictly increasing lexicographic order -- the order in which
   * `itertools.permutations` yields them.
   */
  lemma {:induction false} PermsLexSorted(s: seq<nat>)
    requires Increasing(s)
    ensures LexSorted(Perms(s))
    decreases |s|, 1, 0
  {
    if s != [] {
      PermsFromLexSorted(s, 0);
    }
  }

  lemma {:induction false} PermsFromLexSorted(s: seq<nat>, i: nat)
    requires Increasing(s) && i <= |s|
    ensures LexSorted(PermsFrom(s, i))
    ensures forall k :: 0 <= k < |PermsFrom(s, i)| ==> |PermsFrom(s, i)[k]| > 0 && PermsFrom(s, i)[k][0] in s[i..]
    decreases |s|, 0, |s| - i
  {
    if i < |s| {
      var a := Prefix(s[i], Perms(Remove(s, i)));
      var c := PermsFrom(s, i + 1);
      RemoveKeepsIncreasing(s, i);
      PermsLexSorted(Remove(s, i));
      PrefixKeepsOrder(s[i], Perms(Remove(s, i)));
      PermsFromLexSorted(s, i + 1);
      forall x, y | 0 <= x < |a| && 0 <= y < |c| ensures LexLess(a[x], c[y]) {
        var m :| i + 1 <= m < |s| && c[y][0] == s[m];
        assert a[x][0] == s[i];
      }
      SortedConcat(a, c);
      var r := a + c;
      forall k | 0 <= k < |r| ensures |r[k]| > 0 && r[k][0] in s[i..] {
        if k < |a| {
          assert r[k] == a[k] && r[k][0] == s[i];
        } else {
          assert r[k] == c[k - |a|];
          var m :| i + 1 <= m < |s| && r[k][0] == s[m];
          assert s[m] == s[i..][m - i];
        }
      }
    }
  }

  /** The candidates are examined in the order of `itertools.permutations(range(n))`. */
  lemma ListedInItertoolsOrder(n: nat)
    ensures LexSorted(Perms(Range(n)))
  {
    PermsLexSorted(Range(n));
  }

  /** Python's `max` over a non-empty list of distances. */
  function MaxOf(xs: seq<Distance>): (m: Distance)
    requires |xs| > 0
    ensures m in xs
    ensures forall i :: 0 <= i < |xs| ==> AtMost(xs[i], m)
  {
    if |xs| == 1 then xs[0]
    else
      var rest := MaxOf(xs[1..]);
      assert forall i :: 1 <= i < |xs| ==> xs[i] == xs[1..][i - 1];
      if Below(rest, xs[0]) then xs[0] else rest
  }

  /** `distances[i][perm[i]]` is defined for every agent `i`. */
  predicate Fits(d: seq<seq<Distance>>, p: seq<nat>)
  {
    |p| <= |d| && forall i :: 0 <= i < |p| ==> p[i] < |d[i]|
  }

  /** The cost of a permutation: the largest distance any agent travels. */
  function Cost(d: seq<seq<Distance>>, p: seq<nat>): (c: Distance)
    requires |p| > 0 && Fits(d, p)
    ensures exists i :: 0 <= i < |p| && c == d[i][p[i]]
    ensures forall i :: 0 <= i < |p| ==> AtMost(d[i][p[i]], c)
  {
    var xs := seq(|p|, i requires 0 <= i < |p| => d[i][p[i]]);
    var m := MaxOf(xs);
    assert forall i :: 0 <= i < |p| ==> xs[i] == d[i][p[i]];
    m
  }

  /** A square-or-wider matrix with at least one agent: the source raises otherwise. */
  predicate WellShaped(d: seq<seq<Distance>>)
  {
    |d| > 0 && forall i :: 0 <= i < |d| ==> |d[i]| >= |d|
  }

  /** A permutation whose cost the source can compute. */
  predicate Candidate(d: seq<seq<Distance>>, p: seq<nat>)
  {
    IsPermutation(p, |d|) && |p| > 0 && Fits(d, p)
  }

  lemma PermutationFits(d: seq<seq<Distance>>, p: seq<nat>)
    requires WellShaped(d) && IsPermutation(p, |d|)
    ensures Candidate(d, p)
  {
    PermutationShape(p, |d|);
  }

  lemma ListedAreCandidates(d: seq<seq<Distance>>)
    requires WellShaped(d)
    ensures forall k :: 0 <= k < |Perms(Range(|d|))| ==> Candidate(d, Perms(Range(|d|))[k])
  {
    var perms := Perms(Range(|d|));
    forall k | 0 <= k < |perms| ensures Candidate(d, perms[k]) {
      PermutationIffListed(|d|, perms[k]);
      PermutationFits(d, perms[k]);
    }
  }

  /** A bound that holds for every listed permutation holds for every permutation. */
  lemma BoundCoversAll(d: seq<seq<Distance>>, cost: Distance)
    requires WellShaped(d)
    requires ListedOk(d) && forall k :: 0 <= k < |Perms(Range(|d|))| ==> AtMost(cost, Cost(d, Perms(Range(|d|))[k]))
    ensures forall p :: Candidate(d, p) ==> AtMost(cost, Cost(d, p))
  {
    forall p | Candidate(d, p) ensures AtMost(cost, Cost(d, p)) {
      PermutationIffListed(|d|, p);
      var i :| 0 <= i < |Perms(Range(|d|))| && Perms(Range(|d|))[i] == p;
    }
  }

  ghost predicate ListedOk(d: seq<seq<Distance>>)
  {
    forall k :: 0 <= k < |Perms(Range(|d|))| ==> Candidate(d, Perms(Range(|d|))[k])
  }

  /**
   * `find_best_assignment(distances)`. The answer is optimal over all
   * permutations, and among equally cheap ones it is the first listed; when
   * every permutation costs the sentinel the answer is `(None, inf)`.
   */
  method FindBestAssignment(d: seq<seq<Distance>>) returns (best: Option<seq<nat>>, cost: Distance)
    requires WellShaped(d)
    ensures best.Some? ==> Candidate(d, best.value) && cost == Cost(d, best.value) && cost.Fin?
    ensures forall p :: Candidate(d, p) ==> AtMost(cost, Cost(d, p))
    ensures best.None? <==> forall p :: Candidate(d, p) ==> Cost(d, p) == Inf
    ensures best.None? ==> cost == Inf
    ensures best.Some? ==> exists j :: (0 <= j < |Perms(Range(|d|))| && Perms(Range(|d|))[j] == best.value
      && forall i :: 0 <= i < j ==> Candidate(d, Perms(Range(|d|))[i]) && Below(cost, Cost(d, Perms(Range(|d|))[i])))
  {
    var perms := Perms(Range(|d|));
    ListedAreCandidates(d);
    var costs := seq(|perms|, k requires 0 <= k < |perms| => Cost(d, perms[k]));
    var at;
    at, cost := FirstCheapest(costs);
    assert forall k :: 0 <= k < |perms| ==> costs[k] == Cost(d, perms[k]);
    BoundCoversAll(d, cost);
    if at.Some? {
      best := Some(perms[at.value]);
      assert Candidate(d, perms[at.value]);
      assert forall i :: 0 <= i < at.value ==> Candidate(d, perms[i]) && Below(cost, Cost(d, perms[i]));
    } else {
      best := None;
    }
  }

  /**
   * The loop of `find_best_assignment` over the costs of the listed
   * permutations: the first index whose cost is strictly below every earlier
   * cost and at most every cost, or nothing when all of them are the sentinel.
   */
  method FirstCheapest(costs: seq<Distance>) returns (at: Option<nat>, cost: Distance)
    ensures forall i :: 0 <= i < |costs| ==> AtMost(cost, costs[i])
    ensures at.None? ==> cost == Inf
    ensures at.Some? ==> at.value < |costs| && cost == costs[at.value] && cost.Fin?
    ensures at.Some? ==> forall i :: 0 <= i < at.value ==> Below(cost, costs[i])
  {
    at := None;
    cost := Inf;
    var k := 0;
    while k < |costs|
      invariant 0 <= k <= |costs|
      invariant forall i :: 0 <= i < k ==> AtMost(cost, costs[i])
      invariant at.None? ==> cost == Inf
      invariant at.Some? ==> at.value < k && cost == costs[at.value] && cost.Fin?
      invariant at.Some? ==> forall i :: 0 <= i < at.value ==> Below(cost, costs[i])
    {
      if Below(costs[k], cost) {
        at := Some(k);
        cost := costs[k];
      }
      k := k + 1;
    }
  }
}

=== FILE: bfs.dfy ===
/**
 * The static distance oracle `shortest_path_length` (core/utils.py; the
 * copies in core/plot_human_cases.py and utils/agent_ollama/agent.py have the
 * same body). It reads the board only -- never the agents.
 *
 * The FIFO queue is modelled level by level: the cells popped with distance
 * k are exactly the frontier of level k, and the search answers k for the
 * first level whose frontier holds the goal. As in the source, the start
 * cell is expanded without any bounds or obstacle check and is never marked
 * visited.
 */
module Bfs {
  import opened Wrappers
  import opened Grid

  /** A search result: a step count or the unreachable sentinel (`float('inf')`). */
  datatype Distance = Fin(n: nat) | Inf

  /** Python's `<` between two results, with the sentinel above every number. */
  predicate Below(a: Distance, c: Distance)
  {
    match a
    case Inf => false
    case Fin(x) => c.Inf? || x < c.n
  }

  lemma EveryDirectionListed(d: Direction)
    ensures d in Directions
  {
  }

  /** Free cells one 4-neighbour step away from some cell of `s`. */
  function Step(b: Board, s: set<Cell>): (r: set<Cell>)
    ensures forall c :: c in r ==> Free(b, c)
  {
    set c, d | c in s && d in Directions && Free(b, Neighbour(c, d)) :: Neighbour(c, d)
  }

  lemma InStep(b: Board, s: set<Cell>, x: Cell)
    ensures x in Step(b, s) <==> Free(b, x) && exists c :: c in s && Adjacent(c, x)
  {
    if x in Step(b, s) {
      var c, d :| c in s && d in Directions && Free(b, Neighbour(c, d)) && Neighbour(c, d) == x;
      NeighbourIsAdjacent(c, d);
    }
    if Free(b, x) && exists c :: c in s && Adjacent(c, x) {
      var c :| c in s && Adjacent(c, x);
      var d := AdjacentHasDirection(c, x);
      EveryDirectionListed(d);
    }
  }

  lemma StepMonotone(b: Board, s: set<Cell>, t: set<Cell>)
    requires s <= t
    ensures Step(b, s) <= Step(b, t)
  {
    forall x | x in Step(b, s) ensures x in Step(b, t) {
      InStep(b, s, x);
      InStep(b, t, x);
    }
  }

  lemma StepUnion(b: Board, s: set<Cell>, t: set<Cell>)
    ensures Step(b, s + t) == Step(b, s) + Step(b, t)
  {
    StepMonotone(b, s, s + t);
    StepMonotone(b, t, s + t);
    forall x | x in Step(b, s + t) ensures x in Step(b, s) + Step(b, t) {
      InStep(b, s + t, x);
      InStep(b, s, x);
      InStep(b, t, x);
    }
  }

  /**
   * The reference definition the search is measured against: the cells
   * reachable from `start` in at most `k` steps through free cells (the
   * start itself need not be free).
   */
  function Reach(b: Board, start: Cell, k: nat): set<Cell>
  {
    if k == 0 then {start} else Reach(b, start, k - 1) + Step(b, Reach(b, start, k - 1))
  }

  /** `x` is among the cells reachable in at most `k` steps. */
  ghost predicate Reached(b: Board, start: Cell, x: Cell, k: nat)
  {
    x in Reach(b, start, k)
  }

  lemma {:induction false} ReachMonotone(b: Board, start: Cell, j: nat, k: nat)
    requires j <= k
    ensures Reach(b, start, j) <= Reach(b, start, k)
    decreases k
  {
    if j < k {
      ReachMonotone(b, start, j, k - 1);
    }
  }

  /** Apart from the start, only free cells are ever reached. */
  lemma {:induction false} ReachFreeOrStart(b: Board, start: Cell, k: nat)
    ensures forall x :: x in Reach(b, start, k) ==> x == start || Free(b, x)
  {
    if k > 0 {
      ReachFreeOrStart(b, start, k - 1);
    }
  }

  /** Once a level is closed under a step, no later level leaves it. */
  lemma {:induction false} ReachStable(b: Board, start: Cell, k: nat, j: nat)
    requires Step(b, Reach(b, start, k)) <= Reach(b, start, k)
    requires k <= j
    ensures Reach(b, start, j) <= Reach(b, start, k)
    decreases j
  {
    if j > k {
      ReachStable(b, start, k, j - 1);
      StepMonotone(b, Reach(b, start, j - 1), Reach(b, start, k));
    }
  }

  /** One level of expansion: free neighbours of the frontier not yet visited. */
  function Expand(b: Board, frontier: set<Cell>, visited: set<Cell>): (next: set<Cell>)
    ensures next <= Universe(b.size) && next !! visited
  {
    Step(b, frontier) - visited
  }

  lemma ProperGrowthShrinks<T>(u: set<T>, visited: set<T>, next: set<T>)
    requires next <= u && next !! visited && next != {}
    ensures |u - (visited + next)| < |u - visited|
  {
    var rest := u - (visited + next);
    assert u - visited == rest + next;
    assert rest !! next;
    assert |rest + next| == |rest| + |next|;
  }

  lemma ExpandShrinks(b: Board, frontier: set<Cell>, visited: set<Cell>)
    ensures var next := Expand(b, frontier, visited);
      next != {} ==> |Universe(b.size) - (visited + next)| < |Universe(b.size) - visited|
    ensures visited + {} == visited
  {
    var next := Expand(b, frontier, visited);
    if next != {} {
      ProperGrowthShrinks(Universe(b.size), visited, next);
    }
  }

  /** The level-synchronous queue: `dist` is the level of `frontier`. */
  function Search(b: Board, goal: Cell, frontier: set<Cell>, visited: set<Cell>, dist: nat): Distance
    decreases |Universe(b.size) - visited|, |frontier|
  {
    if frontier == {} then Inf
    else if goal in frontier then Fin(dist)
    else
      var next := Expand(b, frontier, visited);
      ExpandShrinks(b, frontier, visited);
      Search(b, goal, next, visited + next, dist + 1)
  }

  /** `shortest_path_length(start, goal, env)`. */
  function ShortestPathLength(b: Board, start: Cell, goal: Cell): (r: Distance)
    ensures start == goal ==> r == Fin(0)
    ensures r.Fin? ==> Reached(b, start, goal, r.n)
    ensures r.Fin? ==> forall j: nat :: j < r.n ==> !Reached(b, start, goal, j)
    ensures r.Inf? ==> forall j: nat :: !Reached(b, start, goal, j)
  {
    if start == goal then Fin(0)
    else
      SearchFindsFirstLevel(b, start, goal, {start}, {}, 0);
      Search(b, goal, {start}, {}, 0)
  }

  /** What holds of the search state at the start of level `k`. */
  ghost predicate Layered(b: Board, start: Cell, goal: Cell, frontier: set<Cell>, visited: set<Cell>, k: nat)
  {
    && visited + {start} == Reach(b, start, k)
    && (k == 0 ==> frontier == {start})
    && (k > 0 ==> Reach(b, start, k) - Reach(b, start, k - 1) <= frontier <= Reach(b, start, k))
    && (k > 0 ==> goal !in Reach(b, start, k - 1))
  }

  /** The frontier of the next level is again layered. */
  lemma ExpandKeepsLayers(b: Board, start: Cell, goal: Cell, frontier: set<Cell>, visited: set<Cell>, k: nat)
    requires Layered(b, start, goal, frontier, visited, k)
    requires goal !in frontier
    ensures var next := Expand(b, frontier, visited);
      Layered(b, start, goal, next, visited + next, k + 1)
  {
    var next := Expand(b, frontier, visited);
    var rk := Reach(b, start, k);
    var rk1 := Reach(b, start, k + 1);
    assert rk1 == rk + Step(b, rk);
    assert frontier <= rk;
    StepMonotone(b, frontier, rk);
    // Every cell of rk lies in the previous level or in the frontier.
    var lower := if k == 0 then {} else Reach(b, start, k - 1);
    assert rk <= lower + frontier;
    assert Step(b, rk) <= rk + Step(b, frontier) by {
      StepMonotone(b, rk, lower + frontier);
      StepUnion(b, lower, frontier);
      if k > 0 {
        assert Step(b, lower) <= rk;
      } else {
        assert Step(b, lower) == {};
      }
    }
    assert (visited + next) + {start} == rk1;
    assert rk1 - rk <= next;
    assert next <= rk1;
    assert goal !in rk;
  }

  /** A level that adds nothing and lacks the goal keeps it out of every level. */
  lemma FixedPointExcludes(b: Board, start: Cell, goal: Cell, m: nat)
    requires Reach(b, start, m + 1) == Reach(b, start, m)
    requires goal !in Reach(b, start, m)
    ensures forall j: nat :: !Reached(b, start, goal, j)
  {
    assert Step(b, Reach(b, start, m)) <= Reach(b, start, m + 1);
    forall j: nat ensures !Reached(b, start, goal, j) {
      if j < m {
        ReachMonotone(b, start, j, m);
      } else {
        ReachStable(b, start, m, j);
      }
    }
  }

  /** An empty frontier at level k: level k - 1 is a fixed point without the goal. */
  lemma EmptyFrontierUnreachable(b: Board, start: Cell, goal: Cell, visited: set<Cell>, k: nat)
    requires Layered(b, start, goal, {}, visited, k)
    ensures forall j: nat :: !Reached(b, start, goal, j)
  {
    assert k > 0;
    var m: nat := k - 1;
    ReachMonotone(b, start, m, k);
    NothingNew(Reach(b, start, m), Reach(b, start, k));
    FixedPointExcludes(b, start, goal, m);
  }

  /** A superset that adds nothing is the same set. */
  lemma NothingNew(small: set<Cell>, large: set<Cell>)
    requires small <= large && large - small <= {}
    ensures large == small
  {
    forall c | c in large ensures c in small {
      assert c !in large - small;
    }
  }

  lemma GoalInFrontierIsFirst(b: Board, start: Cell, goal: Cell, frontier: set<Cell>, visited: set<Cell>, k: nat)
    requires Layered(b, start, goal, frontier, visited, k)
    requires goal in frontier
    ensures Reached(b, start, goal, k)
    ensures forall j: nat :: j < k ==> !Reached(b, start, goal, j)
  {
    if k == 0 {
      assert goal == start;
    } else {
      var rk := Reach(b, start, k);
      assert frontier <= rk;
    }
    forall j: nat | j < k ensures !Reached(b, start, goal, j) {
      ReachMonotone(b, start, j, k - 1);
    }
  }

  /** `r` is the first level at or after `k` that holds the goal, or the sentinel when no level does. */
  ghost predicate FirstLevelFrom(b: Board, start: Cell, goal: Cell, r: Distance, k: nat)
  {
    && (r.Fin? ==> r.n >= k && Reached(b, start, goal, r.n))
    && (r.Fin? ==> forall j: nat :: j < r.n ==> !Reached(b, start, goal, j))
    && (r.Inf? ==> forall j: nat :: !Reached(b, start, goal, j))
  }

  /** A search that stops answers for the level it stops at. */
  lemma SearchStops(b: Board, start: Cell, goal: Cell, frontier: set<Cell>, visited: set<Cell>, k: nat)
    requires Layered(b, start, goal, frontier, visited, k)
    requires frontier == {} || goal in frontier
    ensures FirstLevelFrom(b, start, goal, Search(b, goal, frontier, visited, k), k)
  {
    if frontier == {} {
      EmptyFrontierUnreachable(b, start, goal, visited, k);
    } else {
      GoalInFrontierIsFirst(b, start, goal, frontier, visited, k);
    }
  }

  /**
   * Induction over the levels of the search: a property of search states
   * that every level preserves, and that gives `post` wherever the search
   * stops, gives `post` for the answer, provided `post` survives moving
   * its level back by one.
   */
  lemma {:induction false} SearchInduction(b: Board, goal: Cell, frontier: set<Cell>, visited: set<Cell>, k: nat,
                                           inv: (set<Cell>, set<Cell>, nat) -> bool, post: (Distance, nat) -> bool)
    requires inv(frontier, visited, k)
    requires forall f: set<Cell>, v: set<Cell>, j: nat :: inv(f, v, j) && (f == {} || goal in f) ==> post(Search(b, goal, f, v, j), j)
    requires forall f: set<Cell>, v: set<Cell>, j: nat :: inv(f, v, j) && f != {} && goal !in f ==> inv(Expand(b, f, v), v + Expand(b, f, v), j + 1)
    requires forall r: Distance, j: nat :: post(r, j + 1) ==> post(r, j)
    ensures post(Search(b, goal, frontier, visited, k), k)
    decreases |Universe(b.size) - visited|, |frontier|
  {
    if frontier != {} && goal !in frontier {
      var next := Expand(b, frontier, visited);
      ExpandShrinks(b, frontier, visited);
      SearchInduction(b, goal, next, visited + next, k + 1, inv, post);
    }
  }

  lemma SearchFindsFirstLevel(b: Board, start: Cell, goal: Cell, frontier: set<Cell>, visited: set<Cell>, k: nat)
    requires Layered(b, start, goal, frontier, visited, k)
    ensures FirstLevelFrom(b, start, goal, Search(b, goal, frontier, visited, k), k)
  {
    var inv := (f: set<Cell>, v: set<Cell>, j: nat) => Layered(b, start, goal, f, v, j);
    var post := (r: Distance, j: nat) => FirstLevelFrom(b, start, goal, r, j);
    EveryStopIsFirst(b, start, goal);
    EveryExpansionLayered(b, start, goal);
    SearchInduction(b, goal, frontier, visited, k, inv, post);
  }

  lemma EveryStopIsFirst(b: Board, start: Cell, goal: Cell)
    ensures forall f: set<Cell>, v: set<Cell>, j: nat :: Layered(b, start, goal, f, v, j) && (f == {} || goal in f) ==>
      FirstLevelFrom(b, start, goal, Search(b, goal, f, v, j), j)
  {
    forall f: set<Cell>, v: set<Cell>, j: nat | Layered(b, start, goal, f, v, j) && (f == {} || goal in f)
      ensures FirstLevelFrom(b, start, goal, Search(b, goal, f, v, j), j)
    {
      SearchStops(b, start, goal, f, v, j);
    }
  }

  lemma EveryExpansionLayered(b: Board, start: Cell, goal: Cell)
    ensures forall f: set<Cell>, v: set<Cell>, j: nat :: Layered(b, start, goal, f, v, j) && f != {} && goal !in f ==>
      Layered(b, start, goal, Expand(b, f, v), v + Expand(b, f, v), j + 1)
  {
    forall f: set<Cell>, v: set<Cell>, j: nat | Layered(b, start, goal, f, v, j) && f != {} && goal !in f
      ensures Layered(b, start, goal, Expand(b, f, v), v + Expand(b, f, v), j + 1)
    {
      ExpandKeepsLayers(b, start, goal, f, v, j);
    }
  }

  /**
   * A walk from `p[0]`: consecutive cells are 4-adjacent and every cell after
   * the first is free.
   */
  ghost predicate IsPath(b: Board, p: seq<Cell>)
  {
    |p| > 0 && forall i :: 0 < i < |p| ==> Free(b, p[i]) && Adjacent(p[i - 1], p[i])
  }

  ghost predicate PathBetween(b: Board, p: seq<Cell>, a: Cell, c: Cell)
  {
    IsPath(b, p) && p[0] == a && p[|p| - 1] == c
  }

  lemma ExtendPath(b: Board, q: seq<Cell>, x: Cell)
    requires IsPath(b, q) && Free(b, x) && Adjacent(q[|q| - 1], x)
    ensures IsPath(b, q + [x]) && (q + [x])[0] == q[0]
  {
    var p := q + [x];
    forall i | 0 < i < |p| ensures Free(b, p[i]) && Adjacent(p[i - 1], p[i]) {
      if i < |q| {
        assert p[i] == q[i] && p[i - 1] == q[i - 1];
      }
    }
  }

  lemma {:induction false} PathEndInReach(b: Board, p: seq<Cell>)
    requires IsPath(b, p)
    ensures p[|p| - 1] in Reach(b, p[0], |p| - 1)
    decreases |p|
  {
    if |p| > 1 {
      var q := p[..|p| - 1];
      assert IsPath(b, q);
      PathEndInReach(b, q);
      InStep(b, Reach(b, p[0], |p| - 2), p[|p| - 1]);
    }
  }

  /** A walk to a cell of level m, extended by one step to an adjacent free cell. */
  lemma StepExtends(b: Board, start: Cell, m: nat, x: Cell, q: seq<Cell>, c: Cell) returns (p: seq<Cell>)
    requires PathBetween(b, q, start, c) && |q| <= m + 1
    requires Free(b, x) && Adjacent(c, x)
    ensures PathBetween(b, p, start, x) && |p| <= m + 2
  {
    ExtendPath(b, q, x);
    p := q + [x];
  }

  lemma {:induction false} ReachHasPath(b: Board, start: Cell, k: nat, x: Cell) returns (p: seq<Cell>)
    requires x in Reach(b, start, k)
    ensures PathBetween(b, p, start, x) && |p| <= k + 1
    decreases k
  {
    if k == 0 {
      p := [start];
    } else {
      var m: nat := k - 1;
      var prev := Reach(b, start, m);
      assert Reach(b, start, k) == prev + Step(b, prev);
      if x in prev {
        p := ReachHasPath(b, start, m, x);
      } else {
        InStep(b, prev, x);
        var c :| c in prev && Adjacent(c, x);
        var q := ReachHasPath(b, start, m, c);
        p := StepExtends(b, start, m, x, q, c);
      }
    }
  }

  /** A finite answer is realised by a walk with exactly that many steps. */
  lemma ShortestPathWitness(b: Board, start: Cell, goal: Cell) returns (p: seq<Cell>)
    requires ShortestPathLength(b, start, goal).Fin?
    ensures PathBetween(b, p, start, goal)
    ensures |p| - 1 == ShortestPathLength(b, start, goal).n
  {
    var n := ShortestPathLength(b, start, goal).n;
    p := ReachHasPath(b, start, n, goal);
    PathEndInReach(b, p);
    assert Reached(b, start, goal, |p| - 1);
  }

  /** No walk is shorter than the answer, and any walk makes the answer finite. */
  lemma ShortestPathMinimal(b: Board, start: Cell, goal: Cell, p: seq<Cell>)
    requires PathBetween(b, p, start, goal)
    ensures ShortestPathLength(b, start, goal).Fin?
    ensures ShortestPathLength(b, start, goal).n <= |p| - 1
  {
    PathEndInReach(b, p);
    assert Reached(b, start, goal, |p| - 1);
  }

  /** The sentinel is returned exactly when no walk joins the two cells. */
  lemma UnreachableIffNoPath(b: Board, start: Cell, goal: Cell)
    ensures ShortestPathLength(b, start, goal).Inf? <==> forall p :: !PathBetween(b, p, start, goal)
  {
    if ShortestPathLength(b, start, goal).Fin? {
      var p := ShortestPathWitness(b, start, goal);
    }
    forall p | PathBetween(b, p, start, goal) ensures ShortestPathLength(b, start, goal).Fin? {
      ShortestPathMinimal(b, start, goal, p);
    }
  }

  /** An obstacle or off-grid goal other than the start is never reached. */
  lemma BlockedGoalUnreachable(b: Board, start: Cell, goal: Cell)
    requires goal != start && !Free(b, goal)
    ensures ShortestPathLength(b, start, goal) == Inf
  {
    forall j: nat ensures !Reached(b, start, goal, j) {
      ReachFreeOrStart(b, start, j);
    }
    assert ShortestPathLength(b, start, goal).Fin? ==> Reached(b, start, goal, ShortestPathLength(b, start, goal).n);
  }

  function Reverse(p: seq<Cell>): (r: seq<Cell>)
    ensures |r| == |p|
    ensures forall i :: 0 <= i < |p| ==> r[i] == p[|p| - 1 - i]
  {
    if p == [] then [] else Reverse(p[1..]) + [p[0]]
  }

  lemma ReversedPath(b: Board, p: seq<Cell>, a: Cell, c: Cell)
    requires PathBetween(b, p, a, c) && Free(b, a)
    ensures PathBetween(b, Reverse(p), c, a)
  {
    var r := Reverse(p);
    forall i | 0 < i < |r| ensures Free(b, r[i]) && Adjacent(r[i - 1], r[i]) {
      assert r[i] == p[|p| - 1 - i] && r[i - 1] == p[|p| - 1 - (i - 1)];
    }
  }

  /** Between two free cells the distance is symmetric. */
  lemma Symmetric(b: Board, a: Cell, c: Cell)
    requires Free(b, a) && Free(b, c)
    ensures ShortestPathLength(b, a, c) == ShortestPathLength(b, c, a)
  {
    if ShortestPathLength(b, a, c).Fin? {
      var p := ShortestPathWitness(b, a, c);
      ReversedPath(b, p, a, c);
      ShortestPathMinimal(b, c, a, Reverse(p));
    }
    if ShortestPathLength(b, c, a).Fin? {
      var q := ShortestPathWitness(b, c, a);
      ReversedPath(b, q, c, a);
      ShortestPathMinimal(b, a, c, Reverse(q));
    }
  }

  /**
   * The start is expanded unchecked, so an obstacle start can reach a free
   * goal that cannot reach it back: on a 2x2 board with an obstacle at (0,0).
   */
  lemma AsymmetricFromObstacle()
    ensures ShortestPathLength(Board(2, {Cell(0, 0)}), Cell(0, 0), Cell(0, 1)) == Fin(1)
    ensures ShortestPathLength(Board(2, {Cell(0, 0)}), Cell(0, 1), Cell(0, 0)) == Inf
  {
    var b := Board(2, {Cell(0, 0)});
    var p := [Cell(0, 0), Cell(0, 1)];
    assert PathBetween(b, p, Cell(0, 0), Cell(0, 1));
    ShortestPathMinimal(b, Cell(0, 0), Cell(0, 1), p);
    assert Reach(b, Cell(0, 0), 0) == {Cell(0, 0)};
    BlockedGoalUnreachable(b, Cell(0, 1), Cell(0, 0));
  }

  function Abs(x: int): nat
  {
    if x < 0 then -x else x
  }

  function Manhattan(a: Cell, c: Cell): nat
  {
    Abs(a.row - c.row) + Abs(a.col - c.col)
  }

  lemma {:induction false} PathAtLeastManhattan(b: Board, p: seq<Cell>)
    requires IsPath(b, p)
    ensures |p| - 1 >= Manhattan(p[0], p[|p| - 1])
    decreases |p|
  {
    if |p| > 1 {
      var q := p[..|p| - 1];
      assert IsPath(b, q);
      PathAtLeastManhattan(b, q);
    }
  }

  /** A row-first staircase between two in-bounds cells. */
  lemma {:induction false} Staircase(b: Board, a: Cell, c: Cell) returns (p: seq<Cell>)
    requires b.obstacles == {}
    requires InBounds(b.size, a) && InBounds(b.size, c)
    ensures PathBetween(b, p, a, c) && |p| - 1 == Manhattan(a, c)
    decreases Manhattan(a, c)
  {
    if a == c {
      p := [a];
    } else {
      var a' :=
        if a.row < c.row then Cell(a.row + 1, a.col)
        else if a.row > c.row then Cell(a.row - 1, a.col)
        else if a.col < c.col then Cell(a.row, a.col + 1)
        else Cell(a.row, a.col - 1);
      var q := Staircase(b, a', c);
      p := [a] + q;
      assert p[1] == a';
    }
  }

  /** With no obstacles the distance between in-bounds cells is the Manhattan distance. */
  lemma ObstacleFreeIsManhattan(b: Board, a: Cell, c: Cell)
    requires b.obstacles == {}
    requires InBounds(b.size, a) && InBounds(b.size, c)
    ensures ShortestPathLength(b, a, c) == Fin(Manhattan(a, c))
  {
    var p := Staircase(b, a, c);
    ShortestPathMinimal(b, a, c, p);
    var q := ShortestPathWitness(b, a, c);
    PathAtLeastManhattan(b, q);
  }

  /** The 5x5 example: corner to corner takes 8 steps. */
  lemma CornerToCornerFiveByFive()
    ensures ShortestPathLength(Board(5, {}), Cell(0, 0), Cell(4, 4)) == Fin(8)
  {
    ObstacleFreeIsManhattan(Board(5, {}), Cell(0, 0), Cell(4, 4));
  }
}

=== FILE: collision.dfy ===
/**
 * The collision pass every run loop shares, and the head-on swap check of
 * the ollama loop. Agents propose cells; the pass walks every pair `i < j`
 * in ascending order and, when both are live and propose the same cell,
 * sends `j` back to where it stood and counts one collision.
 *
 * The reference is a first-come reservation: agents are served by index,
 * and an agent keeps its proposal unless a lower live agent already ended
 * on that cell. When the proposals come from `is_valid` moves (each agent
 * stays or steps onto a cell nobody stands on) the pass computes exactly
 * the reservation, counts each sent-back agent once, leaves no two live
 * agents on one cell, and the swap check never fires.
 */
module Collision {
  import opened Wrappers
  import opened Grid

  type Slots = seq<Option<Cell>>

  /** The inner loop `for j in range(i + 1, n)` of the pass, from `j` on. */
  function PassRow(pre: Slots, live: seq<bool>, cur: Slots, i: nat, j: nat, count: nat): (r: (Slots, nat))
    requires |pre| == |live| == |cur| && i < j <= |cur|
    ensures |r.0| == |cur| && r.1 >= count
    decreases |cur| - j
  {
    if j == |cur| then (cur, count)
    else if cur[i] == cur[j] && live[i] && live[j] then PassRow(pre, live, cur[j := pre[j]], i, j + 1, count + 1)
    else PassRow(pre, live, cur, i, j + 1, count)
  }

  /** The outer loop `for i in range(n)`, from `i` on. */
  function Pass(pre: Slots, live: seq<bool>, cur: Slots, i: nat, count: nat): (r: (Slots, nat))
    requires |pre| == |live| == |cur| && i <= |cur|
    ensures |r.0| == |cur| && r.1 >= count
    decreases |cur| - i
  {
    if i == |cur| then (cur, count)
    else
      var row := PassRow(pre, live, cur, i, i + 1, count);
      Pass(pre, live, row.0, i + 1, row.1)
  }

  /**
   * `new_positions` and the number of collisions added by one pass over the
   * proposals. `live` is `active` in the greedy loop and "has a position" in
   * the others.
   */
  function CollisionPass(pre: Slots, prop: Slots, live: seq<bool>): (r: (Slots, nat))
    requires |pre| == |prop| == |live|
    ensures |r.0| == |prop|
  {
    Pass(pre, live, prop, 0, 0)
  }

  /**
   * What the loops hand to the pass: a live agent stands somewhere and
   * proposes either its own cell or a cell nobody stands on; retired
   * agents have no cell and propose none; no two live agents share a cell.
   */
  predicate Orderly(pre: Slots, prop: Slots, live: seq<bool>)
  {
    && |pre| == |prop| == |live|
    && (forall k :: 0 <= k < |live| ==> (live[k] <==> pre[k].Some?))
    && (forall k :: 0 <= k < |live| && !live[k] ==> prop[k].None?)
    && (forall k :: 0 <= k < |live| && live[k] ==> prop[k].Some? && (prop[k] == pre[k] || prop[k] !in pre))
    && (forall a, c :: 0 <= a < c < |live| && live[a] && live[c] ==> pre[a] != pre[c])
  }

  /** Some agent served before `k` has been given the cell `k` proposes. */
  predicate Blocked(prop: Slots, live: seq<bool>, served: Slots, k: nat)
    requires k < |prop| && |served| <= |live|
  {
    exists b :: 0 <= b < |served| && live[b] && served[b] == prop[k]
  }

  /** Agent `k`'s cell once the agents before it have been `served`. */
  function Decide(pre: Slots, prop: Slots, live: seq<bool>, served: Slots, k: nat): Option<Cell>
    requires |pre| == |prop| == |live| && k < |prop| && |served| <= |live|
  {
    if live[k] && Blocked(prop, live, served, k) then pre[k] else prop[k]
  }

  /** The first-come reservation of the first `m` agents. */
  function Reservation(pre: Slots, prop: Slots, live: seq<bool>, m: nat): (res: Slots)
    requires |pre| == |prop| == |live| && m <= |prop|
    ensures |res| == m
    ensures forall k :: 0 <= k < m ==> res[k] == Decide(pre, prop, live, res[..k], k)
  {
    if m == 0 then []
    else
      var prev := Reservation(pre, prop, live, m - 1);
      var res := prev + [Decide(pre, prop, live, prev, m - 1)];
      assert res[..m - 1] == prev;
      assert forall k :: 0 <= k < m - 1 ==> res[..k] == prev[..k];
      res
  }

  /** `res` serves every agent first-come, in index order. */
  ghost predicate Reserves(pre: Slots, prop: Slots, live: seq<bool>, res: Slots)
    requires |pre| == |prop| == |live|
  {
    |res| == |prop| && forall k :: 0 <= k < |res| ==> res[k] == Decide(pre, prop, live, res[..k], k)
  }

  /** A lower live agent ends on the cell agent `k` proposes. */
  ghost predicate Beaten(prop: Slots, live: seq<bool>, res: Slots, k: nat)
    requires k < |prop| && k < |live| && k < |res|
  {
    exists b :: 0 <= b < k && live[b] && res[b] == prop[k]
  }

  /** Blocking spelled out on the whole reservation. */
  lemma BlockedBy(pre: Slots, prop: Slots, live: seq<bool>, res: Slots, k: nat)
    requires |pre| == |prop| == |live| && Reserves(pre, prop, live, res) && k < |res|
    ensures Blocked(prop, live, res[..k], k) <==> Beaten(prop, live, res, k)
    ensures res[k] == (if live[k] && Beaten(prop, live, res, k) then pre[k] else prop[k])
  {
    if exists b :: 0 <= b < k && live[b] && res[b] == prop[k] {
      var b :| 0 <= b < k && live[b] && res[b] == prop[k];
      assert res[..k][b] == res[b];
    }
  }

  /** There is one first-come reservation. */
  lemma {:induction false} ReservesIsUnique(pre: Slots, prop: Slots, live: seq<bool>, res: Slots)
    requires |pre| == |prop| == |live| && Reserves(pre, prop, live, res)
    ensures res == Reservation(pre, prop, live, |prop|)
  {
    var full := Reservation(pre, prop, live, |prop|);
    forall m | 0 <= m <= |res|
      ensures res[..m] == full[..m]
    {
      PrefixAgrees(pre, prop, live, res, full, m);
    }
    assert res == res[..|res|] && full == full[..|full|];
  }

  lemma {:induction false} PrefixAgrees(pre: Slots, prop: Slots, live: seq<bool>, res: Slots, full: Slots, m: nat)
    requires |pre| == |prop| == |live| && Reserves(pre, prop, live, res) && Reserves(pre, prop, live, full)
    requires m <= |res|
    ensures res[..m] == full[..m]
  {
    if m > 0 {
      PrefixAgrees(pre, prop, live, res, full, m - 1);
      var k := m - 1;
      assert res[..k] == res[..m - 1] && full[..k] == full[..m - 1];
      assert res[..m] == res[..m - 1] + [res[k]];
      assert full[..m] == full[..m - 1] + [full[k]];
    }
  }

  /** Agents sent back under a reservation: those not given their proposal. */
  ghost function Reverted(prop: Slots, res: Slots): set<nat>
  {
    set k: nat | k < |res| && k < |prop| && res[k] != prop[k]
  }

  /** A live agent never ends on the cell another live agent started from. */
  lemma ReservedAvoidsOthersStart(pre: Slots, prop: Slots, live: seq<bool>, res: Slots, a: nat, c: nat)
    requires Orderly(pre, prop, live) && Reserves(pre, prop, live, res)
    requires a < |res| && c < |res| && a != c && live[a] && live[c]
    ensures res[a] != pre[c]
  {
    assert pre[c] in pre;
    assert pre[a] != pre[c] by {
      if a < c {
      } else {
        assert pre[c] != pre[a];
      }
    }
  }

  /** Every agent ends on its proposal or on its start, and live ones on a cell. */
  lemma ReservedIsProposalOrStart(pre: Slots, prop: Slots, live: seq<bool>, res: Slots, k: nat)
    requires Orderly(pre, prop, live) && Reserves(pre, prop, live, res) && k < |res|
    ensures res[k] == prop[k] || res[k] == pre[k]
    ensures live[k] <==> res[k].Some?
  {
  }

  /** The reservation never puts two live agents on one cell. */
  lemma ReservedDistinct(pre: Slots, prop: Slots, live: seq<bool>, res: Slots, a: nat, c: nat)
    requires Orderly(pre, prop, live) && Reserves(pre, prop, live, res)
    requires a < c < |res| && live[a] && live[c]
    ensures res[a] != res[c]
  {
    BlockedBy(pre, prop, live, res, c);
    if res[c] == pre[c] {
      ReservedAvoidsOthersStart(pre, prop, live, res, a, c);
    }
  }

  /** Agent `k` is sent back exactly when a lower live agent took its cell. */
  lemma RevertedIffBeaten(pre: Slots, prop: Slots, live: seq<bool>, res: Slots, k: nat)
    requires Orderly(pre, prop, live) && Reserves(pre, prop, live, res) && k < |res|
    ensures k in Reverted(prop, res) <==> live[k] && Beaten(prop, live, res, k)
  {
    BlockedBy(pre, prop, live, res, k);
    if live[k] && Beaten(prop, live, res, k) {
      var b :| 0 <= b < k && live[b] && res[b] == prop[k];
      ReservedAvoidsOthersStart(pre, prop, live, res, b, k);
    }
  }

  /**
   * The agents already sent back once the pass has handled every pair
   * `(b, k)` with `b < i`, and the pairs `(i, k)` with `k < j`.
   */
  ghost function Rev(prop: Slots, live: seq<bool>, res: Slots, i: nat, j: nat): set<nat>
    requires |prop| == |live| == |res|
  {
    set k: nat | k < |res| && live[k] &&
      exists b :: 0 <= b < k && live[b] && res[b] == prop[k] && (b < i || (b == i && k < j))
  }

  /** Handling pair `(i, j)` adds `j` exactly when `i` holds the cell `j` proposes. */
  lemma RevNext(prop: Slots, live: seq<bool>, res: Slots, i: nat, j: nat)
    requires |prop| == |live| == |res| && i < j < |res|
    ensures Rev(prop, live, res, i, j + 1)
      == Rev(prop, live, res, i, j) + (if live[i] && live[j] && res[i] == prop[j] then {j} else {})
  {
  }

  /** The state of the pass inside row `i`, before pair `(i, j)`. */
  ghost predicate RowInv(pre: Slots, prop: Slots, live: seq<bool>, res: Slots, cur: Slots, count: nat, i: nat, j: nat)
    requires |pre| == |prop| == |live| == |res|
  {
    && |cur| == |res| && i < |res|
    && (forall k :: 0 <= k <= i ==> cur[k] == res[k])
    && (forall k :: i < k < |res| ==> cur[k] == (if k in Rev(prop, live, res, i, j) then pre[k] else prop[k]))
    && count == |Rev(prop, live, res, i, j)|
  }

  /** Agent `i`'s reserved cell is no later live agent's start. */
  ghost predicate Apart(pre: Slots, live: seq<bool>, res: Slots, i: nat)
    requires |pre| == |live| == |res| && i < |res|
  {
    forall j :: i < j < |res| && live[i] && live[j] ==> res[i] != pre[j]
  }

  /** One comparison of the inner loop keeps the row invariant. */
  lemma RowStep(pre: Slots, prop: Slots, live: seq<bool>, res: Slots, cur: Slots, count: nat, i: nat, j: nat)
    requires |pre| == |prop| == |live| == |res|
    requires i < j < |res| && Apart(pre, live, res, i) && RowInv(pre, prop, live, res, cur, count, i, j)
    ensures var hit := cur[i] == cur[j] && live[i] && live[j];
      RowInv(pre, prop, live, res, if hit then cur[j := pre[j]] else cur, if hit then count + 1 else count, i, j + 1)
  {
    if cur[i] == cur[j] && live[i] && live[j] {
      RowStepHit(pre, prop, live, res, cur, count, i, j);
    } else {
      RowStepMiss(pre, prop, live, res, cur, count, i, j);
    }
  }

  lemma RowStepHit(pre: Slots, prop: Slots, live: seq<bool>, res: Slots, cur: Slots, count: nat, i: nat, j: nat)
    requires |pre| == |prop| == |live| == |res|
    requires i < j < |res| && RowInv(pre, prop, live, res, cur, count, i, j)
    requires live[i] && live[j] && res[i] != pre[j] && cur[i] == cur[j]
    ensures RowInv(pre, prop, live, res, cur[j := pre[j]], count + 1, i, j + 1)
  {
    var s := Rev(prop, live, res, i, j);
    var s' := Rev(prop, live, res, i, j + 1);
    RevNext(prop, live, res, i, j);
    assert j !in s;
    assert s' == s + {j};
    assert |s'| == |s| + 1;
  }

  lemma RowStepMiss(pre: Slots, prop: Slots, live: seq<bool>, res: Slots, cur: Slots, count: nat, i: nat, j: nat)
    requires |pre| == |prop| == |live| == |res|
    requires i < j < |res| && RowInv(pre, prop, live, res, cur, count, i, j)
    requires live[i] && live[j] ==> res[i] != pre[j]
    requires !(cur[i] == cur[j] && live[i] && live[j])
    ensures RowInv(pre, prop, live, res, cur, count, i, j + 1)
  {
    var s := Rev(prop, live, res, i, j);
    var s' := Rev(prop, live, res, i, j + 1);
    RevNext(prop, live, res, i, j);
    assert s' == s;
  }

  /** The rest of row `i`, from pair `(i, j)` on, ends in the row invariant for the whole row. */
  ghost predicate RowDone(pre: Slots, prop: Slots, live: seq<bool>, res: Slots, cur: Slots, count: nat, i: nat, j: nat)
    requires |pre| == |prop| == |live| == |res| == |cur| && i < j <= |res|
  {
    var r := PassRow(pre, live, cur, i, j, count);
    RowInv(pre, prop, live, res, r.0, r.1, i, |res|)
  }

  /** One comparison keeps the row invariant and leaves the rest of the row's outcome unchanged. */
  lemma RowContinues(pre: Slots, prop: Slots, live: seq<bool>, res: Slots, cur: Slots, count: nat, i: nat, j: nat)
      returns (next: Slots, n: nat)
    requires |pre| == |prop| == |live| == |res|
    requires i < j < |res| && Apart(pre, live, res, i) && RowInv(pre, prop, live, res, cur, count, i, j)
    ensures RowInv(pre, prop, live, res, next, n, i, j + 1)
    ensures PassRow(pre, live, cur, i, j, count) == PassRow(pre, live, next, i, j + 1, n)
  {
    var hit := cur[i] == cur[j] && live[i] && live[j];
    next := if hit then cur[j := pre[j]] else cur;
    n := if hit then count + 1 else count;
    RowStep(pre, prop, live, res, cur, count, i, j);
  }

  lemma {:induction false} PassRowReserves(pre: Slots, prop: Slots, live: seq<bool>, res: Slots, cur: Slots, count: nat, i: nat, j: nat)
    requires |pre| == |prop| == |live| == |res|
    requires i < j <= |res| && Apart(pre, live, res, i) && RowInv(pre, prop, live, res, cur, count, i, j)
    ensures RowDone(pre, prop, live, res, cur, count, i, j)
    decreases |res| - j
  {
    if j < |res| {
      var next, n := RowContinues(pre, prop, live, res, cur, count, i, j);
      PassRowReserves(pre, prop, live, res, next, n, i, j + 1);
    }
  }

  lemma RowEnds(prop: Slots, live: seq<bool>, res: Slots, i: nat)
    requires |prop| == |live| == |res| && i < |res|
    ensures Rev(prop, live, res, i, i + 1) == Rev(prop, live, res, i, 0)
    ensures Rev(prop, live, res, i, |res|) == Rev(prop, live, res, i + 1, 0)
  {
  }

  /** The state of the pass before row `i`. */
  ghost predicate PassInv(pre: Slots, prop: Slots, live: seq<bool>, res: Slots, cur: Slots, count: nat, i: nat)
    requires |pre| == |prop| == |live| == |res|
  {
    && i <= |res| && |cur| == |res|
    && (forall k :: 0 <= k < i ==> cur[k] == res[k])
    && (forall k :: i <= k < |res| ==> cur[k] == (if k in Rev(prop, live, res, i, 0) then pre[k] else prop[k]))
    && count == |Rev(prop, live, res, i, 0)|
  }

  /** The rows from `i` on end in the reservation, with every sent-back agent counted. */
  ghost predicate PassDone(pre: Slots, prop: Slots, live: seq<bool>, res: Slots, cur: Slots, count: nat, i: nat)
    requires |pre| == |prop| == |live| == |res| == |cur| && i <= |res|
  {
    var r := Pass(pre, live, cur, i, count);
    r.0 == res && r.1 == |Rev(prop, live, res, |res|, 0)|
  }

  /** What the pass needs to know of the reservation, row by row. */
  ghost predicate Settled(pre: Slots, prop: Slots, live: seq<bool>, res: Slots)
    requires |pre| == |prop| == |live| == |res|
  {
    forall i :: 0 <= i < |res| ==>
      Apart(pre, live, res, i) && res[i] == (if live[i] && Beaten(prop, live, res, i) then pre[i] else prop[i])
  }

  lemma ReservationSettled(pre: Slots, prop: Slots, live: seq<bool>, res: Slots)
    requires Orderly(pre, prop, live) && Reserves(pre, prop, live, res)
    ensures Settled(pre, prop, live, res)
  {
    forall i | 0 <= i < |res|
      ensures Apart(pre, live, res, i) && res[i] == (if live[i] && Beaten(prop, live, res, i) then pre[i] else prop[i])
    {
      BlockedBy(pre, prop, live, res, i);
      forall j | i < j < |res| && live[i] && live[j] ensures res[i] != pre[j] {
        ReservedAvoidsOthersStart(pre, prop, live, res, i, j);
      }
    }
  }

  /** Before row `i`, the pass invariant is the row invariant with no pair of the row handled yet. */
  lemma RowStarts(pre: Slots, prop: Slots, live: seq<bool>, res: Slots, cur: Slots, count: nat, i: nat)
    requires |pre| == |prop| == |live| == |res| && Settled(pre, prop, live, res)
    requires PassInv(pre, prop, live, res, cur, count, i) && i < |res|
    ensures Apart(pre, live, res, i) && RowInv(pre, prop, live, res, cur, count, i, i + 1)
  {
    RowEnds(prop, live, res, i);
    assert i in Rev(prop, live, res, i, 0) <==> live[i] && Beaten(prop, live, res, i);
  }

  /** After row `i`, the row invariant is the pass invariant before row `i + 1`. */
  lemma RowFinishes(pre: Slots, prop: Slots, live: seq<bool>, res: Slots, cur: Slots, count: nat, i: nat)
    requires |pre| == |prop| == |live| == |res|
    requires i < |res| && RowInv(pre, prop, live, res, cur, count, i, |res|)
    ensures PassInv(pre, prop, live, res, cur, count, i + 1)
  {
    RowEnds(prop, live, res, i);
  }

  lemma PassUnfolds(pre: Slots, live: seq<bool>, cur: Slots, i: nat, count: nat)
    requires |pre| == |live| == |cur| && i < |cur|
    ensures var row := PassRow(pre, live, cur, i, i + 1, count);
      Pass(pre, live, cur, i, count) == Pass(pre, live, row.0, i + 1, row.1)
  {
  }

  /** Row `i` takes the pass invariant from row `i` to row `i + 1` and leaves the outcome of the pass unchanged. */
  lemma PassContinues(pre: Slots, prop: Slots, live: seq<bool>, res: Slots, cur: Slots, count: nat, i: nat)
      returns (next: Slots, n: nat)
    requires |pre| == |prop| == |live| == |res| && Settled(pre, prop, live, res)
    requires PassInv(pre, prop, live, res, cur, count, i) && i < |res|
    ensures PassInv(pre, prop, live, res, next, n, i + 1)
    ensures Pass(pre, live, cur, i, count) == Pass(pre, live, next, i + 1, n)
  {
    RowStarts(pre, prop, live, res, cur, count, i);
    PassRowReserves(pre, prop, live, res, cur, count, i, i + 1);
    var row := PassRow(pre, live, cur, i, i + 1, count);
    next, n := row.0, row.1;
    RowFinishes(pre, prop, live, res, next, n, i);
    PassUnfolds(pre, live, cur, i, count);
  }

  lemma {:induction false} PassReserves(pre: Slots, prop: Slots, live: seq<bool>, res: Slots, cur: Slots, count: nat, i: nat)
    requires |pre| == |prop| == |live| == |res| && Settled(pre, prop, live, res)
    requires PassInv(pre, prop, live, res, cur, count, i)
    ensures PassDone(pre, prop, live, res, cur, count, i)
    decreases |res| - i
  {
    if i < |res| {
      var next, n := PassContinues(pre, prop, live, res, cur, count, i);
      PassReserves(pre, prop, live, res, next, n, i + 1);
    } else {
      PassEnds(pre, prop, live, res, cur, count);
    }
  }

  lemma PassEnds(pre: Slots, prop: Slots, live: seq<bool>, res: Slots, cur: Slots, count: nat)
    requires |pre| == |prop| == |live| == |res|
    requires PassInv(pre, prop, live, res, cur, count, |res|)
    ensures PassDone(pre, prop, live, res, cur, count, |res|)
  {
    assert cur == res;
  }

  /**
   * On orderly proposals the pass is the first-come reservation, counts one
   * collision per agent it sends back, and leaves no two live agents on one
   * cell.
   */
  lemma CollisionPassReserves(pre: Slots, prop: Slots, live: seq<bool>)
    requires Orderly(pre, prop, live)
    ensures var r := CollisionPass(pre, prop, live);
      && r.0 == Reservation(pre, prop, live, |prop|)
      && r.1 == |Reverted(prop, r.0)|
      && (forall k :: 0 <= k < |r.0| ==> (live[k] <==> r.0[k].Some?))
      && (forall a, c :: 0 <= a < c < |r.0| && live[a] && live[c] ==> r.0[a] != r.0[c])
  {
    var res := Reservation(pre, prop, live, |prop|);
    PassReachesReservation(pre, prop, live, res);
    RevIsReverted(pre, prop, live, res);
    forall k | 0 <= k < |res| ensures live[k] <==> res[k].Some? {
      ReservedIsProposalOrStart(pre, prop, live, res, k);
    }
    forall a, c | 0 <= a < c < |res| && live[a] && live[c]
      ensures res[a] != res[c]
    {
      ReservedDistinct(pre, prop, live, res, a, c);
    }
  }

  /** The pass ends in the reservation, having counted the agents the rows sent back. */
  lemma PassReachesReservation(pre: Slots, prop: Slots, live: seq<bool>, res: Slots)
    requires Orderly(pre, prop, live) && Reserves(pre, prop, live, res)
    ensures CollisionPass(pre, prop, live) == (res, |Rev(prop, live, res, |res|, 0)|)
  {
    assert Rev(prop, live, res, 0, 0) == {};
    ReservationSettled(pre, prop, live, res);
    PassReserves(pre, prop, live, res, prop, 0, 0);
  }

  /** After the last row, the agents sent back are those whose proposal was refused. */
  lemma RevIsReverted(pre: Slots, prop: Slots, live: seq<bool>, res: Slots)
    requires Orderly(pre, prop, live) && Reserves(pre, prop, live, res)
    ensures Rev(prop, live, res, |res|, 0) == Reverted(prop, res)
  {
    forall k | 0 <= k < |res|
      ensures k in Rev(prop, live, res, |res|, 0) <==> k in Reverted(prop, res)
    {
      RevertedIffBeaten(pre, prop, live, res, k);
    }
  }

  /** The lowest index always keeps its proposal; each agent is sent back at most to its start. */
  lemma LowestKeepsProposal(pre: Slots, prop: Slots, live: seq<bool>)
    requires Orderly(pre, prop, live) && |prop| > 0
    ensures var r := CollisionPass(pre, prop, live);
      r.0[0] == prop[0] && forall k :: 0 <= k < |prop| ==> r.0[k] in {prop[k], pre[k]}
  {
    CollisionPassReserves(pre, prop, live);
    var res := Reservation(pre, prop, live, |prop|);
    forall k | 0 <= k < |prop|
      ensures res[k] in {prop[k], pre[k]}
    {
      ReservedIsProposalOrStart(pre, prop, live, res, k);
    }
  }

  // ---------------------------------------------------------------------
  // The head-on swap check of the ollama loop

  /** Agents `i` and `j` would trade cells, and `i` actually moves. */
  predicate HeadOn(from: Slots, to: Slots, i: nat, j: nat)
    requires i < |from| && j < |from| && |to| == |from|
  {
    to[i] == from[j] && to[j] == from[i] && from[i] != to[i]
  }

  /** `swaps` for the pairs from `(i, j)` on, in the order the double loop visits them. */
  function SwapsFrom(from: Slots, to: Slots, i: nat, j: nat): (r: seq<(nat, nat)>)
    requires |from| == |to| && i < j <= |to| + 1
    ensures forall p :: p in r <==>
      (p.0 < p.1 < |to| && ((p.0 == i && j <= p.1) || i < p.0) && HeadOn(from, to, p.0, p.1))
    decreases |to| - i, |to| + 1 - j
  {
    if i >= |to| then []
    else if j >= |to| then SwapsFrom(from, to, i + 1, i + 2)
    else (if HeadOn(from, to, i, j) then [(i, j)] else []) + SwapsFrom(from, to, i, j + 1)
  }

  /** Sends both agents of every listed pair back to their start. */
  function UndoSwaps(cur: Slots, from: Slots, swaps: seq<(nat, nat)>): (r: Slots)
    requires |cur| == |from| && forall p :: p in swaps ==> p.0 < |cur| && p.1 < |cur|
    ensures |r| == |cur|
    ensures forall k :: 0 <= k < |r| ==>
      r[k] == (if exists p :: p in swaps && (p.0 == k || p.1 == k) then from[k] else cur[k])
    decreases |swaps|
  {
    if swaps == [] then cur
    else
      var p := swaps[0];
      var next := cur[p.0 := from[p.0]][p.1 := from[p.1]];
      assert forall q :: q in swaps <==> q == p || q in swaps[1..] by {
        assert swaps == [p] + swaps[1..];
      }
      UndoSwaps(next, from, swaps[1..])
  }

  /** Some other agent trades cells head-on with agent `k`. */
  predicate InSwap(from: Slots, to: Slots, k: nat)
    requires |from| == |to| && k < |to|
  {
    exists o :: 0 <= o < |to| && ((o < k && HeadOn(from, to, o, k)) || (k < o && HeadOn(from, to, k, o)))
  }

  lemma SwapListed(from: Slots, to: Slots, k: nat)
    requires |from| == |to| && k < |to|
    ensures var swaps := SwapsFrom(from, to, 0, 1);
      InSwap(from, to, k) <==> exists p :: p in swaps && (p.0 == k || p.1 == k)
  {
    var swaps := SwapsFrom(from, to, 0, 1);
    if InSwap(from, to, k) {
      var o :| 0 <= o < |to| && ((o < k && HeadOn(from, to, o, k)) || (k < o && HeadOn(from, to, k, o)));
      if o < k {
        assert (o, k) in swaps;
      } else {
        assert (k, o) in swaps;
      }
    }
    if exists p :: p in swaps && (p.0 == k || p.1 == k) {
      var p :| p in swaps && (p.0 == k || p.1 == k);
      if p.0 == k {
        assert HeadOn(from, to, k, p.1);
      } else {
        assert HeadOn(from, to, p.0, k);
      }
    }
  }

  /** The swap check: every agent in a head-on trade stays where it was. */
  function SwapBlock(from: Slots, to: Slots): (r: Slots)
    requires |from| == |to|
    ensures |r| == |to|
    ensures forall k :: 0 <= k < |r| ==> r[k] == (if InSwap(from, to, k) then from[k] else to[k])
  {
    var swaps := SwapsFrom(from, to, 0, 1);
    forall k | 0 <= k < |to|
      ensures InSwap(from, to, k) <==> exists p :: p in swaps && (p.0 == k || p.1 == k)
    {
      SwapListed(from, to, k);
    }
    UndoSwaps(to, from, swaps)
  }

  /** Two agents that try to trade cells both stay put. */
  lemma HeadOnTradeIsUndone(a: Cell, c: Cell)
    requires a != c
    ensures SwapBlock([Some(a), Some(c)], [Some(c), Some(a)]) == [Some(a), Some(c)]
  {
    assert HeadOn([Some(a), Some(c)], [Some(c), Some(a)], 0, 1);
    assert InSwap([Some(a), Some(c)], [Some(c), Some(a)], 0);
    assert InSwap([Some(a), Some(c)], [Some(c), Some(a)], 1);
  }

  /**
   * After the collision pass on orderly proposals nobody ends on a cell
   * another agent started from, so the swap check never changes anything.
   */
  lemma SwapBlockIsIdle(pre: Slots, prop: Slots, live: seq<bool>)
    requires Orderly(pre, prop, live)
    ensures var r := CollisionPass(pre, prop, live);
      SwapBlock(pre, r.0) == r.0
  {
    CollisionPassReserves(pre, prop, live);
    var res := Reservation(pre, prop, live, |prop|);
    forall k | 0 <= k < |res|
      ensures !InSwap(pre, res, k)
    {
      forall o | 0 <= o < |res| && o != k
        ensures !HeadOn(pre, res, k, o)
      {
        if live[k] && live[o] {
          ReservedAvoidsOthersStart(pre, prop, live, res, k, o);
        }
      }
    }
  }
}

=== FILE: distances.dfy ===
/**
 * The two tabulations of the distance oracle: the dictionary
 * `compute_distance_table` of core/plot_human_cases.py, which skips retired
 * agents and claimed goals, and the dense `compute_distance_matrix` of
 * core/find_optim_sol.py, which does not.
 */
module Distances {
  import opened Wrappers
  import opened Grid
  import opened Bfs

  /**
   * The oracle called on slots that may hold `None`. A `None` goal is never
   * equal to a popped cell, so the search drains and answers the sentinel;
   * two `None`s are equal and answer 0. A `None` start with a real goal
   * cannot be unpacked by the search and raises, so callers must avoid it.
   */
  function DistanceOpt(b: Board, start: Option<Cell>, goal: Option<Cell>): (r: Distance)
    requires start.Some? || goal.None?
    ensures start.Some? && goal.None? ==> r == Inf
    ensures start.None? ==> r == Fin(0)
    ensures start.Some? && goal.Some? ==> r == ShortestPathLength(b, start.value, goal.value)
  {
    if start == goal then Fin(0)
    else if goal.None? then Inf
    else ShortestPathLength(b, start.value, goal.value)
  }

  /** `compute_distance_table(env)`: `{agent index: {goal index: distance}}` over live slots. */
  method ComputeDistanceTable(w: World) returns (t: map<nat, map<nat, Distance>>)
    ensures forall i: nat :: i in t <==> i < |w.agents| && w.agents[i].Some?
    ensures forall i: nat :: i in t ==> forall j: nat :: j in t[i] <==> j < |w.goals| && w.goals[j].Some?
    ensures forall i: nat, j: nat :: i in t && j in t[i] ==>
      t[i][j] == ShortestPathLength(w.board, w.agents[i].value, w.goals[j].value)
  {
    t := map[];
    var i := 0;
    while i < |w.agents|
      invariant 0 <= i <= |w.agents|
      invariant forall k: nat :: k in t <==> k < i && w.agents[k].Some?
      invariant forall k: nat :: k in t ==> forall j: nat :: j in t[k] <==> j < |w.goals| && w.goals[j].Some?
      invariant forall k: nat, j: nat :: k in t && j in t[k] ==>
        t[k][j] == ShortestPathLength(w.board, w.agents[k].value, w.goals[j].value)
    {
      if w.agents[i].Some? {
        var agent := w.agents[i].value;
        var row: map<nat, Distance> := map[];
        var j := 0;
        while j < |w.goals|
          invariant 0 <= j <= |w.goals|
          invariant forall g: nat :: g in row <==> g < j && w.goals[g].Some?
          invariant forall g: nat :: g in row ==> row[g] == ShortestPathLength(w.board, agent, w.goals[g].value)
        {
          if w.goals[j].Some? {
            row := row[j := ShortestPathLength(w.board, agent, w.goals[j].value)];
          }
          j := j + 1;
        }
        t := t[i := row];
      }
      i := i + 1;
    }
  }

  /**
   * `compute_distance_matrix(env)`: one row per agent slot, one column per
   * goal slot. The source raises when a retired agent meets a live goal.
   */
  method ComputeDistanceMatrix(w: World) returns (m: seq<seq<Distance>>)
    requires forall i, j :: 0 <= i < |w.agents| && 0 <= j < |w.goals| ==> w.agents[i].Some? || w.goals[j].None?
    ensures |m| == |w.agents|
    ensures forall i :: 0 <= i < |m| ==> |m[i]| == |w.goals|
    ensures forall i, j :: 0 <= i < |m| && 0 <= j < |w.goals| ==> m[i][j] == DistanceOpt(w.board, w.agents[i], w.goals[j])
  {
    m := [];
    var i := 0;
    while i < |w.agents|
      invariant 0 <= i <= |w.agents| && |m| == i
      invariant forall k :: 0 <= k < i ==> |m[k]| == |w.goals|
      invariant forall k, j :: 0 <= k < i && 0 <= j < |w.goals| ==> m[k][j] == DistanceOpt(w.board, w.agents[k], w.goals[j])
    {
      var row: seq<Distance> := [];
      var j := 0;
      while j < |w.goals|
        invariant 0 <= j <= |w.goals| && |row| == j
        invariant forall g :: 0 <= g < j ==> row[g] == DistanceOpt(w.board, w.agents[i], w.goals[g])
      {
        row := row + [DistanceOpt(w.board, w.agents[i], w.goals[j])];
        j := j + 1;
      }
      m := m + [row];
      i := i + 1;
    }
  }

  /**
   * When every slot is live the two tabulations hold the same numbers; the
   * table merely drops the rows and columns of empty slots.
   */
  lemma TableAgreesWithMatrix(w: World, t: map<nat, map<nat, Distance>>, m: seq<seq<Distance>>, i: nat, j: nat)
    requires forall k: nat :: k in t <==> k < |w.agents| && w.agents[k].Some?
    requires forall k: nat :: k in t ==> forall g: nat :: g in t[k] <==> g < |w.goals| && w.goals[g].Some?
    requires forall k: nat, g: nat :: k in t && g in t[k] ==>
      t[k][g] == ShortestPathLength(w.board, w.agents[k].value, w.goals[g].value)
    requires |m| == |w.agents| && forall k :: 0 <= k < |m| ==> |m[k]| == |w.goals|
    requires forall k, g :: 0 <= k < |m| && 0 <= g < |w.goals| ==> w.agents[k].Some? || w.goals[g].None?
    requires forall k, g :: 0 <= k < |m| && 0 <= g < |w.goals| ==> m[k][g] == DistanceOpt(w.board, w.agents[k], w.goals[g])
    requires i < |w.agents| && j < |w.goals|
    ensures i in t && j in t[i] <==> w.agents[i].Some? && w.goals[j].Some?
    ensures i in t && j in t[i] ==> t[i][j] == m[i][j]
    ensures w.agents[i].Some? && w.goals[j].None? ==> m[i][j] == Inf
  {
  }
}

=== FILE: engine.dfy ===
/**
 * One timestep of the run loops: every active agent proposes a cell, the
 * collision pass settles same-cell clashes (and, in the ollama loop, the
 * head-on swap check runs), the positions are committed, and agents on a
 * goal retire.
 *
 * All five loops keep `agent_positions` and `env.agents` equal (both are
 * assigned the committed cells and cleared together), so the world's agent
 * list stands for both. The invariant every step keeps is `WellFormed`: an
 * agent is active exactly when it has a cell, and no two active agents
 * share one.
 */
module Engine {
  import opened Wrappers
  import opened Seqs
  import opened Grid
  import opened Labels
  import opened Resolver
  import opened Parsing
  import opened Heuristic
  import opened Greedy
  import opened Collision
  import opened Assignment
  import Negotiation

  /** The loop variables: the world, `active`, `step` and `collisions`. */
  datatype Sim = Sim(world: World, active: seq<bool>, step: nat, collisions: nat)

  predicate WellFormed(s: Sim)
  {
    && |s.active| == |s.world.agents|
    && (forall k :: 0 <= k < |s.active| ==> (s.active[k] <==> s.world.agents[k].Some?))
    && (forall a, c :: 0 <= a < c < |s.active| && s.active[a] && s.active[c] ==> s.world.agents[a] != s.world.agents[c])
  }

  /** `any(active)`. */
  predicate AnyActive(s: Sim)
  {
    exists k :: 0 <= k < |s.active| && s.active[k]
  }

  /** The `is not None` test the collision pass of most loops applies. */
  function PositionsLive(pre: seq<Option<Cell>>): (live: seq<bool>)
    ensures |live| == |pre| && forall k :: 0 <= k < |pre| ==> (live[k] <==> pre[k].Some?)
  {
    seq(|pre|, k requires 0 <= k < |pre| => pre[k].Some?)
  }

  lemma PositionsLiveIsActive(s: Sim)
    requires WellFormed(s)
    ensures PositionsLive(s.world.agents) == s.active
  {
  }

  // ---------------------------------------------------------------------
  // Proposals

  /** A proposal is the agent's own cell or a valid neighbouring cell. */
  predicate StepsOrStays(w: World, pre: Option<Cell>, prop: Option<Cell>)
  {
    prop == pre || (pre.Some? && prop.Some? && IsValid(w, prop.value) && Adjacent(pre.value, prop.value))
  }

  /** One agent's proposal from `select_direction_opt` and `move_agent`. */
  function HeuristicMove(w: World, pos: Cell, declared: Option<string>): (r: Cell)
    requires Selectable(w.goals, declared)
    ensures r == pos || (IsValid(w, r) && Adjacent(pos, r))
    ensures r != pos <==> SelectDirectionOpt(w, pos, declared).Some?
    ensures SelectDirectionOpt(w, pos, declared).Some? ==> r == Neighbour(pos, SelectDirectionOpt(w, pos, declared).value)
  {
    match SelectDirectionOpt(w, pos, declared)
    case None => pos
    case Some(d) =>
      NeighbourIsAdjacent(pos, d);
      MoveAgent(w, pos, Name(d))
  }

  /**
   * The movement phase of the greedy, rank-priority and ollama loops:
   * agents that are retired or have no cell keep their slot as it is.
   */
  function HeuristicProposals(w: World, active: seq<bool>, declared: seq<Option<string>>): (props: seq<Option<Cell>>)
    requires |active| == |w.agents| == |declared|
    requires forall i :: 0 <= i < |active| && active[i] ==> Selectable(w.goals, declared[i])
    ensures |props| == |w.agents|
    ensures forall i :: 0 <= i < |props| ==> StepsOrStays(w, w.agents[i], props[i])
    ensures forall i :: 0 <= i < |props| && !active[i] ==> props[i] == w.agents[i]
    ensures forall i :: 0 <= i < |props| && active[i] && w.agents[i].Some? ==>
      (props[i] != w.agents[i] <==> SelectDirectionOpt(w, w.agents[i].value, declared[i]).Some?)
  {
    seq(|active|, i requires 0 <= i < |active| =>
      if !active[i] || w.agents[i].None? then w.agents[i]
      else Some(HeuristicMove(w, w.agents[i].value, declared[i])))
  }

  /**
   * The language-model direction choice of the top-two and yes/no loops:
   * whichever of `get_valid_actions` the model scores highest, named here
   * by `pick` (taken modulo the number of valid actions); the agent stays
   * when no action is valid.
   */
  function OracleMove(w: World, pos: Cell, pick: nat): (r: Cell)
    ensures r == pos <==> GetValidActions(w, pos) == []
    ensures r == pos || (IsValid(w, r) && Adjacent(pos, r))
    ensures r != pos ==> exists d :: d in GetValidActions(w, pos) && r == Neighbour(pos, d)
  {
    var valid := GetValidActions(w, pos);
    if valid == [] then pos
    else
      var d := valid[pick % |valid|];
      assert d in valid;
      NeighbourIsAdjacent(pos, d);
      assert MoveAgent(w, pos, Name(d)) == Neighbour(pos, d);
      MoveAgent(w, pos, Name(d))
  }

  /** Every valid neighbour is some answer of the model. */
  lemma OracleCanChooseAnyValidMove(w: World, pos: Cell, d: Direction) returns (pick: nat)
    requires IsValid(w, Neighbour(pos, d))
    ensures OracleMove(w, pos, pick) == Neighbour(pos, d)
  {
    var valid := GetValidActions(w, pos);
    assert d in valid;
    pick := IndexOf(valid, d);
    ModSmall(pick, |valid|);
    OracleMoveFollowsPick(w, pos, pick);
  }

  /** A non-empty menu of valid actions: the answer is the neighbour in the picked direction. */
  lemma OracleMoveFollowsPick(w: World, pos: Cell, pick: nat)
    requires GetValidActions(w, pos) != []
    ensures var valid := GetValidActions(w, pos);
      OracleMove(w, pos, pick) == Neighbour(pos, valid[pick % |valid|])
  {
    var valid := GetValidActions(w, pos);
    assert valid[pick % |valid|] in valid;
  }

  function OracleProposals(w: World, active: seq<bool>, picks: seq<nat>): (props: seq<Option<Cell>>)
    requires |active| == |w.agents| == |picks|
    ensures |props| == |w.agents|
    ensures forall i :: 0 <= i < |props| ==> StepsOrStays(w, w.agents[i], props[i])
    ensures forall i :: 0 <= i < |props| && !active[i] ==> props[i] == w.agents[i]
    ensures forall i :: 0 <= i < |props| && active[i] && w.agents[i].Some? ==>
      (props[i] == w.agents[i] <==> GetValidActions(w, w.agents[i].value) == [])
  {
    seq(|active|, i requires 0 <= i < |active| =>
      if !active[i] || w.agents[i].None? then w.agents[i]
      else Some(OracleMove(w, w.agents[i].value, picks[i])))
  }

  /** Proposals that step to valid cells or stay are what the collision pass expects. */
  lemma ProposalsAreOrderly(s: Sim, props: seq<Option<Cell>>)
    requires WellFormed(s) && |props| == |s.world.agents|
    requires forall i :: 0 <= i < |props| ==> StepsOrStays(s.world, s.world.agents[i], props[i])
    requires forall i :: 0 <= i < |props| && !s.active[i] ==> props[i] == s.world.agents[i]
    ensures Orderly(s.world.agents, props, s.active)
  {
  }

  // ---------------------------------------------------------------------
  // Commit

  /**
   * The collision pass, the optional swap check and the commit of
   * `new_positions`; `collisions` grows by the pass's count.
   */
  function Advance(s: Sim, props: seq<Option<Cell>>, live: seq<bool>, blockSwaps: bool): (r: Sim)
    requires |props| == |live| == |s.world.agents|
    ensures r.world.board == s.world.board && r.world.goals == s.world.goals
    ensures r.active == s.active && r.step == s.step && r.collisions >= s.collisions
    ensures |r.world.agents| == |s.world.agents|
  {
    var pass := CollisionPass(s.world.agents, props, live);
    var cells := if blockSwaps then SwapBlock(s.world.agents, pass.0) else pass.0;
    s.(world := s.world.(agents := cells), collisions := s.collisions + pass.1)
  }

  /**
   * Committing orderly proposals keeps the invariant: the committed cells
   * are the first-come reservation, with one collision per agent sent back,
   * whether or not the swap check runs.
   */
  lemma AdvanceKeepsWellFormed(s: Sim, props: seq<Option<Cell>>, blockSwaps: bool)
    requires WellFormed(s) && Orderly(s.world.agents, props, s.active)
    ensures var r := Advance(s, props, s.active, blockSwaps);
      && WellFormed(r)
      && r.world.agents == Reservation(s.world.agents, props, s.active, |props|)
      && r.collisions == s.collisions + |Reverted(props, r.world.agents)|
  {
    CollisionPassReserves(s.world.agents, props, s.active);
    if blockSwaps {
      SwapBlockIsIdle(s.world.agents, props, s.active);
    }
  }

  // ---------------------------------------------------------------------
  // Goal claiming

  /** `if goal in env.goals: env.goals[env.goals.index(goal)] = None`. */
  function ClearFirst(goals: seq<Option<Cell>>, g: Option<Cell>): (r: seq<Option<Cell>>)
    ensures |r| == |goals|
  {
    if g in goals then goals[FirstIndex(goals, g) := None] else goals
  }

  /** The loop over `claimed_goals`. */
  function ClearAll(goals: seq<Option<Cell>>, claimed: seq<Option<Cell>>): (r: seq<Option<Cell>>)
    ensures |r| == |goals|
    decreases |claimed|
  {
    if claimed == [] then goals else ClearAll(ClearFirst(goals, claimed[0]), claimed[1..])
  }

  /** Clearing one cell leaves the first slot of every other cell where it was. */
  lemma FirstSlotAfterClear(goals: seq<Option<Cell>>, g: Option<Cell>, x: Option<Cell>)
    requires x != g && x.Some?
    ensures x in ClearFirst(goals, g) <==> x in goals
    ensures x in goals ==> FirstIndex(ClearFirst(goals, g), x) == FirstIndex(goals, x)
  {
    var c := ClearFirst(goals, g);
    if x in goals {
      var n := FirstIndex(goals, x);
      assert c[n] == x;
      var m := FirstIndex(c, x);
      assert goals[m] == x;
    }
    if x in c {
      var m := FirstIndex(c, x);
      assert goals[m] == x;
    }
  }

  /**
   * When the claimed cells are distinct, a goal slot ends up empty exactly
   * when it was already empty or it is the first slot holding a claimed cell.
   */
  lemma {:induction false} ClearAllClearsFirstSlots(goals: seq<Option<Cell>>, claimed: seq<Option<Cell>>)
    requires forall k :: 0 <= k < |claimed| ==> claimed[k].Some?
    requires forall a, c :: 0 <= a < c < |claimed| ==> claimed[a] != claimed[c]
    ensures var r := ClearAll(goals, claimed);
      forall j :: 0 <= j < |goals| ==>
        r[j] == (if goals[j] in claimed && FirstIndex(goals, goals[j]) == j then None else goals[j])
    decreases |claimed|
  {
    if claimed != [] {
      var g := claimed[0];
      var rest := claimed[1..];
      var c := ClearFirst(goals, g);
      ClearAllClearsFirstSlots(c, rest);
      assert forall x :: x in claimed <==> x == g || x in rest by {
        assert claimed == [g] + rest;
      }
      assert g !in rest;
      assert None !in claimed;
      forall j | 0 <= j < |goals|
        ensures ClearAll(goals, claimed)[j]
          == (if goals[j] in claimed && FirstIndex(goals, goals[j]) == j then None else goals[j])
      {
        if goals[j] != g && goals[j].Some? {
          FirstSlotAfterClear(goals, g, goals[j]);
        }
      }
    }
  }

  /** Agent `i` stands on a cell listed in `env.goals` while active. */
  predicate Claims(s: Sim, i: nat)
    requires i < |s.active| && i < |s.world.agents|
  {
    s.active[i] && s.world.agents[i] in s.world.goals
  }

  /** `claimed_goals` from agent `from` on, in index order. */
  function ClaimedCells(s: Sim, from: nat): (r: seq<Option<Cell>>)
    requires WellFormed(s) && from <= |s.active|
    ensures forall x :: x in r <==> exists i :: from <= i < |s.active| && Claims(s, i) && s.world.agents[i] == x
    ensures forall k :: 0 <= k < |r| ==> r[k].Some?
    ensures forall a, c :: 0 <= a < c < |r| ==> r[a] != r[c]
    decreases |s.active| - from
  {
    if from == |s.active| then []
    else
      var rest := ClaimedCells(s, from + 1);
      if Claims(s, from) then
        assert s.world.agents[from] !in rest;
        [s.world.agents[from]] + rest
      else rest
  }

  /**
   * Goal claiming of the greedy, rank-priority, ollama and top-two loops:
   * every active agent on a cell still listed as a goal retires, its slot
   * becomes empty, and the first goal slot holding each claimed cell is
   * cleared. Nothing else changes.
   */
  function ClaimAny(s: Sim): (r: Sim)
    requires WellFormed(s)
    ensures WellFormed(r)
    ensures r.world.board == s.world.board && r.step == s.step && r.collisions == s.collisions
    ensures |r.active| == |s.active| && |r.world.goals| == |s.world.goals|
    ensures forall i :: 0 <= i < |s.active| ==> r.active[i] == (s.active[i] && !Claims(s, i))
    ensures forall i :: 0 <= i < |s.active| ==> r.world.agents[i] == (if Claims(s, i) then None else s.world.agents[i])
    ensures forall j :: 0 <= j < |s.world.goals| ==>
      r.world.goals[j] == (if (exists i :: 0 <= i < |s.active| && Claims(s, i) && s.world.agents[i] == s.world.goals[j])
                             && FirstIndex(s.world.goals, s.world.goals[j]) == j
                           then None else s.world.goals[j])
  {
    var n := |s.active|;
    var claimed := ClaimedCells(s, 0);
    ClearAllClearsFirstSlots(s.world.goals, claimed);
    var active := seq(n, i requires 0 <= i < n => s.active[i] && !Claims(s, i));
    var agents := seq(n, i requires 0 <= i < n => if Claims(s, i) then None else s.world.agents[i]);
    Sim(World(s.world.board, agents, ClearAll(s.world.goals, claimed)), active, s.step, s.collisions)
  }

  /**
   * Goal claiming of the yes/no loop: an agent retires only on its own
   * assigned goal, and then its cell and its goal slot both become empty.
   */
  function ClaimOwn(s: Sim): (r: Sim)
    requires WellFormed(s) && |s.world.agents| <= |s.world.goals|
    ensures WellFormed(r)
    ensures r.world.board == s.world.board && r.step == s.step && r.collisions == s.collisions
    ensures |r.active| == |s.active| && |r.world.goals| == |s.world.goals|
    ensures forall i :: 0 <= i < |s.active| ==>
      var home := s.active[i] && s.world.agents[i] == s.world.goals[i];
      && r.active[i] == (s.active[i] && !home)
      && r.world.agents[i] == (if home then None else s.world.agents[i])
      && r.world.goals[i] == (if home then None else s.world.goals[i])
    ensures forall j :: |s.active| <= j < |s.world.goals| ==> r.world.goals[j] == s.world.goals[j]
  {
    var n := |s.active|;
    var home := seq(n, i requires 0 <= i < n => s.active[i] && s.world.agents[i] == s.world.goals[i]);
    var active := seq(n, i requires 0 <= i < n => s.active[i] && !home[i]);
    var agents := seq(n, i requires 0 <= i < n => if home[i] then None else s.world.agents[i]);
    var goals := seq(|s.world.goals|, j requires 0 <= j < |s.world.goals| =>
      if j < n && home[j] then None else s.world.goals[j]);
    Sim(World(s.world.board, agents, goals), active, s.step, s.collisions)
  }

  // ---------------------------------------------------------------------
  // Declared goals

  /** A label the movement policy can look up: one character, `'A'` or above. */
  predicate LabelLike(l: string)
  {
    |l| == 1 && 'A' <= l[0]
  }

  /** Every ranking entry of an active agent is label-like. */
  predicate RankingsFit(rs: seq<seq<string>>, active: seq<bool>)
  {
    forall i, k :: 0 <= i < |rs| && i < |active| && active[i] && 0 <= k < |rs[i]| ==> LabelLike(rs[i][k])
  }

  lemma LabelIsLabelLike(idx: nat)
    requires idx < LabelLimit
    ensures LabelLike(Label(idx))
  {
  }

  lemma LabelLikeSelectable(goals: seq<Option<Cell>>, l: string)
    requires LabelLike(l)
    ensures Selectable(goals, Some(l))
  {
    assert Upper(l)[0] == l[0] || ('a' <= l[0] <= 'z' && Upper(l)[0] as int == l[0] as int - 32);
  }

  /** Whatever the resolver hands an agent comes from that agent's own ranking. */
  lemma {:induction false} ResolvedFromOwnRanking(rs: seq<seq<string>>, active: seq<bool>, n: nat)
    requires n <= |rs| <= |active|
    ensures forall i :: 0 <= i < n && SerialDictatorship(rs, active, n)[i].Some? ==>
      SerialDictatorship(rs, active, n)[i].value in rs[i]
  {
    if n > 0 {
      ResolvedFromOwnRanking(rs, active, n - 1);
    }
  }

  /** Rankings of labels give every active agent a goal it can look up. */
  lemma ResolvedSelectable(goals: seq<Option<Cell>>, rs: seq<seq<string>>, active: seq<bool>)
    requires |rs| <= |active| && RankingsFit(rs, active)
    ensures forall i :: 0 <= i < |rs| && active[i] ==> Selectable(goals, SerialDictatorship(rs, active, |rs|)[i])
  {
    ResolvedFromOwnRanking(rs, active, |rs|);
    var sd := SerialDictatorship(rs, active, |rs|);
    forall i | 0 <= i < |rs| && active[i]
      ensures Selectable(goals, sd[i])
    {
      if sd[i].Some? {
        var k :| 0 <= k < |rs[i]| && rs[i][k] == sd[i].value;
        LabelLikeSelectable(goals, sd[i].value);
      }
    }
  }

  lemma GreedyRankingsFit(w: World, active: seq<bool>)
    requires |w.goals| <= LabelLimit && |active| == |w.agents|
    requires forall k :: 0 <= k < |active| ==> (active[k] <==> w.agents[k].Some?)
    ensures RankingsFit(ComputeGreedyRankingsLive(w), active)
  {
    var rs := ComputeGreedyRankingsLive(w);
    forall i, k | 0 <= i < |rs| && i < |active| && active[i] && 0 <= k < |rs[i]|
      ensures LabelLike(rs[i][k])
    {
      var row := DistanceRow(w, i);
      var p :| InRange(row, p) && IsPermutation(p, |row|) && SortedBy(row, p) && rs[i] == LabelsOf(p);
      LabelIsLabelLike(p[k]);
    }
  }

  /**
   * The rankings of the rank-priority loop: active agents with a cell get
   * their reply parsed and filtered; the others keep their previous ranking.
   */
  function RankPriorityRankings(s: Sim, replies: seq<Document>, picks: seq<nat>, previous: seq<seq<string>>): (rs: seq<seq<string>>)
    requires |s.world.goals| <= LabelLimit
    requires |replies| == |picks| == |previous| == |s.active| == |s.world.agents|
    ensures |rs| == |s.active|
    ensures forall i :: 0 <= i < |rs| && !s.active[i] ==> rs[i] == previous[i]
    ensures forall i, k :: 0 <= i < |rs| && s.active[i] && s.world.agents[i].Some? && 0 <= k < |rs[i]| ==>
      rs[i][k] in ValidLabels(s.world.goals)
  {
    seq(|s.active|, i requires 0 <= i < |s.active| =>
      if !s.active[i] || s.world.agents[i].None? then previous[i]
      else FilterRanking(ParseRanking(replies[i]), s.world.goals, picks[i]))
  }

  lemma RankPriorityRankingsFit(s: Sim, replies: seq<Document>, picks: seq<nat>, previous: seq<seq<string>>)
    requires WellFormed(s) && |s.world.goals| <= LabelLimit
    requires |replies| == |picks| == |previous| == |s.active|
    ensures RankingsFit(RankPriorityRankings(s, replies, picks, previous), s.active)
  {
    var rs := RankPriorityRankings(s, replies, picks, previous);
    forall i, k | 0 <= i < |rs| && i < |s.active| && s.active[i] && 0 <= k < |rs[i]|
      ensures LabelLike(rs[i][k])
    {
      var j :| 0 <= j < |s.world.goals| && s.world.goals[j].Some? && rs[i][k] == Label(j);
      LabelIsLabelLike(j);
    }
  }

  // ---------------------------------------------------------------------
  // The steps of the five loops

  /** What every step promises besides keeping `WellFormed`. */
  predicate Stepped(s: Sim, r: Sim)
  {
    && r.step == s.step + 1
    && r.collisions >= s.collisions
    && r.world.board == s.world.board
    && |r.world.goals| == |s.world.goals|
    && |r.active| == |s.active|
    && (forall i :: 0 <= i < |s.active| && !s.active[i] ==> !r.active[i])
  }

  /**
   * The goals the greedy loop declares: the distance rankings resolved by
   * `resolve_conflicts`. Every active agent's goal is one
   * `select_direction_opt` accepts.
   */
  function GreedyDeclared(s: Sim): (declared: seq<Option<string>>)
    requires WellFormed(s) && |s.world.goals| <= LabelLimit
    ensures |declared| == |s.active|
    ensures forall i :: 0 <= i < |s.active| && s.active[i] ==> Selectable(s.world.goals, declared[i])
  {
    var rs := ComputeGreedyRankingsLive(s.world);
    GreedyRankingsFit(s.world, s.active);
    ResolvedSelectable(s.world.goals, rs, s.active);
    SerialDictatorship(rs, s.active, |rs|)
  }

  /**
   * One iteration of the greedy loop: rankings by distance, the resolver,
   * `select_direction_opt` moves, the collision pass, commit and claiming.
   * Retired agents are ranked as `[]` (see `Greedy.ComputeGreedyRankingsLive`).
   */
  function GreedyStep(s: Sim): (r: Sim)
    requires WellFormed(s) && |s.world.goals| <= LabelLimit
    ensures WellFormed(r) && Stepped(s, r)
  {
    var props := HeuristicProposals(s.world, s.active, GreedyDeclared(s));
    ProposalsAreOrderly(s, props);
    AdvanceKeepsWellFormed(s, props, false);
    var claimed := ClaimAny(Advance(s, props, s.active, false));
    claimed.(step := s.step + 1)
  }

  /**
   * One iteration of the rank-priority loop once the rankings are known
   * (see `RankPriorityRankings`): the resolver, `select_direction_opt`
   * moves, the collision pass over agents that have a cell, commit and
   * claiming.
   */
  function RankPriorityStep(s: Sim, rankings: seq<seq<string>>): (r: Sim)
    requires WellFormed(s) && |rankings| == |s.active| && RankingsFit(rankings, s.active)
    ensures WellFormed(r) && Stepped(s, r)
  {
    ResolvedSelectable(s.world.goals, rankings, s.active);
    var declared := SerialDictatorship(rankings, s.active, |rankings|);
    var props := HeuristicProposals(s.world, s.active, declared);
    ProposalsAreOrderly(s, props);
    AdvanceKeepsWellFormed(s, props, false);
    PositionsLiveIsActive(s);
    var claimed := ClaimAny(Advance(s, props, PositionsLive(s.world.agents), false));
    claimed.(step := s.step + 1)
  }

  /**
   * One iteration of the ollama loop: the goals were fixed before the loop,
   * and the head-on swap check runs after the collision pass.
   */
  function OllamaStep(s: Sim, fixed: seq<Option<string>>): (r: Sim)
    requires WellFormed(s) && |fixed| == |s.active|
    requires forall i :: 0 <= i < |fixed| && s.active[i] ==> Selectable(s.world.goals, fixed[i])
    ensures WellFormed(r) && Stepped(s, r)
  {
    var props := HeuristicProposals(s.world, s.active, fixed);
    ProposalsAreOrderly(s, props);
    AdvanceKeepsWellFormed(s, props, true);
    PositionsLiveIsActive(s);
    var claimed := ClaimAny(Advance(s, props, PositionsLive(s.world.agents), true));
    claimed.(step := s.step + 1)
  }

  /**
   * The moves of one iteration of the top-two loop. The negotiated goals only
   * reach the direction prompts, so the model's direction choice (`picks`)
   * decides the moves.
   */
  function TopTwoMoves(s: Sim, picks: seq<nat>): (r: Sim)
    requires WellFormed(s) && |picks| == |s.active|
    ensures WellFormed(r) && Stepped(s, r)
  {
    var props := OracleProposals(s.world, s.active, picks);
    ProposalsAreOrderly(s, props);
    AdvanceKeepsWellFormed(s, props, false);
    PositionsLiveIsActive(s);
    var claimed := ClaimAny(Advance(s, props, PositionsLive(s.world.agents), false));
    claimed.(step := s.step + 1)
  }

  /**
   * One iteration of the top-two loop: `rankings` are the agents' rankings
   * after phase 1, `talk(u, k)` is reply `k` of the negotiation over conflict
   * `u`. `None` is an exception raised by the negotiation phase, which ends
   * the run; otherwise the moves follow.
   */
  function TopTwoStep(s: Sim, rankings: seq<seq<string>>, talk: (nat, nat) -> Negotiation.Response, picks: seq<nat>): (r: Option<Sim>)
    requires WellFormed(s) && |picks| == |s.active| && |rankings| == |s.active|
    ensures r.Some? ==> r.value == TopTwoMoves(s, picks)
    ensures r.None? <==> Negotiation.NegotiationPhase(rankings, s.active, |s.world.goals|, talk).None?
    ensures var cs := Negotiation.ConflictPairs(Negotiation.Tops(rankings), s.active);
      r.None? <==> exists u :: 0 <= u < |cs| && Negotiation.ConflictRaises(cs[u], rankings, |s.world.goals|, Negotiation.Replies(talk, u))
    ensures r.Some? ==> WellFormed(r.value) && Stepped(s, r.value)
  {
    match Negotiation.NegotiationPhase(rankings, s.active, |s.world.goals|, talk)
    case None => None
    case Some(_) => Some(TopTwoMoves(s, picks))
  }

  /** One iteration of the yes/no loop with assigned goals. */
  function YesNoStep(s: Sim, picks: seq<nat>): (r: Sim)
    requires WellFormed(s) && |picks| == |s.active| && |s.world.agents| <= |s.world.goals|
    ensures WellFormed(r) && Stepped(s, r)
  {
    var props := OracleProposals(s.world, s.active, picks);
    ProposalsAreOrderly(s, props);
    AdvanceKeepsWellFormed(s, props, false);
    PositionsLiveIsActive(s);
    var claimed := ClaimOwn(Advance(s, props, PositionsLive(s.world.agents), false));
    claimed.(step := s.step + 1)
  }
}

=== FILE: greedy.dfy ===
/**
 * `compute_greedy_rankings` of agents/agent_greedy.py: every agent ranks
 * every goal slot by the pair (BFS distance, goal index), as Python sorts a
 * list of `(dist, idx)` tuples, and the ranking is written as goal labels.
 */
module Greedy {
  import opened Wrappers
  import opened Grid
  import opened Bfs
  import opened Distances
  import opened Labels
  import opened Assignment

  /** Python's tuple order on `(dists[a], a)` versus `(dists[c], c)`. */
  predicate KeyLess(dists: seq<Distance>, a: nat, c: nat)
    requires a < |dists| && c < |dists|
  {
    Below(dists[a], dists[c]) || (dists[a] == dists[c] && a < c)
  }

  predicate InRange(dists: seq<Distance>, s: seq<nat>)
  {
    forall k :: 0 <= k < |s| ==> s[k] < |dists|
  }

  predicate SortedBy(dists: seq<Distance>, s: seq<nat>)
    requires InRange(dists, s)
  {
    forall i, j :: 0 <= i < j < |s| ==> KeyLess(dists, s[i], s[j])
  }

  /** Two different indices are always ordered one way or the other, never both. */
  lemma KeyTotal(dists: seq<Distance>, a: nat, c: nat)
    requires a < |dists| && c < |dists|
    ensures a != c ==> KeyLess(dists, a, c) || KeyLess(dists, c, a)
    ensures !(KeyLess(dists, a, c) && KeyLess(dists, c, a))
    ensures !KeyLess(dists, a, a)
  {
  }

  lemma KeyTransitive(dists: seq<Distance>, a: nat, b: nat, c: nat)
    requires a < |dists| && b < |dists| && c < |dists|
    requires KeyLess(dists, a, b) && KeyLess(dists, b, c)
    ensures KeyLess(dists, a, c)
  {
  }

  function Insert(dists: seq<Distance>, x: nat, s: seq<nat>): (r: seq<nat>)
    requires x < |dists| && InRange(dists, s)
    ensures InRange(dists, r)
    ensures multiset(r) == multiset(s) + multiset{x}
    ensures |r| == |s| + 1
  {
    if |s| == 0 then [x]
    else if KeyLess(dists, x, s[0]) then [x] + s
    else
      assert s == [s[0]] + s[1..];
      [s[0]] + Insert(dists, x, s[1..])
  }

  lemma {:induction false} InsertSorted(dists: seq<Distance>, x: nat, s: seq<nat>)
    requires x < |dists| && InRange(dists, s) && SortedBy(dists, s) && x !in s
    ensures SortedBy(dists, Insert(dists, x, s))
  {
    if |s| > 0 && !KeyLess(dists, x, s[0]) {
      KeyTotal(dists, x, s[0]);
      var t := s[1..];
      assert s == [s[0]] + t;
      InsertSorted(dists, x, t);
      var r := Insert(dists, x, t);
      forall k | 0 <= k < |r|
        ensures KeyLess(dists, s[0], r[k])
      {
        assert r[k] in multiset(r);
        assert r[k] in multiset(t) || r[k] == x;
        if r[k] != x {
          var m :| 0 <= m < |t| && t[m] == r[k];
          assert s[m + 1] == r[k];
        }
      }
    }
  }

  /** Insertion sort of goal indices by `(distance, index)`. */
  function SortKeys(dists: seq<Distance>, s: seq<nat>): (r: seq<nat>)
    requires InRange(dists, s)
    ensures InRange(dists, r)
    ensures multiset(r) == multiset(s)
  {
    if |s| == 0 then []
    else
      assert s == s[..|s| - 1] + [s[|s| - 1]];
      Insert(dists, s[|s| - 1], SortKeys(dists, s[..|s| - 1]))
  }

  lemma RangeDistinct(n: nat, i: nat, j: nat)
    requires i < j < n
    ensures Range(n)[i] != Range(n)[j]
  {
  }

  lemma {:induction false} SortKeysSorted(dists: seq<Distance>, s: seq<nat>)
    requires InRange(dists, s)
    requires forall i, j :: 0 <= i < j < |s| ==> s[i] != s[j]
    ensures SortedBy(dists, SortKeys(dists, s))
  {
    if |s| > 0 {
      var init := s[..|s| - 1];
      var x := s[|s| - 1];
      SortKeysSorted(dists, init);
      var r := SortKeys(dists, init);
      forall m | 0 <= m < |init|
        ensures init[m] != x
      {
        assert init[m] == s[m];
      }
      assert x !in multiset(init);
      InsertSorted(dists, x, r);
    }
  }

  /** The sorted goal indices of one agent: `[idx for _, idx in sorted(dists)]`. */
  function RankGoals(dists: seq<Distance>): (r: seq<nat>)
    ensures InRange(dists, r) && |r| == |dists|
    ensures IsPermutation(r, |dists|)
    ensures SortedBy(dists, r)
  {
    var s := Range(|dists|);
    SortKeysSorted(dists, s);
    var r := SortKeys(dists, s);
    assert |r| == |multiset(r)| == |multiset(s)| == |s|;
    r
  }

  /**
   * A strict total order has one sorted arrangement of a set: any sequence of
   * the same indices sorted by `(distance, index)` is equal to the result.
   */
  lemma TailMultiset(a: seq<nat>)
    requires |a| > 0
    ensures multiset(a[1..]) == multiset(a) - multiset{a[0]}
  {
    assert a == [a[0]] + a[1..];
  }

  /** Two sorted arrangements of the same indices start with the same one. */
  lemma SortedSameHead(dists: seq<Distance>, a: seq<nat>, c: seq<nat>)
    requires InRange(dists, a) && InRange(dists, c) && |a| > 0
    requires SortedBy(dists, a) && SortedBy(dists, c)
    requires multiset(a) == multiset(c)
    ensures |c| > 0 && a[0] == c[0]
  {
    assert a[0] in multiset(c);
    var k :| 0 <= k < |c| && c[k] == a[0];
    assert c[0] in multiset(a);
    var m :| 0 <= m < |a| && a[m] == c[0];
    KeyTotal(dists, a[0], c[0]);
    assert k == 0 || m == 0;
  }

  /**
   * A strict total order has one sorted arrangement of a set: any sequence of
   * the same indices sorted by `(distance, index)` is equal to the result.
   */
  lemma {:induction false} SortedIsUnique(dists: seq<Distance>, a: seq<nat>, c: seq<nat>)
    requires InRange(dists, a) && InRange(dists, c)
    requires SortedBy(dists, a) && SortedBy(dists, c)
    requires multiset(a) == multiset(c)
    ensures a == c
  {
    if |a| == 0 {
      assert |multiset(c)| == 0;
    } else {
      SortedSameHead(dists, a, c);
      TailMultiset(a);
      TailMultiset(c);
      SortedIsUnique(dists, a[1..], c[1..]);
      assert a == [a[0]] + a[1..];
      assert c == [c[0]] + c[1..];
    }
  }

  /** Every ranking the sort could return is `RankGoals`. */
  lemma RankGoalsIsTheSortedPermutation(dists: seq<Distance>, p: seq<nat>)
    requires InRange(dists, p) && IsPermutation(p, |dists|) && SortedBy(dists, p)
    ensures p == RankGoals(dists)
  {
    SortedIsUnique(dists, p, RankGoals(dists));
  }

  /**
   * Python's sort raises when `shortest_path_length` is asked for a live goal
   * from a retired agent's `None`; these are the worlds where it does not.
   */
  predicate GreedyRankable(w: World)
  {
    forall i, j :: 0 <= i < |w.agents| && 0 <= j < |w.goals| ==> w.agents[i].Some? || w.goals[j].None?
  }

  /** Agent slot `i`'s distance to every goal slot. */
  function DistanceRow(w: World, i: nat): (row: seq<Distance>)
    requires i < |w.agents| && (w.agents[i].Some? || forall j :: 0 <= j < |w.goals| ==> w.goals[j].None?)
    ensures |row| == |w.goals|
  {
    seq(|w.goals|, j requires 0 <= j < |w.goals| => DistanceOpt(w.board, w.agents[i], w.goals[j]))
  }

  /** The property every row of `compute_greedy_rankings` has. */
  ghost predicate RanksByDistance(row: seq<Distance>, ranking: seq<string>)
    requires |row| <= LabelLimit
  {
    exists p :: InRange(row, p) && IsPermutation(p, |row|) && SortedBy(row, p) && ranking == LabelsOf(p)
  }

  /** One agent's ranking written as labels. */
  function RankLabels(row: seq<Distance>): (r: seq<string>)
    requires |row| <= LabelLimit
    ensures |r| == |row| && RanksByDistance(row, r)
  {
    var p := RankGoals(row);
    assert InRange(row, p) && IsPermutation(p, |row|) && SortedBy(row, p) && LabelsOf(p) == LabelsOf(p);
    LabelsOf(p)
  }

  /**
   * `compute_greedy_rankings(env)` as written: one ranking per agent slot,
   * retired ones included, so it needs `GreedyRankable`.
   */
  function ComputeGreedyRankings(w: World): (r: seq<seq<string>>)
    requires GreedyRankable(w) && |w.goals| <= LabelLimit
    ensures |r| == |w.agents|
    ensures forall i :: 0 <= i < |r| ==> |r[i]| == |w.goals| && RanksByDistance(DistanceRow(w, i), r[i])
  {
    seq(|w.agents|, i requires 0 <= i < |w.agents| => RankLabels(DistanceRow(w, i)))
  }

  /**
   * The evidently intended rankings: retired agents get `[]` and no search is
   * made from their empty slot, so every world can be ranked.
   */
  function ComputeGreedyRankingsLive(w: World): (r: seq<seq<string>>)
    requires |w.goals| <= LabelLimit
    ensures |r| == |w.agents|
    ensures forall i :: 0 <= i < |r| ==> (w.agents[i].None? <==> r[i] == []) || |w.goals| == 0
    ensures forall i :: 0 <= i < |r| && w.agents[i].Some? ==> RanksByDistance(DistanceRow(w, i), r[i])
  {
    seq(|w.agents|, i requires 0 <= i < |w.agents| =>
      if w.agents[i].None? then [] else RankLabels(DistanceRow(w, i)))
  }

  /** The two agree on every live agent wherever the as-written version runs. */
  lemma LiveRankingsAgree(w: World, i: nat)
    requires GreedyRankable(w) && |w.goals| <= LabelLimit
    requires i < |w.agents| && w.agents[i].Some?
    ensures ComputeGreedyRankingsLive(w)[i] == ComputeGreedyRankings(w)[i]
  {
  }

  /** A ranking that is a sorted permutation is the one the function returns. */
  lemma GreedyRankingIsUnique(w: World, i: nat, p: seq<nat>)
    requires GreedyRankable(w) && |w.goals| <= LabelLimit && i < |w.agents|
    requires InRange(DistanceRow(w, i), p) && IsPermutation(p, |w.goals|) && SortedBy(DistanceRow(w, i), p)
    ensures ComputeGreedyRankings(w)[i] == LabelsOf(p)
  {
    RankGoalsIsTheSortedPermutation(DistanceRow(w, i), p);
  }

  /**
   * The first label of a live agent's ranking names a nearest goal slot, the
   * lowest-indexed among equally near ones.
   */
  lemma GreedyTopIsNearest(w: World, i: nat)
    requires |w.goals| <= LabelLimit && 0 < |w.goals|
    requires i < |w.agents| && w.agents[i].Some?
    ensures var r := ComputeGreedyRankingsLive(w)[i];
      var row := DistanceRow(w, i);
      0 <= LabelIndex(r[0]) < |w.goals|
      && forall j :: 0 <= j < |w.goals| && j != LabelIndex(r[0]) ==> KeyLess(row, LabelIndex(r[0]), j)
  {
    var row := DistanceRow(w, i);
    var p := RankGoals(row);
    assert ComputeGreedyRankingsLive(w)[i] == LabelsOf(p);
    LabelRoundTrip(p[0]);
    forall j | 0 <= j < |w.goals| && j != p[0]
      ensures KeyLess(row, p[0], j)
    {
      assert j in multiset(Range(|row|)) by { assert Range(|row|)[j] == j; }
      assert j in multiset(p);
      var k :| 0 <= k < |p| && p[k] == j;
    }
  }
}

=== FILE: grid.dfy ===
/**
 * The grid world of core/environment.py: a square board with static
 * obstacles, plus the agents and goals that currently stand on it.
 * Rows grow upwards (row 0 is the bottom row), so "up" adds one to the row.
 */
module Grid {
  import opened Wrappers

  datatype Cell = Cell(row: int, col: int)

  datatype Direction = Up | Down | Left | Right

  /** The environment's fixed order: up, down, left, right. */
  const Directions: seq<Direction> := [Up, Down, Left, Right]

  /** Position of a direction in `Directions`. */
  function Rank(d: Direction): nat
  {
    match d
    case Up => 0
    case Down => 1
    case Left => 2
    case Right => 3
  }

  /** The string the Python code uses for a direction. */
  function Name(d: Direction): string
  {
    match d
    case Up => "up"
    case Down => "down"
    case Left => "left"
    case Right => "right"
  }

  function Neighbour(p: Cell, d: Direction): Cell
  {
    match d
    case Up => Cell(p.row + 1, p.col)
    case Down => Cell(p.row - 1, p.col)
    case Left => Cell(p.row, p.col - 1)
    case Right => Cell(p.row, p.col + 1)
  }

  /** Two cells one 4-neighbour step apart. */
  predicate Adjacent(a: Cell, c: Cell)
  {
    (a.row == c.row && (a.col - c.col == 1 || c.col - a.col == 1))
    || (a.col == c.col && (a.row - c.row == 1 || c.row - a.row == 1))
  }

  lemma NeighbourIsAdjacent(p: Cell, d: Direction)
    ensures Adjacent(p, Neighbour(p, d))
    ensures Neighbour(p, d) != p
  {
  }

  lemma AdjacentHasDirection(a: Cell, c: Cell) returns (d: Direction)
    requires Adjacent(a, c)
    ensures Neighbour(a, d) == c
  {
    if c.row == a.row + 1 { d := Up; }
    else if c.row == a.row - 1 { d := Down; }
    else if c.col == a.col - 1 { d := Left; }
    else { d := Right; }
  }

  /**
   * The static part of the environment: side length and obstacle set.
   * Distance queries read only this.
   */
  datatype Board = Board(size: int, obstacles: set<Cell>)

  predicate InBounds(size: int, p: Cell)
  {
    0 <= p.row < size && 0 <= p.col < size
  }

  /** In bounds and not an obstacle: the cells a BFS may enter. */
  predicate Free(b: Board, p: Cell)
  {
    InBounds(b.size, p) && p !in b.obstacles
  }

  /** Every cell of the board, free or not. */
  function Universe(size: int): (u: set<Cell>)
    ensures forall p :: p in u <==> InBounds(size, p)
  {
    set r, c | 0 <= r < size && 0 <= c < size :: Cell(r, c)
  }

  /**
   * A GridWorld: the board plus the current agent and goal slots. A retired
   * agent or a claimed goal leaves `None` in its slot, as in the Python lists.
   */
  datatype World = World(board: Board, agents: seq<Option<Cell>>, goals: seq<Option<Cell>>)

  /**
   * `GridWorld.is_valid`: in bounds, not an obstacle and not the cell of any
   * agent -- including the agent that asks, so an agent's own cell is never valid.
   */
  predicate IsValid(w: World, p: Cell)
  {
    InBounds(w.board.size, p) && p !in w.board.obstacles && Some(p) !in w.agents
  }

  lemma ValidIffFreeAndUnoccupied(w: World, p: Cell)
    ensures IsValid(w, p) <==> Free(w.board, p) && forall i :: 0 <= i < |w.agents| ==> w.agents[i] != Some(p)
  {
  }

  lemma OwnCellNotValid(w: World, i: nat)
    requires i < |w.agents| && w.agents[i].Some?
    ensures !IsValid(w, w.agents[i].value)
  {
  }

  /** `GridWorld.get_valid_actions`: the directions whose neighbour is valid. */
  function GetValidActions(w: World, p: Cell): (r: seq<Direction>)
    ensures forall d :: d in r <==> IsValid(w, Neighbour(p, d))
    ensures forall i, j :: 0 <= i < j < |r| ==> Rank(r[i]) < Rank(r[j])
  {
    (if IsValid(w, Neighbour(p, Up)) then [Up] else [])
    + (if IsValid(w, Neighbour(p, Down)) then [Down] else [])
    + (if IsValid(w, Neighbour(p, Left)) then [Left] else [])
    + (if IsValid(w, Neighbour(p, Right)) then [Right] else [])
  }

  /**
   * `GridWorld.move_agent`: the neighbour in the named direction when it is
   * valid, otherwise the agent's own cell; an unknown direction string is a
   * silent no-op too.
   */
  function MoveAgent(w: World, p: Cell, direction: string): (r: Cell)
    ensures r == p || (IsValid(w, r) && exists d :: Name(d) == direction && r == Neighbour(p, d))
    ensures (forall d :: Name(d) != direction) ==> r == p
    ensures forall d :: Name(d) == direction && IsValid(w, Neighbour(p, d)) ==> r == Neighbour(p, d)
    ensures forall d :: Name(d) == direction && !IsValid(w, Neighbour(p, d)) ==> r == p
  {
    var next :=
      if direction == "up" then Some(Cell(p.row + 1, p.col))
      else if direction == "down" then Some(Cell(p.row - 1, p.col))
      else if direction == "left" then Some(Cell(p.row, p.col - 1))
      else if direction == "right" then Some(Cell(p.row, p.col + 1))
      else None;
    assert next.Some? ==> next.value == Neighbour(p, if direction == "up" then Up else if direction == "down" then Down else if direction == "left" then Left else Right);
    match next
    case None => p
    case Some(n) => if IsValid(w, n) then n else p
  }

  /** A direction is offered exactly when moving in it changes the cell. */
  lemma ValidActionIffMoves(w: World, p: Cell, d: Direction)
    ensures d in GetValidActions(w, p) <==> MoveAgent(w, p, Name(d)) != p
  {
    NeighbourIsAdjacent(p, d);
  }

  /** A move never lands on an obstacle, off the grid or on an occupied cell. */
  lemma MoveStaysFreeOrPut(w: World, p: Cell, direction: string)
    ensures var r := MoveAgent(w, p, direction);
      r == p || (Free(w.board, r) && Adjacent(p, r) && Some(r) !in w.agents)
  {
    var r := MoveAgent(w, p, direction);
    if r != p {
      var d :| Name(d) == direction && r == Neighbour(p, d);
      NeighbourIsAdjacent(p, d);
    }
  }

  /**
   * The bounds-only `get_valid_actions(agent_pos, grid_size)` of agent.py:
   * it looks at the row for up/down and the column for left/right only.
   */
  function BoundsOnlyActions(p: Cell, size: int): (r: seq<Direction>)
    ensures Up in r <==> p.row < size - 1
    ensures Down in r <==> p.row > 0
    ensures Left in r <==> p.col > 0
    ensures Right in r <==> p.col < size - 1
    ensures forall i, j :: 0 <= i < j < |r| ==> Rank(r[i]) < Rank(r[j])
  {
    (if p.row < size - 1 then [Up] else [])
    + (if p.row > 0 then [Down] else [])
    + (if p.col > 0 then [Left] else [])
    + (if p.col < size - 1 then [Right] else [])
  }

  /** An interior cell is offered all four directions by the bounds-only variant. */
  lemma InteriorGetsAllFour(p: Cell, size: int)
    requires 0 < p.row < size - 1 && 0 < p.col < size - 1
    ensures BoundsOnlyActions(p, size) == Directions
  {
  }

  /**
   * On an empty board (no obstacles, no agents) the two `get_valid_actions`
   * agree for every in-bounds cell.
   */
  lemma BoundsOnlyMatchesEmptyWorld(w: World, p: Cell)
    requires w.board.obstacles == {}
    requires forall i :: 0 <= i < |w.agents| ==> w.agents[i].None?
    requires InBounds(w.board.size, p)
    ensures GetValidActions(w, p) == BoundsOnlyActions(p, w.board.size)
  {
    forall d ensures IsValid(w, Neighbour(p, d)) <==> InBounds(w.board.size, Neighbour(p, d)) {
      assert Some(Neighbour(p, d)) !in w.agents;
    }
  }
}

=== FILE: heuristic.dfy ===
/**
 * `select_direction_opt` of utils/agent_ollama/agent.py: the deterministic
 * movement policy. It looks up the declared goal label, then among the
 * neighbours that `is_valid` accepts (up, down, left, right, in that order)
 * takes the first one with the strictly smallest BFS distance to the goal.
 */
module Heuristic {
  import opened Wrappers
  import opened Grid
  import opened Bfs
  import opened Labels
  import opened Resolver
  import opened Parsing

  /**
   * `goal_positions[goal_index]` behind the `goal_index >= len` guard. A
   * negative index counts from the end, as Python's indexing does; below
   * `-len` Python raises, which callers must avoid.
   */
  function GoalSlot(goals: seq<Option<Cell>>, idx: int): (r: Option<Cell>)
    requires -|goals| <= idx
    ensures idx >= |goals| ==> r.None?
    ensures 0 <= idx < |goals| ==> r == goals[idx]
    ensures idx < 0 ==> r == goals[|goals| + idx]
  {
    if idx >= |goals| then None
    else if idx >= 0 then goals[idx]
    else goals[|goals| + idx]
  }

  /**
   * `GoalSlot` is Python's indexing: an index in `-len..len` wraps to the
   * slot its remainder names, a negative index and the same index plus
   * `len` name one slot, and a found slot is one of the goal list's.
   */
  lemma GoalSlotIsPythonIndex(goals: seq<Option<Cell>>, idx: int)
    requires -|goals| <= idx
    ensures idx < |goals| ==> GoalSlot(goals, idx) == goals[idx % |goals|]
    ensures idx < 0 ==> GoalSlot(goals, idx) == GoalSlot(goals, idx + |goals|)
    ensures GoalSlot(goals, idx).Some? ==> exists j :: 0 <= j < |goals| && goals[j] == GoalSlot(goals, idx)
  {
    if idx < 0 {
      assert idx % |goals| == idx + |goals|;
    } else if idx < |goals| {
      assert idx % |goals| == idx;
    }
  }

  /** A declared goal the function can handle without raising. */
  predicate Selectable(goals: seq<Option<Cell>>, declared: Option<string>)
  {
    !Truthy(declared) || (|declared.value| == 1 && LabelIndex(Upper(declared.value)) >= -|goals|)
  }

  /** The goal cell a declared label names, if it is still on the board. */
  function Target(goals: seq<Option<Cell>>, declared: Option<string>): Option<Cell>
    requires Selectable(goals, declared)
  {
    if !Truthy(declared) then None
    else GoalSlot(goals, LabelIndex(Upper(declared.value)))
  }

  /**
   * What the loop compares for direction `d`: the BFS distance from the
   * neighbour when `is_valid` accepts it. A rejected neighbour is never
   * compared, which is the same as giving it the sentinel, since nothing is
   * below the initial `best_dist`.
   */
  function Score(w: World, pos: Cell, t: Cell, d: Direction): Distance
  {
    if IsValid(w, Neighbour(pos, d)) then ShortestPathLength(w.board, Neighbour(pos, d), t) else Inf
  }

  /**
   * The loop `if dist < best_dist: best_dist, best_dir = dist, dir` over
   * `scores[k..]`, with the best index and distance found so far.
   */
  function FirstMin(scores: seq<Distance>, k: nat, best: Option<nat>, bestDist: Distance): (r: Option<nat>)
    requires k <= |scores|
    requires best.Some? ==> best.value < k && bestDist == scores[best.value]
    requires best.None? ==> bestDist == Inf
    ensures r.Some? ==> r.value < |scores|
    ensures r.None? ==> best.None? && forall i :: k <= i < |scores| ==> scores[i] == Inf
    ensures r.Some? ==> !Below(bestDist, scores[r.value])
    ensures r.Some? ==> forall i :: k <= i < |scores| ==> !Below(scores[i], scores[r.value])
    ensures r.Some? ==> forall i :: k <= i < r.value ==> Below(scores[r.value], scores[i])
    ensures r.Some? ==> r == best || (k <= r.value && Below(scores[r.value], bestDist))
    decreases |scores| - k
  {
    if k == |scores| then best
    else if Below(scores[k], bestDist) then FirstMin(scores, k + 1, Some(k), scores[k])
    else FirstMin(scores, k + 1, best, bestDist)
  }

  /** The four scores in the order up, down, left, right. */
  function Scores(w: World, pos: Cell, t: Cell): (s: seq<Distance>)
    ensures |s| == 4 && forall d :: s[Rank(d)] == Score(w, pos, t, d)
  {
    [Score(w, pos, t, Up), Score(w, pos, t, Down), Score(w, pos, t, Left), Score(w, pos, t, Right)]
  }

  /**
   * `select_direction_opt(agent_pos, declared_goal, env.goals, env)`.
   * Nothing when the label is falsy, out of range or names a claimed goal;
   * otherwise the first valid direction of least finite distance, or nothing
   * when every valid neighbour is cut off from the goal.
   */
  function SelectDirectionOpt(w: World, pos: Cell, declared: Option<string>): (r: Option<Direction>)
    requires Selectable(w.goals, declared)
    ensures Target(w.goals, declared).None? ==> r.None?
    ensures r.Some? ==> var t := Target(w.goals, declared).value;
      IsValid(w, Neighbour(pos, r.value))
      && ShortestPathLength(w.board, Neighbour(pos, r.value), t).Fin?
      && (forall d :: IsValid(w, Neighbour(pos, d)) ==>
            !Below(ShortestPathLength(w.board, Neighbour(pos, d), t), ShortestPathLength(w.board, Neighbour(pos, r.value), t)))
      && (forall d :: Rank(d) < Rank(r.value) && IsValid(w, Neighbour(pos, d)) ==>
            Below(ShortestPathLength(w.board, Neighbour(pos, r.value), t), ShortestPathLength(w.board, Neighbour(pos, d), t)))
    ensures Target(w.goals, declared).Some? && r.None? ==>
      forall d :: IsValid(w, Neighbour(pos, d)) ==> ShortestPathLength(w.board, Neighbour(pos, d), Target(w.goals, declared).value) == Inf
  {
    match Target(w.goals, declared)
    case None => None
    case Some(t) =>
      var i := FirstMin(Scores(w, pos, t), 0, None, Inf);
      if i.None? then
        NoneReachable(w, pos, t);
        None
      else
        FirstMinDirection(w, pos, t, i.value);
        Some(Directions[i.value])
  }

  /** When every score is the sentinel, no valid neighbour can reach the goal. */
  lemma NoneReachable(w: World, pos: Cell, t: Cell)
    requires forall i :: 0 <= i < 4 ==> Scores(w, pos, t)[i] == Inf
    ensures forall d :: IsValid(w, Neighbour(pos, d)) ==> ShortestPathLength(w.board, Neighbour(pos, d), t) == Inf
  {
    forall d | IsValid(w, Neighbour(pos, d)) ensures ShortestPathLength(w.board, Neighbour(pos, d), t) == Inf {
      assert Scores(w, pos, t)[Rank(d)] == Score(w, pos, t, d);
    }
  }

  /** The first strictly least finite score names the first valid direction of least distance. */
  lemma FirstMinDirection(w: World, pos: Cell, t: Cell, k: nat)
    requires k < 4 && Scores(w, pos, t)[k].Fin?
    requires forall i :: 0 <= i < 4 ==> !Below(Scores(w, pos, t)[i], Scores(w, pos, t)[k])
    requires forall i :: 0 <= i < k ==> Below(Scores(w, pos, t)[k], Scores(w, pos, t)[i])
    ensures var r := Directions[k];
      IsValid(w, Neighbour(pos, r))
      && ShortestPathLength(w.board, Neighbour(pos, r), t).Fin?
      && (forall d :: IsValid(w, Neighbour(pos, d)) ==>
            !Below(ShortestPathLength(w.board, Neighbour(pos, d), t), ShortestPathLength(w.board, Neighbour(pos, r), t)))
      && (forall d :: Rank(d) < Rank(r) && IsValid(w, Neighbour(pos, d)) ==>
            Below(ShortestPathLength(w.board, Neighbour(pos, r), t), ShortestPathLength(w.board, Neighbour(pos, d), t)))
  {
    var s := Scores(w, pos, t);
    var r := Directions[k];
    assert Rank(r) == k;
    forall d ensures s[Rank(d)] == Score(w, pos, t, d) && Rank(d) < 4 {
    }
  }

  /** A walk through a free neighbour bounds the distance from here by one more step. */
  lemma StepBound(b: Board, pos: Cell, c: Cell, t: Cell)
    requires Adjacent(pos, c) && Free(b, c) && ShortestPathLength(b, c, t).Fin?
    ensures ShortestPathLength(b, pos, t).Fin?
    ensures ShortestPathLength(b, pos, t).n <= ShortestPathLength(b, c, t).n + 1
  {
    var p := ShortestPathWitness(b, c, t);
    var q := [pos] + p;
    assert forall i :: 0 < i < |q| ==> q[i] == p[i - 1];
    assert PathBetween(b, q, pos, t);
    ShortestPathMinimal(b, pos, t, q);
  }

  /** Away from the goal, some free neighbour is exactly one step closer. */
  lemma CloserNeighbour(b: Board, pos: Cell, t: Cell) returns (d: Direction)
    requires ShortestPathLength(b, pos, t).Fin? && pos != t
    ensures Free(b, Neighbour(pos, d))
    ensures ShortestPathLength(b, Neighbour(pos, d), t) == Fin(ShortestPathLength(b, pos, t).n - 1)
  {
    var p := ShortestPathWitness(b, pos, t);
    var n := ShortestPathLength(b, pos, t).n;
    assert |p| >= 2;
    d := AdjacentHasDirection(pos, p[1]);
    var q := p[1..];
    assert forall i :: 0 < i < |q| ==> q[i] == p[i + 1] && q[i - 1] == p[i];
    assert PathBetween(b, q, p[1], t);
    ShortestPathMinimal(b, p[1], t, q);
    StepBound(b, pos, p[1], t);
  }

  /**
   * When no other agent stands next to it, an agent that can reach its goal
   * is always sent to a neighbour one step closer.
   */
  lemma HeuristicMakesProgress(w: World, pos: Cell, declared: Option<string>)
    requires Selectable(w.goals, declared) && Target(w.goals, declared).Some?
    requires var t := Target(w.goals, declared).value;
      ShortestPathLength(w.board, pos, t).Fin? && pos != t
    requires forall d :: Free(w.board, Neighbour(pos, d)) ==> IsValid(w, Neighbour(pos, d))
    ensures var t := Target(w.goals, declared).value;
      var r := SelectDirectionOpt(w, pos, declared);
      r.Some? && ShortestPathLength(w.board, Neighbour(pos, r.value), t) == Fin(ShortestPathLength(w.board, pos, t).n - 1)
  {
    var t := Target(w.goals, declared).value;
    var d := CloserNeighbour(w.board, pos, t);
    var r := SelectDirectionOpt(w, pos, declared);
    assert IsValid(w, Neighbour(pos, d));
    NeighbourIsAdjacent(pos, r.value);
    StepBound(w.board, pos, Neighbour(pos, r.value), t);
  }
}

=== FILE: labels.dfy ===
/**
 * Goal labels: goal slot `idx` is shown to agents as the letter `chr(65 + idx)`,
 * and a label is read back as `ord(label) - 65`. Slots past 'Z' get the
 * following code points, exactly as `chr` hands them out.
 */
module Labels {
  /** `chr(65 + idx)` is a Unicode scalar value below the surrogate block. */
  const LabelLimit: nat := 0xD800 - 65

  function Label(idx: nat): (l: string)
    requires idx < LabelLimit
    ensures |l| == 1
  {
    [(65 + idx) as char]
  }

  /** `ord(label) - 65`; negative for characters below 'A'. */
  function LabelIndex(l: string): int
    requires |l| == 1
  {
    l[0] as int - 65
  }

  lemma LabelRoundTrip(idx: nat)
    requires idx < LabelLimit
    ensures LabelIndex(Label(idx)) == idx
  {
  }

  lemma IndexRoundTrip(l: string)
    requires |l| == 1 && 0 <= LabelIndex(l) < LabelLimit
    ensures Label(LabelIndex(l)) == l
  {
  }

  lemma LabelInjective(i: nat, j: nat)
    requires i < LabelLimit && j < LabelLimit
    ensures Label(i) == Label(j) <==> i == j
  {
    LabelRoundTrip(i);
    LabelRoundTrip(j);
  }

  /** The labels of a sequence of slot indices. */
  function LabelsOf(s: seq<nat>): (r: seq<string>)
    requires forall k :: 0 <= k < |s| ==> s[k] < LabelLimit
    ensures |r| == |s|
    ensures forall k :: 0 <= k < |s| ==> r[k] == Label(s[k])
  {
    seq(|s|, k requires 0 <= k < |s| => Label(s[k]))
  }
}

=== FILE: negotiation.dfy ===
/**
 * Two-agent negotiation in agents/agent_rank_top2.py: which conflicts are
 * negotiated (goals that exactly two active agents put first), the turn-based
 * exchange of `run_negotiation`, and how a resolution overwrites the
 * proposed goals.
 */
module Negotiation {
  import opened Wrappers
  import opened Seqs
  import opened Labels
  import opened Resolver
  import opened Parsing

  /** Active agents whose top choice is `g`, in increasing index order. */
  function Holders(tops: seq<Option<string>>, active: seq<bool>, g: string, from: nat): (h: seq<nat>)
    requires |tops| == |active| && from <= |tops|
    ensures forall x :: x in h <==> from <= x < |tops| && active[x] && tops[x] == Some(g)
    ensures forall k :: 0 <= k < |h| ==> from <= h[k] < |tops| && active[h[k]] && tops[h[k]] == Some(g)
    ensures forall a, b :: 0 <= a < b < |h| ==> h[a] < h[b]
    decreases |tops| - from
  {
    if from == |tops| then []
    else
      var rest := Holders(tops, active, g, from + 1);
      if active[from] && tops[from] == Some(g) then [from] + rest else rest
  }

  /** The tuple `(a1, a2, goal)` of one negotiated conflict. */
  datatype Conflict = Conflict(lower: nat, higher: nat, goal: string)

  /**
   * The `conflict_pairs` comprehension, visiting agents from index `a` on: a
   * goal is reported when its lowest holder is visited, so pairs come in the
   * order in which the goals entered the dictionary.
   */
  function ConflictPairsFrom(tops: seq<Option<string>>, active: seq<bool>, a: nat): (r: seq<Conflict>)
    requires |tops| == |active| && a <= |tops|
    ensures forall c :: c in r ==> a <= c.lower && Holders(tops, active, c.goal, 0) == [c.lower, c.higher] && c.goal != ""
    ensures forall g :: g != "" && |Holders(tops, active, g, 0)| == 2 && Holders(tops, active, g, 0)[0] >= a ==>
      Conflict(Holders(tops, active, g, 0)[0], Holders(tops, active, g, 0)[1], g) in r
    ensures forall k, m :: 0 <= k < m < |r| ==> r[k].lower < r[m].lower
    decreases |tops| - a
  {
    if a == |tops| then []
    else
      var rest := ConflictPairsFrom(tops, active, a + 1);
      if active[a] && Truthy(tops[a]) then
        var h := Holders(tops, active, tops[a].value, 0);
        assert a in h;
        if |h| == 2 && h[0] == a then [Conflict(a, h[1], tops[a].value)] + rest else rest
      else rest
  }

  /** `conflict_pairs` from the first entries of the rankings. */
  function ConflictPairs(tops: seq<Option<string>>, active: seq<bool>): (r: seq<Conflict>)
    requires |tops| == |active|
    ensures forall c :: c in r <==> c.goal != "" && Holders(tops, active, c.goal, 0) == [c.lower, c.higher]
    ensures forall k, m :: 0 <= k < m < |r| ==> r[k].lower < r[m].lower
    ensures forall u :: 0 <= u < |r| ==> r[u].lower < r[u].higher < |tops|
  {
    ConflictPairsFrom(tops, active, 0)
  }

  /** A goal three or more active agents put first is never negotiated. */
  lemma CrowdedGoalsAreNotNegotiated(tops: seq<Option<string>>, active: seq<bool>, g: string)
    requires |tops| == |active| && |Holders(tops, active, g, 0)| >= 3
    ensures forall c :: c in ConflictPairs(tops, active) ==> c.goal != g
  {
  }

  /**
   * A JSON value where a proposal is read: an object, as its `(key, target)`
   * items in iteration order, or any other value, of which only its truth
   * value matters. A target is a string or `null`.
   */
  datatype Proposal = Items(entries: seq<(string, Option<string>)>) | NonObject(truthy: bool)

  /** `if proposal:` -- an object is true when it has an item. */
  predicate Filled(p: Proposal)
  {
    if p.Items? then p.entries != [] else p.truthy
  }

  /**
   * One parsed reply in the exchange. `Missing` is a reply without the
   * `"action"` key, or without the `"proposal"` key where it is read (an
   * acceptance or a counter), so that the lookup raises `KeyError`. Every
   * action other than `"accept"` and `"reject"` is a counter-proposal.
   */
  datatype Response = ParseFail | Missing | Accept(proposal: Proposal) | Reject | Counter(proposal: Proposal)

  /** What `run_negotiation` hands back, or an exception it raises. */
  datatype Outcome = NoDeal | Deal(resolution: Proposal) | Raises

  // ---------------------------------------------------------------------
  // Agent keys: written as `f"Agent {id}"`, read back as `int(aid_str.split()[-1])`

  predicate IsDigit(c: char)
  {
    '0' <= c <= '9'
  }

  function Digit(d: nat): (c: char)
    requires d < 10
    ensures IsDigit(c) && c as int - '0' as int == d
  {
    ('0' as int + d) as char
  }

  /** `str(n)`: decimal digits, with no leading zero. */
  function Decimal(n: nat): (s: string)
    ensures |s| > 0 && forall k :: 0 <= k < |s| ==> IsDigit(s[k])
    ensures n > 0 ==> s[0] != '0'
    decreases n
  {
    if n < 10 then [Digit(n)] else Decimal(n / 10) + [Digit(n % 10)]
  }

  /** The key `f"Agent {id}"` under which a proposal names agent `id`. */
  function AgentKey(id: nat): string
  {
    "Agent " + Decimal(id)
  }

  /** The length of the run of non-space characters that ends `s`, possibly zero. */
  function EndRunLength(s: string): (m: nat)
    ensures m <= |s|
    ensures forall k :: |s| - m <= k < |s| ==> !IsSpace(s[k])
    ensures m < |s| ==> IsSpace(s[|s| - m - 1])
  {
    if |s| == 0 || IsSpace(s[|s| - 1]) then 0 else EndRunLength(s[..|s| - 1]) + 1
  }

  /** `s[i..j]` is a maximal run of non-space characters, with only spaces after it. */
  predicate WordBounds(s: string, i: int, j: int)
  {
    && 0 <= i < j <= |s|
    && (forall k :: i <= k < j ==> !IsSpace(s[k]))
    && (i > 0 ==> IsSpace(s[i - 1]))
    && (forall k :: j <= k < |s| ==> IsSpace(s[k]))
  }

  /**
   * `s.split()[-1]`: the last word, or `None` when `s` is all whitespace and
   * the index raises `IndexError`.
   */
  function LastWord(s: string): (r: Option<string>)
    ensures r.None? <==> forall k :: 0 <= k < |s| ==> IsSpace(s[k])
    ensures r.Some? ==> exists i, j :: WordBounds(s, i, j) && r.value == s[i..j]
  {
    if |s| == 0 then None
    else if IsSpace(s[|s| - 1]) then
      var r := LastWord(s[..|s| - 1]);
      assert r.Some? ==> exists i, j :: WordBounds(s, i, j) && r.value == s[i..j] by {
        if r.Some? {
          var i, j :| WordBounds(s[..|s| - 1], i, j) && r.value == s[..|s| - 1][i..j];
          WordBoundsPastSpace(s, i, j);
        }
      }
      r
    else
      var m := EndRunLength(s);
      assert m > 0;
      assert WordBounds(s, |s| - m, |s|);
      Some(s[|s| - m..])
  }

  lemma WordBoundsPastSpace(s: string, i: int, j: int)
    requires |s| > 0 && IsSpace(s[|s| - 1]) && WordBounds(s[..|s| - 1], i, j)
    ensures WordBounds(s, i, j) && s[..|s| - 1][i..j] == s[i..j]
  {
  }

  /** Digits, with single underscores allowed between two digits, as `int()` reads them. */
  predicate Numeral(t: string)
  {
    && |t| > 0
    && forall k :: 0 <= k < |t| && !IsDigit(t[k]) ==>
         0 < k < |t| - 1 && t[k] == '_' && IsDigit(t[k - 1]) && IsDigit(t[k + 1])
  }

  /** The value of a numeral, underscores skipped. */
  function NumeralValue(t: string): nat
  {
    if |t| == 0 then 0
    else if IsDigit(t[|t| - 1]) then 10 * NumeralValue(t[..|t| - 1]) + (t[|t| - 1] as int - '0' as int)
    else NumeralValue(t[..|t| - 1])
  }

  /**
   * `int(t)` on a word without whitespace: an optional sign, then a numeral.
   * `None` is the `ValueError`.
   */
  function ParseInt(t: string): (r: Option<int>)
    ensures r.Some? <==> Numeral(t) || (|t| > 0 && (t[0] == '+' || t[0] == '-') && Numeral(t[1..]))
    ensures r.Some? && r.value < 0 ==> t[0] == '-'
  {
    if Numeral(t) then Some(NumeralValue(t))
    else if |t| > 0 && t[0] == '+' && Numeral(t[1..]) then Some(NumeralValue(t[1..]))
    else if |t| > 0 && t[0] == '-' && Numeral(t[1..]) then
      var v: int := NumeralValue(t[1..]);
      Some(-v)
    else None
  }

  /** `int(aid_str.split()[-1])`; `None` when either step raises. */
  function KeyId(key: string): (r: Option<int>)
    ensures (forall k :: 0 <= k < |key| ==> IsSpace(key[k])) ==> r.None?
  {
    match LastWord(key)
    case None => None
    case Some(w) => ParseInt(w)
  }

  lemma {:induction false} DecimalValue(n: nat)
    ensures NumeralValue(Decimal(n)) == n
    decreases n
  {
    if n >= 10 {
      var d := Decimal(n / 10);
      DecimalValue(n / 10);
      assert (d + [Digit(n % 10)])[..|d|] == d;
    }
  }

  lemma {:induction false} EndRunAfterSpace(x: string, d: string)
    requires |x| > 0 && IsSpace(x[|x| - 1])
    requires forall k :: 0 <= k < |d| ==> !IsSpace(d[k])
    ensures EndRunLength(x + d) == |d|
    decreases |d|
  {
    if |d| > 0 {
      var d' := d[..|d| - 1];
      assert (x + d)[..|x + d| - 1] == x + d';
      EndRunAfterSpace(x, d');
    }
  }

  /** `int()` reads a decimal numeral, with any leading zeros, as its value. */
  lemma ParseIntOfDecimal(zeros: string, n: nat)
    requires forall k :: 0 <= k < |zeros| ==> zeros[k] == '0'
    ensures ParseInt(zeros + Decimal(n)) == Some(n)
  {
    var t := zeros + Decimal(n);
    PaddedDecimal(zeros, n);
    assert Numeral(t);
  }

  /** The same numeral after a `+` or `-` sign is read as its value or its negation. */
  lemma ParseIntOfSignedDecimal(sign: char, zeros: string, n: nat)
    requires sign == '+' || sign == '-'
    requires forall k :: 0 <= k < |zeros| ==> zeros[k] == '0'
    ensures ParseInt([sign] + (zeros + Decimal(n))) == Some(if sign == '+' then n else 0 - n)
  {
    PaddedDecimal(zeros, n);
    SignedDigitsParse(sign, zeros + Decimal(n));
  }

  /** Leading zeros in front of a decimal numeral leave a run of digits of the same value. */
  lemma PaddedDecimal(zeros: string, n: nat)
    requires forall k :: 0 <= k < |zeros| ==> zeros[k] == '0'
    ensures var t := zeros + Decimal(n);
      |t| > 0 && (forall k :: 0 <= k < |t| ==> IsDigit(t[k])) && NumeralValue(t) == n
  {
    var d := Decimal(n);
    var t := zeros + d;
    forall k | 0 <= k < |t|
      ensures IsDigit(t[k])
    {
      if k >= |zeros| { assert t[k] == d[k - |zeros|]; }
    }
    ZerosValue(zeros, d);
    DecimalValue(n);
  }

  /** A run of digits after a sign is read as its value or its negation. */
  lemma SignedDigitsParse(sign: char, t: string)
    requires sign == '+' || sign == '-'
    requires |t| > 0 && forall k :: 0 <= k < |t| ==> IsDigit(t[k])
    ensures ParseInt([sign] + t) == Some(if sign == '+' then NumeralValue(t) else 0 - NumeralValue(t))
  {
    assert Numeral(t);
    SignedNumeral(sign, t);
  }

  /** A sign in front of a numeral leaves a word that is not itself a numeral. */
  lemma SignedNumeral(sign: char, t: string)
    requires !IsDigit(sign)
    ensures !Numeral([sign] + t) && ([sign] + t)[0] == sign && ([sign] + t)[1..] == t
  {
    assert ([sign] + t)[0] == sign;
  }

  /** Leading zeros do not change a numeral's value. */
  lemma {:induction false} ZerosValue(zeros: string, d: string)
    requires forall k :: 0 <= k < |zeros| ==> zeros[k] == '0'
    ensures NumeralValue(zeros + d) == NumeralValue(d)
    decreases |d|
  {
    if |d| == 0 {
      assert zeros + d == zeros;
      ZerosNoValue(zeros);
    } else {
      assert (zeros + d)[..|zeros + d| - 1] == zeros + d[..|d| - 1];
      ZerosValue(zeros, d[..|d| - 1]);
    }
  }

  lemma {:induction false} ZerosNoValue(zeros: string)
    requires forall k :: 0 <= k < |zeros| ==> zeros[k] == '0'
    ensures NumeralValue(zeros) == 0
    decreases |zeros|
  {
    if |zeros| > 0 {
      ZerosNoValue(zeros[..|zeros| - 1]);
    }
  }

  /** The key written for agent `id` is read back as `id`. */
  lemma AgentKeyRoundTrip(id: nat)
    ensures KeyId(AgentKey(id)) == Some(id)
  {
    var d := Decimal(id);
    EndRunAfterSpace("Agent ", d);
    assert ("Agent " + d)[|"Agent "|..] == d;
    assert LastWord(AgentKey(id)) == Some(d);
    DecimalValue(id);
    assert Numeral(d);
  }

  // ---------------------------------------------------------------------
  // The exchange

  /**
   * The code after the loop: a false standing proposal (none, `null`, or an
   * empty object) gives `None`. Otherwise it is cut down to the two agents'
   * entries, which raises when it is not an object or lacks either key.
   */
  function Settle(idI: nat, idJ: nat, standing: Option<Proposal>): (r: Outcome)
    ensures standing.None? || !Filled(standing.value) ==> r == NoDeal
    ensures r.Raises? <==> (standing.Some? && Filled(standing.value) && (standing.value.NonObject?
      || Lookup(standing.value.entries, AgentKey(idI)).None? || Lookup(standing.value.entries, AgentKey(idJ)).None?))
    ensures r.Deal? ==> (standing.Some? && standing.value.Items? && r.resolution.Items?
      && |r.resolution.entries| == 2
      && r.resolution.entries[0].0 == AgentKey(idI) && r.resolution.entries[0] in standing.value.entries
      && r.resolution.entries[1].0 == AgentKey(idJ) && r.resolution.entries[1] in standing.value.entries)
  {
    if standing.None? || !Filled(standing.value) then NoDeal
    else if standing.value.NonObject? then Raises
    else
      var e := standing.value.entries;
      match (Lookup(e, AgentKey(idI)), Lookup(e, AgentKey(idJ)))
      case (Some(vi), Some(vj)) => Deal(Items([(AgentKey(idI), vi), (AgentKey(idJ), vj)]))
      case _ => Raises
  }

  /**
   * One turn: a parse failure ends with `None`, a missing key raises, an
   * acceptance ends with the accepting reply's own proposal, a rejection
   * leaves the loop, a counter becomes the standing proposal.
   */
  datatype Turn = Stop(outcome: Outcome) | Leave | Continue(standing: Option<Proposal>)

  function TakeTurn(r: Response): Turn
  {
    match r
    case ParseFail => Stop(NoDeal)
    case Missing => Stop(Raises)
    case Accept(p) => Stop(Deal(p))
    case Reject => Leave
    case Counter(p) => Continue(Some(p))
  }

  /**
   * The `for round_number in range(1, max_rounds + 1)` loop from `round` on:
   * the lower-index agent speaks at turn `2 * round`, the other at `2 * round + 1`.
   */
  function Rounds(idI: nat, idJ: nat, responses: seq<Response>, maxRounds: nat, round: nat, standing: Option<Proposal>): Outcome
    requires round <= maxRounds && |responses| >= 2 * maxRounds
    decreases maxRounds - round
  {
    if round == maxRounds then Settle(idI, idJ, standing)
    else
      match TakeTurn(responses[2 * round])
      case Stop(o) => o
      case Leave => Settle(idI, idJ, standing)
      case Continue(s) =>
        match TakeTurn(responses[2 * round + 1])
        case Stop(o) => o
        case Leave => Settle(idI, idJ, s)
        case Continue(s2) => Rounds(idI, idJ, responses, maxRounds, round + 1, s2)
  }

  /** Index of the first reply below `limit` that is not a counter-proposal, or `limit`. */
  function FirstDecisive(responses: seq<Response>, limit: nat, from: nat): (t: nat)
    requires from <= limit <= |responses|
    ensures from <= t <= limit
    ensures forall k :: from <= k < t ==> responses[k].Counter?
    ensures t < limit ==> !responses[t].Counter?
    decreases limit - from
  {
    if from == limit || !responses[from].Counter? then from
    else FirstDecisive(responses, limit, from + 1)
  }

  /** A label whose `ord(g) - 65` indexes a list of `n` distances without raising. */
  predicate Indexable(g: string, n: nat)
  {
    |g| == 1 && -(n as int) <= LabelIndex(g) < n
  }

  /**
   * The set-up of `run_negotiation` before the first prompt goes through:
   * `ord(g) - 65` raises `TypeError` unless an allowed goal is one
   * character, and `distances[aid][k]` raises `IndexError` unless the index
   * falls among the `n` goal slots (a negative one counting from the end).
   */
  predicate Prepared(rankingI: seq<string>, rankingJ: seq<string>, n: nat)
  {
    forall g :: g in AllowedGoals(rankingI, rankingJ) ==> Indexable(g, n)
  }

  /**
   * `run_negotiation(...)` for the conflict `(i, j, goal)`, with agent ids
   * `i + 1` and `j + 1`, the two agents' rankings, `n` goal slots and the
   * replies in turn order. The set-up raises unless every allowed goal is a
   * label it can look up. Then only the first non-counter reply within
   * `2 * max_rounds` turns matters: a parse failure gives nothing, a missing
   * key raises, an acceptance gives what that reply proposed, and a
   * rejection or running out of rounds settles on the last counter-proposal.
   */
  function RunNegotiation(i: nat, j: nat, rankingI: seq<string>, rankingJ: seq<string>, n: nat, responses: seq<Response>, maxRounds: nat): (r: Outcome)
    requires |responses| >= 2 * maxRounds
    ensures !Prepared(rankingI, rankingJ, n) ==> r == Raises
    ensures Prepared(rankingI, rankingJ, n) ==>
      var t := FirstDecisive(responses, 2 * maxRounds, 0);
      var standing := if t == 0 then None else Some(responses[t - 1].proposal);
      && (t < 2 * maxRounds && responses[t].ParseFail? ==> r == NoDeal)
      && (t < 2 * maxRounds && responses[t].Missing? ==> r == Raises)
      && (t < 2 * maxRounds && responses[t].Accept? ==> r == Deal(responses[t].proposal))
      && (t == 2 * maxRounds || responses[t].Reject? ==> r == Settle(i + 1, j + 1, standing))
  {
    if !Prepared(rankingI, rankingJ, n) then Raises
    else
      RoundsFollowFirstDecisive(i + 1, j + 1, responses, maxRounds, 0, None);
      Rounds(i + 1, j + 1, responses, maxRounds, 0, None)
  }

  lemma {:induction false} RoundsFollowFirstDecisive(idI: nat, idJ: nat, responses: seq<Response>, maxRounds: nat, round: nat, standing: Option<Proposal>)
    requires round <= maxRounds && |responses| >= 2 * maxRounds
    requires round > 0 ==> responses[2 * round - 1].Counter? && standing == Some(responses[2 * round - 1].proposal)
    requires round == 0 ==> standing.None?
    ensures var t := FirstDecisive(responses, 2 * maxRounds, 2 * round);
      var s := if t == 2 * round then standing else Some(responses[t - 1].proposal);
      var r := Rounds(idI, idJ, responses, maxRounds, round, standing);
      && (t < 2 * maxRounds && responses[t].ParseFail? ==> r == NoDeal)
      && (t < 2 * maxRounds && responses[t].Missing? ==> r == Raises)
      && (t < 2 * maxRounds && responses[t].Accept? ==> r == Deal(responses[t].proposal))
      && (t == 2 * maxRounds || responses[t].Reject? ==> r == Settle(idI, idJ, s))
    decreases maxRounds - round
  {
    var k := 2 * round;
    if round < maxRounds && responses[k].Counter? && responses[k + 1].Counter? {
      RoundsFollowFirstDecisive(idI, idJ, responses, maxRounds, round + 1, Some(responses[k + 1].proposal));
      assert FirstDecisive(responses, 2 * maxRounds, k) == FirstDecisive(responses, 2 * maxRounds, k + 2);
    } else if round < maxRounds && responses[k].Counter? {
      assert FirstDecisive(responses, 2 * maxRounds, k) == k + 1;
    }
  }

  /** A negotiation never takes more than two replies per round. */
  lemma NegotiationReadsAtMostTwoPerRound(i: nat, j: nat, rankingI: seq<string>, rankingJ: seq<string>, n: nat, responses: seq<Response>, other: seq<Response>, maxRounds: nat)
    requires |responses| >= 2 * maxRounds && |other| >= 2 * maxRounds
    requires responses[..2 * maxRounds] == other[..2 * maxRounds]
    ensures RunNegotiation(i, j, rankingI, rankingJ, n, responses, maxRounds) == RunNegotiation(i, j, rankingI, rankingJ, n, other, maxRounds)
  {
    var t := FirstDecisive(responses, 2 * maxRounds, 0);
    FirstDecisiveOnPrefix(responses, other, 2 * maxRounds, 0);
    if t < 2 * maxRounds {
      assert responses[t] == responses[..2 * maxRounds][t] == other[t];
    }
    if t > 0 {
      assert responses[t - 1] == responses[..2 * maxRounds][t - 1] == other[t - 1];
    }
  }

  lemma {:induction false} FirstDecisiveOnPrefix(a: seq<Response>, c: seq<Response>, limit: nat, from: nat)
    requires from <= limit <= |a| && limit <= |c| && a[..limit] == c[..limit]
    ensures FirstDecisive(a, limit, from) == FirstDecisive(c, limit, from)
    decreases limit - from
  {
    if from < limit {
      assert a[from] == a[..limit][from] == c[from];
      FirstDecisiveOnPrefix(a, c, limit, from + 1);
    }
  }

  /**
   * Python's `<` on strings: code point by code point, a proper prefix first.
   */
  predicate StrLess(a: string, c: string)
    decreases |a|
  {
    |c| > 0 && (|a| == 0 || a[0] < c[0] || (a[0] == c[0] && StrLess(a[1..], c[1..])))
  }

  lemma {:induction false} StrLessIrreflexive(a: string)
    ensures !StrLess(a, a)
  {
    if |a| > 0 {
      StrLessIrreflexive(a[1..]);
    }
  }

  lemma {:induction false} StrLessTotal(a: string, c: string)
    ensures a == c || StrLess(a, c) || StrLess(c, a)
  {
    if |a| > 0 && |c| > 0 && a[0] == c[0] {
      StrLessTotal(a[1..], c[1..]);
      if a[1..] == c[1..] {
        assert a == [a[0]] + a[1..] && c == [c[0]] + c[1..];
      }
    }
  }

  lemma {:induction false} StrLessTransitive(a: string, b: string, c: string)
    requires StrLess(a, b) && StrLess(b, c)
    ensures StrLess(a, c)
  {
    if |a| > 0 && a[0] == b[0] && b[0] == c[0] {
      StrLessTransitive(a[1..], b[1..], c[1..]);
    }
  }

  predicate StrictlySorted(s: seq<string>)
  {
    forall a, b :: 0 <= a < b < |s| ==> StrLess(s[a], s[b])
  }

  /** Adds `x` to a strictly sorted list unless it is already there. */
  function InsertSorted(x: string, s: seq<string>): (r: seq<string>)
    requires StrictlySorted(s)
    ensures StrictlySorted(r)
    ensures forall y :: y in r <==> y == x || y in s
    ensures |r| <= |s| + 1
  {
    if |s| == 0 then [x]
    else if x == s[0] then s
    else if StrLess(x, s[0]) then
      assert forall b :: 0 < b < |s| ==> StrLess(x, s[b]) by {
        forall b | 0 < b < |s| ensures StrLess(x, s[b]) {
          StrLessTransitive(x, s[0], s[b]);
        }
      }
      [x] + s
    else
      StrLessTotal(x, s[0]);
      var rest := InsertSorted(x, s[1..]);
      assert forall y :: y in rest ==> StrLess(s[0], y);
      assert s == [s[0]] + s[1..];
      [s[0]] + rest
  }

  function SortDistinct(s: seq<string>): (r: seq<string>)
    ensures StrictlySorted(r)
    ensures forall y :: y in r <==> y in s
    ensures |r| <= |s|
  {
    if |s| == 0 then [] else InsertSorted(s[|s| - 1], SortDistinct(s[..|s| - 1]))
  }

  /**
   * `allowed_goals = sorted(set(top_goals_i + top_goals_j))`: it is written into
   * the prompts and never checked against the replies.
   */
  function AllowedGoals(rankingI: seq<string>, rankingJ: seq<string>): (r: seq<string>)
    ensures StrictlySorted(r)
    ensures forall g :: g in r <==> (g in rankingI[..if |rankingI| < 2 then |rankingI| else 2]
      || g in rankingJ[..if |rankingJ| < 2 then |rankingJ| else 2])
    ensures |r| <= 4
  {
    var ti := rankingI[..if |rankingI| < 2 then |rankingI| else 2];
    var tj := rankingJ[..if |rankingJ| < 2 then |rankingJ| else 2];
    SortDistinct(ti + tj)
  }

  /** An accepted proposal is taken as it stands, even for goals outside the allowed list. */
  lemma AcceptedProposalIsUnchecked()
    ensures var p := Items([("Agent 2", Some("Z"))]);
      "Z" !in AllowedGoals(["A", "B"], ["A", "C"])
      && RunNegotiation(0, 1, ["A", "B"], ["A", "C"], 3, [Accept(p), Reject], 1) == Deal(p)
  {
    var p := Items([("Agent 2", Some("Z"))]);
    assert FirstDecisive([Accept(p), Reject], 2, 0) == 0;
    var allowed := AllowedGoals(["A", "B"], ["A", "C"]);
    assert ["A", "B"][..2] == ["A", "B"] && ["A", "C"][..2] == ["A", "C"];
    assert forall g :: g in allowed ==> g == "A" || g == "B" || g == "C";
    assert Prepared(["A", "B"], ["A", "C"], 3);
  }

  // ---------------------------------------------------------------------
  // Applying a resolution

  /** Whether a parsed id is one of `n` agents' ids `1..n`, so that `agent_ids.index` finds it. */
  predicate NamesAgent(id: Option<int>, n: nat)
  {
    id.Some? && 1 <= id.value <= n
  }

  /** The items of a resolution with each key read as `int(aid_str.split()[-1])`. */
  function Parsed(entries: seq<(string, Option<string>)>): (items: seq<(Option<int>, Option<string>)>)
    ensures |items| == |entries|
    ensures forall k :: 0 <= k < |entries| ==> items[k] == (KeyId(entries[k].0), entries[k].1)
  {
    seq(|entries|, k requires 0 <= k < |entries| => (KeyId(entries[k].0), entries[k].1))
  }

  /** The target of the last item naming agent `id`, if any item does. */
  function LastTarget(items: seq<(Option<int>, Option<string>)>, id: int): Option<Option<string>>
  {
    if |items| == 0 then None
    else if items[|items| - 1].0 == Some(id) then Some(items[|items| - 1].1)
    else LastTarget(items[..|items| - 1], id)
  }

  /** What agent `a` (0-based) is left with: the last target naming it, else its old goal. */
  function Overwritten(goals: seq<Option<string>>, items: seq<(Option<int>, Option<string>)>, a: nat): Option<string>
    requires a < |goals|
  {
    var t := LastTarget(items, a + 1);
    if t.Some? then t.value else goals[a]
  }

  /** Some item names none of `n` agents. */
  predicate BadKey(items: seq<(Option<int>, Option<string>)>, n: nat)
  {
    exists k :: 0 <= k < |items| && !NamesAgent(items[k].0, n)
  }

  /**
   * The loop `proposed_goals[agent_ids.index(...)] = tgt` over the parsed
   * items, written as the loop over all but the last item followed by the
   * last. `None` when some key raises.
   */
  function Assign(goals: seq<Option<string>>, items: seq<(Option<int>, Option<string>)>): (r: Option<seq<Option<string>>>)
    ensures r.None? <==> BadKey(items, |goals|)
    ensures r.Some? ==> |r.value| == |goals|
    ensures r.Some? ==> forall a :: 0 <= a < |goals| ==> r.value[a] == Overwritten(goals, items, a)
    decreases |items|
  {
    if |items| == 0 then Some(goals)
    else
      var init := items[..|items| - 1];
      var last := items[|items| - 1];
      BadKeySplit(items, |goals|);
      match Assign(goals, init)
      case None => None
      case Some(prior) =>
        if NamesAgent(last.0, |goals|) then
          AssignLast(goals, items, prior);
          Some(prior[last.0.value - 1 := last.1])
        else None
  }

  lemma BadKeySplit(items: seq<(Option<int>, Option<string>)>, n: nat)
    requires |items| > 0
    ensures BadKey(items, n) <==> BadKey(items[..|items| - 1], n) || !NamesAgent(items[|items| - 1].0, n)
  {
    var init := items[..|items| - 1];
    assert forall k :: 0 <= k < |init| ==> init[k] == items[k];
  }

  lemma AssignLast(goals: seq<Option<string>>, items: seq<(Option<int>, Option<string>)>, prior: seq<Option<string>>)
    requires |items| > 0 && |prior| == |goals|
    requires forall a :: 0 <= a < |goals| ==> prior[a] == Overwritten(goals, items[..|items| - 1], a)
    requires NamesAgent(items[|items| - 1].0, |goals|)
    ensures var last := items[|items| - 1];
      forall a :: 0 <= a < |goals| ==> prior[last.0.value - 1 := last.1][a] == Overwritten(goals, items, a)
  {
  }

  /** Whether applying `res` to the goals of `n` agents raises. */
  predicate ResolutionRaises(res: Proposal, n: nat)
  {
    Filled(res) && (res.NonObject? || BadKey(Parsed(res.entries), n))
  }

  /**
   * `if resolution: for aid_str, tgt in resolution.items(): ...`. `None` is
   * the exception: a true value that is not an object has no `.items()`, and
   * a key whose last word is not an integer, or not an agent's id, raises.
   * Otherwise each agent ends with the target of the last item naming it.
   */
  function ApplyResolution(goals: seq<Option<string>>, res: Proposal): (r: Option<seq<Option<string>>>)
    ensures r.None? <==> ResolutionRaises(res, |goals|)
    ensures !Filled(res) ==> r == Some(goals)
    ensures r.Some? ==> |r.value| == |goals|
    ensures r.Some? && res.Items? ==> forall a :: 0 <= a < |goals| ==> r.value[a] == Overwritten(goals, Parsed(res.entries), a)
  {
    if !Filled(res) then Some(goals)
    else if res.NonObject? then None
    else Assign(goals, Parsed(res.entries))
  }

  /** The resolution `{f"Agent {a + 1}": va, f"Agent {b + 1}": vb}` sets exactly those two agents' goals. */
  lemma TwoAgentResolution(goals: seq<Option<string>>, a: nat, b: nat, va: Option<string>, vb: Option<string>)
    requires a < |goals| && b < |goals| && a != b
    ensures ApplyResolution(goals, Items([(AgentKey(a + 1), va), (AgentKey(b + 1), vb)])) == Some(goals[a := va][b := vb])
  {
    AgentKeyRoundTrip(a + 1);
    AgentKeyRoundTrip(b + 1);
    TwoKeyResolution(goals, AgentKey(a + 1), AgentKey(b + 1), a, b, va, vb);
  }

  /** The same for any two keys that read back as the two agents' ids. */
  lemma TwoKeyResolution(goals: seq<Option<string>>, keyA: string, keyB: string, a: nat, b: nat, va: Option<string>, vb: Option<string>)
    requires a < |goals| && b < |goals| && a != b
    requires KeyId(keyA) == Some(a + 1) && KeyId(keyB) == Some(b + 1)
    ensures ApplyResolution(goals, Items([(keyA, va), (keyB, vb)])) == Some(goals[a := va][b := vb])
  {
    var res := Items([(keyA, va), (keyB, vb)]);
    var items := [(Some(a + 1), va), (Some(b + 1), vb)];
    assert Parsed(res.entries) == items;
    assert !BadKey(items, |goals|) by {
      assert forall k :: 0 <= k < |items| ==> NamesAgent(items[k].0, |goals|);
    }
    var r := ApplyResolution(goals, res).value;
    forall c | 0 <= c < |goals|
      ensures r[c] == goals[a := va][b := vb][c]
    {
      assert items[..1] == [(Some(a + 1), va)] && items[..1][..0] == [];
      assert LastTarget(items[..1][..0], c + 1) == None;
      assert LastTarget(items[..1], c + 1) == if c == a then Some(va) else None;
      assert r[c] == Overwritten(goals, items, c);
    }
    assert r == goals[a := va][b := vb];
  }

  /**
   * A resolution settled after a rejection or the last round applies without
   * raising and touches only the two negotiators.
   */
  lemma SettledResolutionTouchesTwo(goals: seq<Option<string>>, i: nat, j: nat, rankingI: seq<string>, rankingJ: seq<string>, n: nat,
                                    responses: seq<Response>, maxRounds: nat, k: nat)
    requires |responses| >= 2 * maxRounds && i < j < |goals| && k < |goals| && k != i && k != j
    requires forall t :: 0 <= t < |responses| ==> !responses[t].Accept?
    requires RunNegotiation(i, j, rankingI, rankingJ, n, responses, maxRounds).Deal?
    ensures var r := ApplyResolution(goals, RunNegotiation(i, j, rankingI, rankingJ, n, responses, maxRounds).resolution);
      r.Some? && r.value[k] == goals[k]
  {
    var t := FirstDecisive(responses, 2 * maxRounds, 0);
    assert t < 2 * maxRounds ==> !responses[t].Accept?;
    var res := RunNegotiation(i, j, rankingI, rankingJ, n, responses, maxRounds).resolution;
    var e := res.entries;
    TwoAgentResolution(goals, i, j, e[0].1, e[1].1);
    assert res == Items([(AgentKey(i + 1), e[0].1), (AgentKey(j + 1), e[1].1)]);
  }

  // ---------------------------------------------------------------------
  // Phase 2 of one step of the top-two loop

  /** `max_rounds`: the loop calls `run_negotiation` with its default. */
  const MaxRounds: nat := 4

  /** `[rank[0] if rank else None for rank in agent_rankings]`. */
  function Tops(rankings: seq<seq<string>>): (tops: seq<Option<string>>)
    ensures |tops| == |rankings|
    ensures forall k :: 0 <= k < |rankings| ==> tops[k] == if rankings[k] == [] then None else Some(rankings[k][0])
  {
    seq(|rankings|, k requires 0 <= k < |rankings| => if rankings[k] == [] then None else Some(rankings[k][0]))
  }

  /** The replies of the exchange for conflict `u`, turn by turn. */
  function Replies(talk: (nat, nat) -> Response, u: nat): (rs: seq<Response>)
    ensures |rs| == 2 * MaxRounds
  {
    seq(2 * MaxRounds, k requires 0 <= k < 2 * MaxRounds => talk(u, k))
  }

  /** Whether conflict `c` raises: in `run_negotiation`, or when its resolution is applied. */
  predicate ConflictRaises(c: Conflict, rankings: seq<seq<string>>, n: nat, replies: seq<Response>)
    requires c.lower < |rankings| && c.higher < |rankings| && |replies| >= 2 * MaxRounds
  {
    var o := RunNegotiation(c.lower, c.higher, rankings[c.lower], rankings[c.higher], n, replies, MaxRounds);
    o.Raises? || (o.Deal? && ResolutionRaises(o.resolution, |rankings|))
  }

  /** The `for conflict in conflict_pairs` loop from conflict `from` on. */
  function Resolve(cs: seq<Conflict>, rankings: seq<seq<string>>, n: nat, talk: (nat, nat) -> Response, from: nat, proposed: seq<Option<string>>): (r: Option<seq<Option<string>>>)
    requires from <= |cs| && |proposed| == |rankings|
    requires forall u :: 0 <= u < |cs| ==> cs[u].lower < |rankings| && cs[u].higher < |rankings|
    ensures r.None? <==> exists u :: from <= u < |cs| && ConflictRaises(cs[u], rankings, n, Replies(talk, u))
    ensures r.Some? ==> |r.value| == |rankings|
    decreases |cs| - from
  {
    if from == |cs| then Some(proposed)
    else
      var c := cs[from];
      match RunNegotiation(c.lower, c.higher, rankings[c.lower], rankings[c.higher], n, Replies(talk, from), MaxRounds)
      case Raises => None
      case NoDeal => Resolve(cs, rankings, n, talk, from + 1, proposed)
      case Deal(res) =>
        match ApplyResolution(proposed, res)
        case None => None
        case Some(next) => Resolve(cs, rankings, n, talk, from + 1, next)
  }

  /**
   * Phase 2 of the top-two loop: the conflicts over the agents' first
   * choices, negotiated in order, each resolution overwriting the proposed
   * goals. `talk(u, k)` is reply `k` of the exchange for conflict `u`, and
   * `n` is the number of goal slots. `None` is an exception that ends the run.
   */
  function NegotiationPhase(rankings: seq<seq<string>>, active: seq<bool>, n: nat, talk: (nat, nat) -> Response): (r: Option<seq<Option<string>>>)
    requires |active| == |rankings|
    ensures var cs := ConflictPairs(Tops(rankings), active);
      r.None? <==> exists u :: 0 <= u < |cs| && ConflictRaises(cs[u], rankings, n, Replies(talk, u))
    ensures r.Some? ==> |r.value| == |rankings|
    ensures ConflictPairs(Tops(rankings), active) == [] ==> r == Some(Tops(rankings))
  {
    Resolve(ConflictPairs(Tops(rankings), active), rankings, n, talk, 0, Tops(rankings))
  }

  /** With at most one agent there is nothing to negotiate. */
  lemma AtMostOneAgentNoConflict(tops: seq<Option<string>>, active: seq<bool>)
    requires |tops| == |active| <= 1
    ensures ConflictPairs(tops, active) == []
  {
    NoPairsFrom(tops, active, 0);
  }

  lemma {:induction false} NoPairsFrom(tops: seq<Option<string>>, active: seq<bool>, a: nat)
    requires |tops| == |active| <= 1 && a <= |tops|
    ensures ConflictPairsFrom(tops, active, a) == []
    decreases |tops| - a
  {
    if a < |tops| {
      NoPairsFrom(tops, active, a + 1);
    }
  }

  /** Two agents that both put a two-letter label first make the step raise, whatever the replies. */
  lemma TwoLetterTopRaises(talk: (nat, nat) -> Response)
    ensures NegotiationPhase([["AB"], ["AB"]], [true, true], 2, talk).None?
  {
    var rankings := [["AB"], ["AB"]];
    var tops := Tops(rankings);
    assert tops == [Some("AB"), Some("AB")];
    assert Holders(tops, [true, true], "AB", 2) == [];
    assert Holders(tops, [true, true], "AB", 1) == [1];
    assert Holders(tops, [true, true], "AB", 0) == [0, 1];
    var cs := ConflictPairs(tops, [true, true]);
    var c := Conflict(0, 1, "AB");
    assert c in cs;
    var u := IndexOf(cs, c);
    assert ["AB"][..1] == ["AB"];
    assert "AB" in AllowedGoals(["AB"], ["AB"]);
    assert !Prepared(["AB"], ["AB"], 2);
    assert ConflictRaises(cs[u], rankings, 2, Replies(talk, u));
  }
}

=== FILE: parsing.dfy ===
/**
 * What survives of a ranking reply on its way to the conflict resolver in
 * agents/agent_rank_priority_bfs.py: `parse_ranking_response` (strip and
 * upper-case every string entry, drop the rest, `[]` on any error) and the
 * filter of `select_target` (keep labels of goals still on the board, first
 * occurrence only, with a fallback when nothing is left).
 */
module Parsing {
  import opened Wrappers
  import opened Seqs
  import opened Grid
  import opened Labels

  /** `str.isspace()` on one character: Python's whitespace code points. */
  predicate IsSpace(c: char)
  {
    ('\t' <= c <= '\r') || ('\U{1c}' <= c <= ' ') || c == '\U{85}' || c == '\U{a0}'
    || c == '\U{1680}' || ('\U{2000}' <= c <= '\U{200a}') || c == '\U{2028}' || c == '\U{2029}'
    || c == '\U{202f}' || c == '\U{205f}' || c == '\U{3000}'
  }

  /** Number of leading whitespace characters. */
  function Leading(s: string): (n: nat)
    ensures n <= |s|
    ensures forall k :: 0 <= k < n ==> IsSpace(s[k])
    ensures n < |s| ==> !IsSpace(s[n])
  {
    if |s| > 0 && IsSpace(s[0]) then 1 + Leading(s[1..]) else 0
  }

  /** Number of trailing whitespace characters. */
  function Trailing(s: string): (n: nat)
    ensures n <= |s|
    ensures forall k :: |s| - n <= k < |s| ==> IsSpace(s[k])
    ensures n < |s| ==> !IsSpace(s[|s| - n - 1])
  {
    if |s| > 0 && IsSpace(s[|s| - 1]) then 1 + Trailing(s[..|s| - 1]) else 0
  }

  /** `s[i..j]` cuts off only whitespace at either end. */
  predicate Margins(s: string, i: int, j: int)
  {
    && 0 <= i <= j <= |s|
    && (forall k :: 0 <= k < i ==> IsSpace(s[k]))
    && (forall k :: j <= k < |s| ==> IsSpace(s[k]))
  }

  /** The cut `Strip` makes: whitespace margins around a slice that starts and ends with a non-space. */
  lemma StripCut(s: string)
    ensures var i := Leading(s); var j := i + |s[i..]| - Trailing(s[i..]);
      && Margins(s, i, j)
      && (s[i..j] != [] ==> !IsSpace(s[i]) && !IsSpace(s[j - 1]))
      && (i == j ==> forall k :: 0 <= k < |s| ==> IsSpace(s[k]))
  {
    var i := Leading(s);
    var t := s[i..];
    var j := i + |t| - Trailing(t);
    assert forall k :: j <= k < |s| ==> s[k] == t[k - i];
  }

  /** `str.strip()`: the slice between the first and the last non-space character. */
  function Strip(s: string): (r: string)
    ensures exists i, j :: Margins(s, i, j) && r == s[i..j]
    ensures r != [] ==> !IsSpace(r[0]) && !IsSpace(r[|r| - 1])
    ensures (forall k :: 0 <= k < |s| ==> IsSpace(s[k])) ==> r == []
  {
    var i := Leading(s);
    var j := i + |s[i..]| - Trailing(s[i..]);
    StripCut(s);
    s[i..j]
  }

  /** Stripping a string with no whitespace at either end changes nothing. */
  lemma StripTrimmed(s: string)
    requires s != [] ==> !IsSpace(s[0]) && !IsSpace(s[|s| - 1])
    ensures Strip(s) == s
  {
    if s != [] {
      assert Leading(s) == 0;
      assert s[0..] == s;
      assert Trailing(s) == 0;
    }
  }

  function UpperChar(c: char): char
  {
    if 'a' <= c <= 'z' then (c as int - 32) as char else c
  }

  /** `str.upper()` on the ASCII letters. */
  function Upper(s: string): (r: string)
    ensures |r| == |s|
    ensures forall k :: 0 <= k < |s| ==> !('a' <= r[k] <= 'z')
    ensures forall k :: 0 <= k < |s| ==> IsSpace(r[k]) == IsSpace(s[k])
    ensures forall k :: 0 <= k < |s| ==> (r[k] == s[k] || ('a' <= s[k] <= 'z' && r[k] as int == s[k] as int - 32))
  {
    seq(|s|, k requires 0 <= k < |s| => UpperChar(s[k]))
  }

  /** `g.strip().upper()`. */
  function Normalize(s: string): string
  {
    Upper(Strip(s))
  }

  /** A label the parser could have produced: no outer spaces, no lower-case letter. */
  predicate IsNormal(s: string)
  {
    (s != [] ==> !IsSpace(s[0]) && !IsSpace(s[|s| - 1]))
    && forall k :: 0 <= k < |s| ==> !('a' <= s[k] <= 'z')
  }

  lemma UpperOfUpper(s: string)
    requires forall k :: 0 <= k < |s| ==> !('a' <= s[k] <= 'z')
    ensures Upper(s) == s
  {
  }

  /** Every normalised string is normal, and normal strings are fixed points. */
  lemma NormalizeIsNormal(s: string)
    ensures IsNormal(Normalize(s))
    ensures IsNormal(s) ==> Normalize(s) == s
  {
    if IsNormal(s) {
      StripTrimmed(s);
      UpperOfUpper(s);
    }
  }

  lemma NormalizeIdempotent(s: string)
    ensures Normalize(Normalize(s)) == Normalize(s)
  {
    NormalizeIsNormal(s);
    NormalizeIsNormal(Normalize(s));
  }

  /** A decoded JSON value, as far as the ranking parser looks into it. */
  datatype Json =
    | JString(s: string)
    | JArray(items: seq<Json>)
    | JObject(entries: seq<(string, Json)>)
    | JScalar   // a number, `true`, `false` or `null`

  /** The reply text: either no JSON object could be cut out and decoded, or its value. */
  datatype Document = Undecodable | Decoded(value: Json)

  /** `dict.get(key)`: a repeated key keeps its last value, as `json.loads` does. */
  function Lookup<V>(entries: seq<(string, V)>, key: string): (r: Option<V>)
    ensures r.Some? <==> exists k :: 0 <= k < |entries| && entries[k].0 == key
    ensures r.Some? ==> exists k :: 0 <= k < |entries| && entries[k] == (key, r.value)
  {
    if |entries| == 0 then None
    else if entries[|entries| - 1].0 == key then Some(entries[|entries| - 1].1)
    else Lookup(entries[..|entries| - 1], key)
  }

  /** The distinct keys of an object, in order of first appearance. */
  function Keys(entries: seq<(string, Json)>, seen: set<string>): (r: seq<string>)
    ensures forall k :: 0 <= k < |r| ==> r[k] !in seen
    ensures forall x :: x in r <==> x !in seen && exists k :: 0 <= k < |entries| && entries[k].0 == x
  {
    if |entries| == 0 then []
    else if entries[0].0 in seen then Keys(entries[1..], seen)
    else
      var rest := Keys(entries[1..], seen + {entries[0].0});
      assert forall k :: 1 <= k < |entries| ==> entries[k] == entries[1..][k - 1];
      [entries[0].0] + rest
  }

  /** A field that `parsed.get(name, "").strip()` reads without raising. */
  predicate TextOrAbsent(entries: seq<(string, Json)>, name: string)
  {
    var v := Lookup(entries, name);
    v.None? || v.value.JString?
  }

  /**
   * What a `for g in value` loop sees: the items of a list, the one-character
   * strings of a string, the keys of an object; `None` when iterating raises.
   */
  function Iterated(v: Json): (r: Option<seq<Json>>)
    ensures v.JArray? ==> r == Some(v.items)
    ensures v.JScalar? <==> r.None?
    ensures v.JString? ==> (r.Some? && |r.value| == |v.s|
      && forall k :: 0 <= k < |v.s| ==> r.value[k] == JString([v.s[k]]))
  {
    match v
    case JArray(items) => Some(items)
    case JString(s) => Some(seq(|s|, k requires 0 <= k < |s| => JString([s[k]])))
    case JObject(entries) =>
      var ks := Keys(entries, {});
      Some(seq(|ks|, k requires 0 <= k < |ks| => JString(ks[k])))
    case JScalar => None
  }

  /** `[g.strip().upper() for g in items if isinstance(g, str)]`. */
  function NormalizeStrings(items: seq<Json>): (r: seq<string>)
    ensures |r| <= |items|
    ensures forall k :: 0 <= k < |r| ==> IsNormal(r[k])
  {
    if |items| == 0 then []
    else
      var head := if items[0].JString? then [Normalize(items[0].s)] else [];
      var rest := NormalizeStrings(items[1..]);
      NormalizeIsNormal(if items[0].JString? then items[0].s else "");
      NormalConcat(head, rest);
      head + rest
  }

  lemma NormalConcat(a: seq<string>, b: seq<string>)
    requires forall k :: 0 <= k < |a| ==> IsNormal(a[k])
    requires forall k :: 0 <= k < |b| ==> IsNormal(b[k])
    ensures forall k :: 0 <= k < |a + b| ==> IsNormal((a + b)[k])
  {
    forall k | 0 <= k < |a + b| ensures IsNormal((a + b)[k]) {
      if k >= |a| {
        assert (a + b)[k] == b[k - |a|];
      }
    }
  }

  /**
   * `parse_ranking_response(text)[0]`. Every exception inside the `try` -- an
   * undecodable reply, a value that is not an object, a non-text `reasoning`
   * or `explanation`, a `ranking` that cannot be iterated -- gives `[]`.
   */
  function ParseRanking(d: Document): (r: seq<string>)
    ensures forall k :: 0 <= k < |r| ==> IsNormal(r[k])
    ensures d.Undecodable? || !d.value.JObject? ==> r == []
    ensures d.Decoded? && d.value.JObject? && !(TextOrAbsent(d.value.entries, "reasoning") && TextOrAbsent(d.value.entries, "explanation")) ==> r == []
  {
    match d
    case Undecodable => []
    case Decoded(v) =>
      if !v.JObject? then []
      else if !(TextOrAbsent(v.entries, "reasoning") && TextOrAbsent(v.entries, "explanation")) then []
      else
        match Lookup(v.entries, "ranking")
        case None => []
        case Some(ranking) =>
          match Iterated(ranking)
          case None => []
          case Some(items) => NormalizeStrings(items)
  }

  /** The reply an agent writes when it lists `labels` in `"ranking"`. */
  function RankingReply(labels: seq<string>): Document
  {
    Decoded(JObject([("ranking", JArray(JsonStrings(labels)))]))
  }

  /** The labels as a JSON list of strings, in order. */
  function JsonStrings(labels: seq<string>): (r: seq<Json>)
    ensures |r| == |labels|
  {
    if |labels| == 0 then [] else [JString(labels[0])] + JsonStrings(labels[1..])
  }

  lemma {:induction false} NormalizeStringsOfNormal(labels: seq<string>)
    requires forall k :: 0 <= k < |labels| ==> IsNormal(labels[k])
    ensures NormalizeStrings(JsonStrings(labels)) == labels
  {
    if |labels| > 0 {
      var items := JsonStrings(labels);
      NormalizeIsNormal(labels[0]);
      assert items[1..] == JsonStrings(labels[1..]);
      NormalizeStringsOfNormal(labels[1..]);
      assert labels == [labels[0]] + labels[1..];
    }
  }

  /** Writing normal labels into a reply and parsing it back gives them back. */
  lemma ParseRankingRoundTrip(labels: seq<string>)
    requires forall k :: 0 <= k < |labels| ==> IsNormal(labels[k])
    ensures ParseRanking(RankingReply(labels)) == labels
  {
    var entries := [("ranking", JArray(JsonStrings(labels)))];
    assert Lookup(entries, "reasoning").None?;
    assert Lookup(entries, "explanation").None?;
    NormalizeStringsOfNormal(labels);
  }

  /** Non-string entries are dropped and string entries normalised, whatever their position. */
  lemma {:induction false} NormalizeStringsSplit(a: seq<Json>, c: seq<Json>)
    ensures NormalizeStrings(a + c) == NormalizeStrings(a) + NormalizeStrings(c)
  {
    if |a| > 0 {
      var ac := a + c;
      assert ac[0] == a[0];
      assert ac[1..] == a[1..] + c;
      NormalizeStringsSplit(a[1..], c);
      var head := if a[0].JString? then [Normalize(a[0].s)] else [];
      assert NormalizeStrings(ac) == head + NormalizeStrings(ac[1..]);
      assert NormalizeStrings(a) == head + NormalizeStrings(a[1..]);
    } else {
      assert a + c == c;
    }
  }

  /** `valid_goals`: the labels of goal slots that are still on the board, in slot order. */
  function ValidLabels(goals: seq<Option<Cell>>): (r: seq<string>)
    requires |goals| <= LabelLimit
    ensures forall x :: x in r <==> exists i :: 0 <= i < |goals| && goals[i].Some? && x == Label(i)
    ensures forall a, b :: 0 <= a < b < |r| ==> r[a] != r[b]
    ensures |r| == 0 <==> forall i :: 0 <= i < |goals| ==> goals[i].None?
  {
    if |goals| == 0 then []
    else
      var init := ValidLabels(goals[..|goals| - 1]);
      var i := |goals| - 1;
      forall a | 0 <= a < |init| ensures init[a] != Label(i) {
        assert init[a] in init;
        var m :| 0 <= m < |goals[..i]| && goals[..i][m].Some? && init[a] == Label(m);
        LabelInjective(m, i);
      }
      init + (if goals[i].Some? then [Label(i)] else [])
  }

  /** The dedupe loop: labels in `valid`, not yet `seen`, first occurrences only. */
  function KeepFirst(raw: seq<string>, valid: seq<string>, seen: set<string>): (r: seq<string>)
    ensures forall x :: x in r <==> x in raw && x in valid && x !in seen
    ensures forall a, b :: 0 <= a < b < |r| ==> r[a] != r[b]
  {
    if |raw| == 0 then []
    else
      var g := raw[0];
      var rest := KeepFirst(raw[1..], valid, if g in valid && g !in seen then seen + {g} else seen);
      assert forall x :: x in raw <==> x == g || x in raw[1..] by {
        assert raw == [g] + raw[1..];
      }
      if g in valid && g !in seen then [g] + rest else rest
  }

  /** Every label of `r` that occurs in `raw` comes after the earlier ones, counting first occurrences. */
  predicate InFirstOrder(raw: seq<string>, r: seq<string>)
  {
    forall a, b :: 0 <= a < b < |r| && r[a] in raw && r[b] in raw ==> FirstIndex(raw, r[a]) < FirstIndex(raw, r[b])
  }

  /** Labels after a different first element keep their relative order in the tail. */
  lemma ShiftFirstOrder(raw: seq<string>, rest: seq<string>)
    requires |raw| > 0 && InFirstOrder(raw[1..], rest)
    requires forall x :: x in rest ==> x != raw[0] && x in raw[1..]
    ensures InFirstOrder(raw, rest) && InFirstOrder(raw, [raw[0]] + rest)
  {
    forall x | x in rest ensures FirstIndex(raw, x) == 1 + FirstIndex(raw[1..], x) {
    }
    var r := [raw[0]] + rest;
    forall a, b | 0 <= a < b < |r| && r[a] in raw && r[b] in raw ensures FirstIndex(raw, r[a]) < FirstIndex(raw, r[b]) {
      assert r[b] == rest[b - 1] && rest[b - 1] in rest;
      if a > 0 {
        assert r[a] == rest[a - 1] && rest[a - 1] in rest;
      }
    }
  }

  /** The kept labels appear in the order of their first occurrence in the reply. */
  lemma {:induction false} KeepFirstKeepsOrder(raw: seq<string>, valid: seq<string>, seen: set<string>)
    ensures InFirstOrder(raw, KeepFirst(raw, valid, seen))
  {
    if |raw| > 0 {
      var g := raw[0];
      var seen' := if g in valid && g !in seen then seen + {g} else seen;
      KeepFirstKeepsOrder(raw[1..], valid, seen');
      ShiftFirstOrder(raw, KeepFirst(raw[1..], valid, seen'));
    }
  }

  /** Deduplicating an already distinct list of allowed labels changes nothing. */
  lemma {:induction false} KeepFirstOfDistinct(s: seq<string>, valid: seq<string>, seen: set<string>)
    requires forall a, b :: 0 <= a < b < |s| ==> s[a] != s[b]
    requires forall k :: 0 <= k < |s| ==> s[k] in valid && s[k] !in seen
    ensures KeepFirst(s, valid, seen) == s
  {
    if |s| > 0 {
      assert s[0] !in s[1..];
      KeepFirstOfDistinct(s[1..], valid, seen + {s[0]});
      assert s == [s[0]] + s[1..];
    }
  }

  /**
   * The filter of `select_target`. When nothing survives but goals remain,
   * `random.choice(list(valid_goals))` picks one; the choice is the input
   * `pick`, taken modulo the number of remaining goals.
   */
  function FilterRanking(raw: seq<string>, goals: seq<Option<Cell>>, pick: nat): (r: seq<string>)
    requires |goals| <= LabelLimit
    ensures forall x :: x in r ==> x in ValidLabels(goals)
    ensures forall a, b :: 0 <= a < b < |r| ==> r[a] != r[b]
    ensures (exists x :: x in raw && x in ValidLabels(goals)) ==>
      (forall x :: x in r <==> x in raw && x in ValidLabels(goals))
      && InFirstOrder(raw, r)
    ensures !(exists x :: x in raw && x in ValidLabels(goals)) ==>
      (|ValidLabels(goals)| > 0 ==> |r| == 1) && (|ValidLabels(goals)| == 0 ==> r == [])
    ensures |ValidLabels(goals)| > 0 ==> |r| > 0
  {
    var valid := ValidLabels(goals);
    var kept := KeepFirst(raw, valid, {});
    KeepFirstKeepsOrder(raw, valid, {});
    assert |kept| > 0 ==> kept[0] in kept;
    if |kept| > 0 then kept
    else if |valid| > 0 then [valid[pick % |valid|]]
    else []
  }

  /** Filtering a filtered ranking again returns it unchanged, whatever the second pick. */
  lemma FilterIdempotent(raw: seq<string>, goals: seq<Option<Cell>>, pick: nat, pick2: nat)
    requires |goals| <= LabelLimit
    ensures FilterRanking(FilterRanking(raw, goals, pick), goals, pick2) == FilterRanking(raw, goals, pick)
  {
    var f := FilterRanking(raw, goals, pick);
    KeepFirstOfDistinct(f, ValidLabels(goals), {});
  }
}

=== FILE: paths.dfy ===
/**
 * `find_path_bfs` of figures/plot_optim_sol.py: the same breadth-first
 * search as the distance oracle, but each queue entry carries the walk that
 * reached it, and the walk of the first entry popped at the goal is returned.
 *
 * The FIFO queue is modelled one level at a time as an ordered sequence of
 * entries. All entries of a level are popped before any entry of the next,
 * and they are expanded in queue order with the neighbour order
 * (-1, 0), (1, 0), (0, -1), (0, 1) of the source. The visited set is shared
 * and grows entry by entry, so the model returns the same walk as the
 * source, not just a walk of the same length.
 */
module Paths {
  import opened Wrappers
  import opened Grid
  import opened Bfs

  /** The neighbour order of the search loop: down, up, left, right. */
  const BfsOrder: seq<Direction> := [Down, Up, Left, Right]

  /** A queue entry: the tuple `(pos, path)` of the source. */
  datatype Entry = Entry(pos: Cell, path: seq<Cell>)

  /** The cells held by a queue level. */
  function Positions(q: seq<Entry>): (r: set<Cell>)
    ensures forall i :: 0 <= i < |q| ==> q[i].pos in r
    ensures forall c :: c in r ==> exists i :: 0 <= i < |q| && q[i].pos == c
    ensures r == {} <==> q == []
  {
    if q == [] then {} else {q[0].pos} + Positions(q[1..])
  }

  lemma {:induction false} PositionsConcat(a: seq<Entry>, c: seq<Entry>)
    ensures Positions(a + c) == Positions(a) + Positions(c)
    decreases |a|
  {
    if a == [] {
      assert a + c == c;
    } else {
      assert (a + c)[1..] == a[1..] + c;
      PositionsConcat(a[1..], c);
    }
  }

  /** The free neighbours of `c` in the directions `dirs`. */
  function DirSet(b: Board, c: Cell, dirs: seq<Direction>): set<Cell>
  {
    set d | d in dirs && Free(b, Neighbour(c, d)) :: Neighbour(c, d)
  }

  lemma DirSetCons(b: Board, c: Cell, dirs: seq<Direction>)
    requires dirs != []
    ensures DirSet(b, c, dirs)
      == (if Free(b, Neighbour(c, dirs[0])) then {Neighbour(c, dirs[0])} else {}) + DirSet(b, c, dirs[1..])
  {
    assert forall d :: d in dirs <==> d == dirs[0] || d in dirs[1..];
  }

  /** Expanding one cell in the search order reaches exactly its free neighbours. */
  lemma StepSingle(b: Board, c: Cell)
    ensures Step(b, {c}) == DirSet(b, c, BfsOrder)
  {
    forall x ensures x in Step(b, {c}) <==> x in DirSet(b, c, BfsOrder) {
      InStep(b, {c}, x);
      if x in Step(b, {c}) {
        var d := AdjacentHasDirection(c, x);
        assert d in BfsOrder;
      }
      if x in DirSet(b, c, BfsOrder) {
        var d :| d in BfsOrder && Free(b, Neighbour(c, d)) && Neighbour(c, d) == x;
        NeighbourIsAdjacent(c, d);
      }
    }
  }

  /**
   * The inner `for` loop over the directions `dirs` for the popped entry `e`:
   * the entries it enqueues and the visited set it leaves.
   */
  function ExpandEntry(b: Board, e: Entry, dirs: seq<Direction>, visited: set<Cell>): (seq<Entry>, set<Cell>)
    decreases |dirs|
  {
    if dirs == [] then ([], visited)
    else
      var n := Neighbour(e.pos, dirs[0]);
      if Free(b, n) && n !in visited then
        var (rest, v) := ExpandEntry(b, e, dirs[1..], visited + {n});
        ([Entry(n, e.path + [n])] + rest, v)
      else
        ExpandEntry(b, e, dirs[1..], visited)
  }

  /** Popping and expanding every entry of a level, in queue order. */
  function ExpandLevel(b: Board, q: seq<Entry>, visited: set<Cell>): (seq<Entry>, set<Cell>)
    decreases |q|
  {
    if q == [] then ([], visited)
    else
      var (a, v1) := ExpandEntry(b, q[0], BfsOrder, visited);
      var (rest, v2) := ExpandLevel(b, q[1..], v1);
      (a + rest, v2)
  }

  /** An entry `e` is a one-step extension of `parent`. */
  predicate ExtendsBy(b: Board, parent: Entry, e: Entry)
  {
    e.path == parent.path + [e.pos] && Free(b, e.pos) && Adjacent(parent.pos, e.pos)
  }

  lemma {:induction false} ExpandEntryFacts(b: Board, e: Entry, dirs: seq<Direction>, visited: set<Cell>)
    ensures var (r, v) := ExpandEntry(b, e, dirs, visited);
      && Positions(r) == DirSet(b, e.pos, dirs) - visited
      && v == visited + Positions(r)
    decreases |dirs|
  {
    if dirs != [] {
      var n := Neighbour(e.pos, dirs[0]);
      DirSetCons(b, e.pos, dirs);
      NeighbourIsAdjacent(e.pos, dirs[0]);
      if Free(b, n) && n !in visited {
        ExpandEntryFacts(b, e, dirs[1..], visited + {n});
        var (rest, v) := ExpandEntry(b, e, dirs[1..], visited + {n});
        PositionsConcat([Entry(n, e.path + [n])], rest);
        assert Positions([Entry(n, e.path + [n])]) == {n};
      } else {
        ExpandEntryFacts(b, e, dirs[1..], visited);
      }
    }
  }

  lemma {:induction false} ExpandEntryParents(b: Board, e: Entry, dirs: seq<Direction>, visited: set<Cell>)
    ensures forall c :: c in ExpandEntry(b, e, dirs, visited).0 ==> ExtendsBy(b, e, c)
    decreases |dirs|
  {
    if dirs != [] {
      var n := Neighbour(e.pos, dirs[0]);
      NeighbourIsAdjacent(e.pos, dirs[0]);
      if Free(b, n) && n !in visited {
        ExpandEntryParents(b, e, dirs[1..], visited + {n});
        var rest := ExpandEntry(b, e, dirs[1..], visited + {n}).0;
        assert ExpandEntry(b, e, dirs, visited).0 == [Entry(n, e.path + [n])] + rest;
      } else {
        ExpandEntryParents(b, e, dirs[1..], visited);
      }
    }
  }

  /** `e` extends some entry of the level `q`. */
  ghost predicate ChildOf(b: Board, q: seq<Entry>, e: Entry)
  {
    exists j :: 0 <= j < |q| && ExtendsBy(b, q[j], e)
  }

  /** One level of the path search adds exactly what one level of the distance search adds. */
  lemma {:induction false} ExpandLevelFacts(b: Board, q: seq<Entry>, visited: set<Cell>)
    ensures var (r, v) := ExpandLevel(b, q, visited);
      && Positions(r) == Expand(b, Positions(q), visited)
      && v == visited + Positions(r)
    decreases |q|
  {
    if q == [] {
      assert Step(b, {}) == {};
    } else {
      var (a, v1) := ExpandEntry(b, q[0], BfsOrder, visited);
      ExpandEntryFacts(b, q[0], BfsOrder, visited);
      ExpandLevelFacts(b, q[1..], v1);
      var (rest, v2) := ExpandLevel(b, q[1..], v1);
      PositionsConcat(a, rest);
      StepSingle(b, q[0].pos);
      StepUnion(b, {q[0].pos}, Positions(q[1..]));
      assert Positions(q) == {q[0].pos} + Positions(q[1..]);
      var s0 := Step(b, {q[0].pos});
      var s1 := Step(b, Positions(q[1..]));
      assert Positions(a) == s0 - visited;
      assert Positions(rest) == s1 - (visited + Positions(a));
      assert Positions(a) + Positions(rest) == (s0 + s1) - visited;
    }
  }

  /** Every entry of the next level extends some entry of the current one. */
  lemma {:induction false} ExpandLevelParents(b: Board, q: seq<Entry>, visited: set<Cell>)
    ensures forall c :: c in ExpandLevel(b, q, visited).0 ==> ChildOf(b, q, c)
    decreases |q|
  {
    if q != [] {
      var (a, v1) := ExpandEntry(b, q[0], BfsOrder, visited);
      ExpandEntryParents(b, q[0], BfsOrder, visited);
      var tail := q[1..];
      ExpandLevelParents(b, tail, v1);
      var rest := ExpandLevel(b, tail, v1).0;
      assert ExpandLevel(b, q, visited).0 == a + rest;
      forall c | c in a + rest ensures ChildOf(b, q, c) {
        if c in a {
          assert ExtendsBy(b, q[0], c);
        } else {
          assert ChildOf(b, tail, c);
          var j :| 0 <= j < |tail| && ExtendsBy(b, tail[j], c);
          assert tail[j] == q[j + 1];
        }
      }
    }
  }

  /** The first entry of the level sitting on `goal` -- the first one the loop would pop. */
  function FirstAt(q: seq<Entry>, goal: Cell): (r: Option<nat>)
    ensures r.None? <==> goal !in Positions(q)
    ensures r.Some? ==> r.value < |q| && q[r.value].pos == goal
    ensures r.Some? ==> forall j :: 0 <= j < r.value ==> q[j].pos != goal
  {
    if q == [] then None
    else if q[0].pos == goal then Some(0)
    else match FirstAt(q[1..], goal)
      case None => None
      case Some(i) => Some(i + 1)
  }

  /** The queue loop, one level per call. */
  function PathSearch(b: Board, goal: Cell, q: seq<Entry>, visited: set<Cell>): Option<seq<Cell>>
    decreases |Universe(b.size) - visited|, |q|
  {
    if q == [] then None
    else match FirstAt(q, goal)
      case Some(i) => Some(q[i].path)
      case None =>
        var (next, v) := ExpandLevel(b, q, visited);
        ExpandLevelFacts(b, q, visited);
        ExpandShrinks(b, Positions(q), visited);
        PathSearch(b, goal, next, v)
  }

  /** Every entry of level `k` carries a walk of `k` steps from `start` to its cell. */
  ghost predicate LevelOk(b: Board, start: Cell, q: seq<Entry>, k: nat)
  {
    forall i :: 0 <= i < |q| ==> PathBetween(b, q[i].path, start, q[i].pos) && |q[i].path| == k + 1
  }

  lemma ExpandLevelOk(b: Board, start: Cell, q: seq<Entry>, visited: set<Cell>, k: nat)
    requires LevelOk(b, start, q, k)
    ensures LevelOk(b, start, ExpandLevel(b, q, visited).0, k + 1)
  {
    ExpandLevelParents(b, q, visited);
    var r := ExpandLevel(b, q, visited).0;
    forall i | 0 <= i < |r| ensures PathBetween(b, r[i].path, start, r[i].pos) && |r[i].path| == k + 2 {
      assert r[i] in r && ChildOf(b, q, r[i]);
      var j :| 0 <= j < |q| && ExtendsBy(b, q[j], r[i]);
      ExtendPath(b, q[j].path, r[i].pos);
    }
  }

  /** The path search succeeds exactly when the distance search does, at the same level. */
  lemma {:induction false} PathSearchAgrees(b: Board, start: Cell, goal: Cell, q: seq<Entry>, visited: set<Cell>, k: nat)
    requires LevelOk(b, start, q, k)
    ensures var r := PathSearch(b, goal, q, visited);
      var s := Search(b, goal, Positions(q), visited, k);
      && (r.Some? <==> s.Fin?)
      && (r.Some? ==> PathBetween(b, r.value, start, goal) && |r.value| - 1 == s.n)
    decreases |Universe(b.size) - visited|, |q|
  {
    if q != [] && FirstAt(q, goal).None? {
      var (next, v) := ExpandLevel(b, q, visited);
      ExpandLevelFacts(b, q, visited);
      ExpandShrinks(b, Positions(q), visited);
      ExpandLevelOk(b, start, q, visited, k);
      PathSearchAgrees(b, start, goal, next, v, k + 1);
    }
  }

  /**
   * `find_path_bfs(start, goal, env)`: a shortest walk when the goal is
   * reachable, the one-cell fallback `[start]` otherwise.
   */
  function FindPathBfs(b: Board, start: Cell, goal: Cell): (r: seq<Cell>)
    ensures ShortestPathLength(b, start, goal).Fin? ==>
      PathBetween(b, r, start, goal) && |r| - 1 == ShortestPathLength(b, start, goal).n
    ensures ShortestPathLength(b, start, goal).Inf? ==> r == [start]
  {
    var q := [Entry(start, [start])];
    assert LevelOk(b, start, q, 0);
    assert Positions(q) == {start};
    PathSearchAgrees(b, start, goal, q, {}, 0);
    match PathSearch(b, goal, q, {})
    case Some(p) => p
    case None => [start]
  }

  /** The returned walk is no longer than any other walk between the two cells. */
  lemma FindPathIsShortest(b: Board, start: Cell, goal: Cell, p: seq<Cell>)
    requires PathBetween(b, p, start, goal)
    ensures PathBetween(b, FindPathBfs(b, start, goal), start, goal)
    ensures |FindPathBfs(b, start, goal)| <= |p|
  {
    ShortestPathMinimal(b, start, goal, p);
  }

  /** The fallback is returned exactly when no walk exists (or the start is the goal). */
  lemma FallbackIffUnreachable(b: Board, start: Cell, goal: Cell)
    ensures FindPathBfs(b, start, goal) == [start] <==>
      (start == goal || forall p :: !PathBetween(b, p, start, goal))
  {
    UnreachableIffNoPath(b, start, goal);
    var r := FindPathBfs(b, start, goal);
    if ShortestPathLength(b, start, goal).Fin? && r == [start] {
      assert r[|r| - 1] == goal;
    }
  }
}

=== FILE: resolver.dfy ===
/**
 * `resolve_conflicts(rankings, active)`, identical in agents/agent_greedy.py,
 * agents/agent_rank_priority_bfs.py and utils/agent_ollama/agent.py.
 *
 * Every agent holds the entry of its ranking under its cursor (or nothing
 * once the cursor runs off the end). In each round the active agents are
 * grouped by the goal they hold, ignoring empty holdings, and in every group
 * of two or more all members but the lowest index advance their cursor once.
 * A member other than the lowest is exactly an agent that some lower active
 * agent shares its goal with, so a round is modelled that way.
 *
 * The main result: the procedure always stops, and what it returns is serial
 * dictatorship by agent index -- each active agent, lowest index first, takes
 * the first entry of its ranking that no lower active agent has taken.
 */
module Resolver {
  import opened Wrappers

  /** Python truthiness of a held goal: `None` and `""` are falsy. */
  predicate Truthy(g: Option<string>)
  {
    g.Some? && g.value != ""
  }

  /** The entry under cursor `p`, or `None` once the ranking is exhausted. */
  function Current(r: seq<string>, p: nat): Option<string>
  {
    if p < |r| then Some(r[p]) else None
  }

  /** Cursors, one per ranking, never past the end. */
  predicate Shaped(rs: seq<seq<string>>, active: seq<bool>, pos: seq<nat>)
  {
    |pos| == |rs| <= |active| && forall i :: 0 <= i < |rs| ==> pos[i] <= |rs[i]|
  }

  /** Some active agent below `i` currently holds `g`. */
  ghost predicate HeldBelow(rs: seq<seq<string>>, active: seq<bool>, pos: seq<nat>, i: nat, g: string)
    requires Shaped(rs, active, pos) && i <= |rs|
  {
    exists k :: 0 <= k < i && active[k] && Current(rs[k], pos[k]) == Some(g)
  }

  /** Agent `i` is a non-lowest member of a conflict group this round. */
  predicate Loses(rs: seq<seq<string>>, active: seq<bool>, pos: seq<nat>, i: nat)
    requires Shaped(rs, active, pos) && i < |rs|
  {
    active[i] && Truthy(Current(rs[i], pos[i]))
    && exists k :: 0 <= k < i && active[k] && Current(rs[k], pos[k]) == Current(rs[i], pos[i])
  }

  predicate HasConflict(rs: seq<seq<string>>, active: seq<bool>, pos: seq<nat>)
    requires Shaped(rs, active, pos)
  {
    exists i :: 0 <= i < |rs| && Loses(rs, active, pos, i)
  }

  /** One round: every loser advances its cursor by one. */
  function Round(rs: seq<seq<string>>, active: seq<bool>, pos: seq<nat>): (next: seq<nat>)
    requires Shaped(rs, active, pos)
    ensures Shaped(rs, active, next)
    ensures forall i :: 0 <= i < |rs| ==> next[i] == if Loses(rs, active, pos, i) then pos[i] + 1 else pos[i]
  {
    seq(|rs|, i requires 0 <= i < |rs| => if Loses(rs, active, pos, i) then pos[i] + 1 else pos[i])
  }

  /** What is left to skip: the termination measure of the `while True` loop. */
  function Slack(rs: seq<seq<string>>, pos: seq<nat>, from: nat): nat
    requires |pos| == |rs| && from <= |rs|
    requires forall i :: 0 <= i < |rs| ==> pos[i] <= |rs[i]|
    decreases |rs| - from
  {
    if from == |rs| then 0 else (|rs[from]| - pos[from]) + Slack(rs, pos, from + 1)
  }

  lemma {:induction false} SlackShrinks(rs: seq<seq<string>>, pos: seq<nat>, next: seq<nat>, from: nat)
    requires |pos| == |rs| == |next| && from <= |rs|
    requires forall i :: 0 <= i < |rs| ==> pos[i] <= next[i] <= |rs[i]|
    ensures Slack(rs, next, from) <= Slack(rs, pos, from)
    ensures (exists i :: from <= i < |rs| && pos[i] < next[i]) ==> Slack(rs, next, from) < Slack(rs, pos, from)
    decreases |rs| - from
  {
    if from < |rs| {
      SlackShrinks(rs, pos, next, from + 1);
    }
  }

  /** The holdings the cursors stand for: `chosen` / `final_goals` in the source. */
  function Assigned(rs: seq<seq<string>>, pos: seq<nat>): (a: seq<Option<string>>)
    requires |pos| == |rs|
    ensures |a| == |rs| && forall i :: 0 <= i < |rs| ==> a[i] == Current(rs[i], pos[i])
  {
    seq(|rs|, i requires 0 <= i < |rs| => Current(rs[i], pos[i]))
  }

  // ---------------------------------------------------------------------
  // The reference: serial dictatorship by agent index.

  /** The non-empty goals the active agents among `prior` have taken. */
  function Taken(active: seq<bool>, prior: seq<Option<string>>): set<string>
    requires |prior| <= |active|
  {
    set k | 0 <= k < |prior| && active[k] && Truthy(prior[k]) :: prior[k].value
  }

  /** The first position at or after `p` whose entry is empty or not taken. */
  function FirstFree(r: seq<string>, taken: set<string>, p: nat): (q: nat)
    requires p <= |r|
    ensures p <= q <= |r|
    ensures forall x :: p <= x < q ==> r[x] != "" && r[x] in taken
    ensures q < |r| ==> r[q] == "" || r[q] !in taken
    decreases |r| - p
  {
    if p == |r| then p
    else if r[p] == "" || r[p] !in taken then p
    else FirstFree(r, taken, p + 1)
  }

  /** Serial dictatorship over the first `n` agents. */
  function SerialDictatorship(rs: seq<seq<string>>, active: seq<bool>, n: nat): (sd: seq<Option<string>>)
    requires n <= |rs| <= |active|
    ensures |sd| == n
    decreases n
  {
    if n == 0 then []
    else
      var prior := SerialDictatorship(rs, active, n - 1);
      var i := n - 1;
      var pick := if active[i] then Current(rs[i], FirstFree(rs[i], Taken(active, prior), 0)) else Current(rs[i], 0);
      prior + [pick]
  }

  lemma {:induction false} SerialDictatorshipPrefix(rs: seq<seq<string>>, active: seq<bool>, m: nat, n: nat)
    requires m <= n <= |rs| <= |active|
    ensures SerialDictatorship(rs, active, m) == SerialDictatorship(rs, active, n)[..m]
    decreases n
  {
    if m < n {
      SerialDictatorshipPrefix(rs, active, m, n - 1);
    }
  }

  // ---------------------------------------------------------------------
  // The loop invariant and its preservation.

  /**
   * Every entry an active agent has skipped is non-empty and still held by a
   * lower active agent; inactive agents never move.
   */
  ghost predicate SkippedAreHeld(rs: seq<seq<string>>, active: seq<bool>, pos: seq<nat>)
    requires Shaped(rs, active, pos)
  {
    && (forall i :: 0 <= i < |rs| && !active[i] ==> pos[i] == 0)
    && (forall i, q :: 0 <= i < |rs| && active[i] && 0 <= q < pos[i] ==>
         rs[i][q] != "" && HeldBelow(rs, active, pos, i, rs[i][q]))
  }

  /** The lowest active holder of a goal held below `i`. */
  lemma {:induction false} LowestHolder(rs: seq<seq<string>>, active: seq<bool>, pos: seq<nat>, g: string, k: nat) returns (m: nat)
    requires Shaped(rs, active, pos) && k < |rs|
    requires active[k] && Current(rs[k], pos[k]) == Some(g)
    ensures m <= k && active[m] && Current(rs[m], pos[m]) == Some(g)
    ensures forall j :: 0 <= j < m ==> !(active[j] && Current(rs[j], pos[j]) == Some(g))
    decreases k
  {
    if exists j :: 0 <= j < k && active[j] && Current(rs[j], pos[j]) == Some(g) {
      var j :| 0 <= j < k && active[j] && Current(rs[j], pos[j]) == Some(g);
      m := LowestHolder(rs, active, pos, g, j);
    } else {
      m := k;
    }
  }

  /** A goal held below `i` is still held below `i` after a round. */
  lemma StaysHeld(rs: seq<seq<string>>, active: seq<bool>, pos: seq<nat>, i: nat, g: string)
    requires Shaped(rs, active, pos) && i <= |rs| && g != ""
    requires HeldBelow(rs, active, pos, i, g)
    ensures HeldBelow(rs, active, Round(rs, active, pos), i, g)
  {
    var k :| 0 <= k < i && active[k] && Current(rs[k], pos[k]) == Some(g);
    var m := LowestHolder(rs, active, pos, g, k);
    var next := Round(rs, active, pos);
    assert !Loses(rs, active, pos, m);
    assert next[m] == pos[m];
  }

  lemma RoundKeepsInvariant(rs: seq<seq<string>>, active: seq<bool>, pos: seq<nat>)
    requires Shaped(rs, active, pos) && SkippedAreHeld(rs, active, pos)
    ensures SkippedAreHeld(rs, active, Round(rs, active, pos))
  {
    var next := Round(rs, active, pos);
    forall i, q | 0 <= i < |rs| && active[i] && 0 <= q < next[i]
      ensures rs[i][q] != "" && HeldBelow(rs, active, next, i, rs[i][q])
    {
      if q < pos[i] {
        StaysHeld(rs, active, pos, i, rs[i][q]);
      } else {
        assert Loses(rs, active, pos, i) && q == pos[i];
        StaysHeld(rs, active, pos, i, rs[i][q]);
      }
    }
  }

  /** The goals the agents below `i` hold are exactly the goals held below `i`. */
  lemma TakenIsHeldBelow(rs: seq<seq<string>>, active: seq<bool>, pos: seq<nat>, i: nat, prior: seq<Option<string>>)
    requires Shaped(rs, active, pos) && i < |rs|
    requires prior == Assigned(rs, pos)[..i]
    ensures forall g :: g in Taken(active, prior) <==> g != "" && HeldBelow(rs, active, pos, i, g)
  {
    var a := Assigned(rs, pos);
    forall g ensures g in Taken(active, prior) <==> g != "" && HeldBelow(rs, active, pos, i, g) {
      if g in Taken(active, prior) {
        var k :| 0 <= k < i && active[k] && Truthy(prior[k]) && prior[k].value == g;
        assert prior[k] == a[k];
      }
      if g != "" && HeldBelow(rs, active, pos, i, g) {
        var k :| 0 <= k < i && active[k] && Current(rs[k], pos[k]) == Some(g);
        assert prior[k] == a[k];
      }
    }
  }

  /** With no conflict left, the invariant pins the holdings to serial dictatorship. */
  lemma {:induction false} SettledIsSerialDictatorship(rs: seq<seq<string>>, active: seq<bool>, pos: seq<nat>, n: nat)
    requires Shaped(rs, active, pos) && SkippedAreHeld(rs, active, pos)
    requires !HasConflict(rs, active, pos)
    requires n <= |rs|
    ensures Assigned(rs, pos)[..n] == SerialDictatorship(rs, active, n)
    decreases n
  {
    if n > 0 {
      SettledIsSerialDictatorship(rs, active, pos, n - 1);
      var a := Assigned(rs, pos);
      var prior := SerialDictatorship(rs, active, n - 1);
      var i := n - 1;
      assert a[..n] == a[..i] + [a[i]];
      if active[i] {
        var taken := Taken(active, prior);
        TakenIsHeldBelow(rs, active, pos, i, prior);
        assert !Loses(rs, active, pos, i);
        FirstFreeIs(rs[i], taken, 0, pos[i]);
      }
    }
  }

  lemma {:induction false} FirstFreeIs(r: seq<string>, taken: set<string>, s: nat, p: nat)
    requires s <= p <= |r|
    requires forall x :: s <= x < p ==> r[x] != "" && r[x] in taken
    requires p < |r| ==> r[p] == "" || r[p] !in taken
    ensures FirstFree(r, taken, s) == p
    decreases p - s
  {
    if s < p {
      FirstFreeIs(r, taken, s + 1, p);
    }
  }

  // ---------------------------------------------------------------------
  // The procedure.

  /**
   * `resolve_conflicts(rankings, active)`. The loop stops, no two active
   * agents end up holding the same non-empty goal, and the answer is serial
   * dictatorship by agent index.
   */
  method ResolveConflicts(rankings: seq<seq<string>>, active: seq<bool>) returns (chosen: seq<Option<string>>)
    requires |rankings| <= |active|
    ensures |chosen| == |rankings|
    ensures forall i, j :: 0 <= i < j < |chosen| && active[i] && active[j] && Truthy(chosen[i]) ==> chosen[i] != chosen[j]
    ensures chosen == SerialDictatorship(rankings, active, |rankings|)
  {
    var pos: seq<nat> := seq(|rankings|, i requires 0 <= i < |rankings| => 0);
    while HasConflict(rankings, active, pos)
      invariant Shaped(rankings, active, pos)
      invariant SkippedAreHeld(rankings, active, pos)
      decreases Slack(rankings, pos, 0)
    {
      var next := Round(rankings, active, pos);
      RoundKeepsInvariant(rankings, active, pos);
      var i :| 0 <= i < |rankings| && Loses(rankings, active, pos, i);
      SlackShrinks(rankings, pos, next, 0);
      pos := next;
    }
    chosen := Assigned(rankings, pos);
    SettledIsSerialDictatorship(rankings, active, pos, |rankings|);
    forall i, j | 0 <= i < j < |chosen| && active[i] && active[j] && Truthy(chosen[i])
      ensures chosen[i] != chosen[j]
    {
      assert !Loses(rankings, active, pos, j);
    }
  }

  /** The lowest active agent with a non-empty ranking always gets its first choice. */
  lemma LowestActiveGetsFirstChoice(rs: seq<seq<string>>, active: seq<bool>, i: nat)
    requires |rs| <= |active| && i < |rs| && active[i] && |rs[i]| > 0
    requires forall k :: 0 <= k < i ==> !active[k]
    ensures SerialDictatorship(rs, active, |rs|)[i] == Some(rs[i][0])
  {
    SerialDictatorshipPrefix(rs, active, i + 1, |rs|);
    var prior := SerialDictatorship(rs, active, i);
    assert Taken(active, prior) == {};
  }
}

=== FILE: runs.dfy ===
/**
 * The `run` functions of the five coordination loops: the loop
 * `while any(active) and step < max_steps` around one step, the `failed`
 * flag, and the optimum each run reports next to its step count.
 */
module Runs {
  import opened Wrappers
  import opened Grid
  import opened Bfs
  import opened Distances
  import opened Labels
  import opened Resolver
  import opened Parsing
  import opened Heuristic
  import opened Greedy
  import opened Collision
  import opened Engine
  import opened Assignment
  import Negotiation

  // ---------------------------------------------------------------------
  // The loops

  /** The loop guard `any(active) and step < max_steps` is false. */
  predicate Stopped(s: Sim, maxSteps: nat)
  {
    !AnyActive(s) || s.step >= maxSteps
  }

  /** Every agent has a cell, and no two share one. */
  predicate Placed(w: World)
  {
    && (forall k :: 0 <= k < |w.agents| ==> w.agents[k].Some?)
    && (forall a, c :: 0 <= a < c < |w.agents| ==> w.agents[a] != w.agents[c])
  }

  /** The loop variables before the first step: `active = [True] * num_agents`, `step = collisions = 0`. */
  function Start(w: World): (s: Sim)
    requires Placed(w)
    ensures WellFormed(s) && s.world == w && s.step == 0 && s.collisions == 0
    ensures forall k :: 0 <= k < |s.active| ==> s.active[k]
  {
    Sim(w, seq(|w.agents|, _ => true), 0, 0)
  }

  /** What a finished loop promises about its final state `r`, started from `s`. */
  predicate Finished(s: Sim, r: Sim, maxSteps: nat)
  {
    && WellFormed(r) && Stopped(r, maxSteps)
    && s.step <= r.step
    && (s.step <= maxSteps ==> r.step <= maxSteps)
    && (!Stopped(s, maxSteps) ==> s.step < r.step)
    && (Stopped(s, maxSteps) ==> r == s)
    && r.collisions >= s.collisions
    && r.world.board == s.world.board
    && |r.world.goals| == |s.world.goals|
    && |r.active| == |s.active|
    && (forall i :: 0 <= i < |s.active| && !s.active[i] ==> !r.active[i])
  }

  lemma FinishedAfterStep(s: Sim, t: Sim, r: Sim, maxSteps: nat)
    requires !Stopped(s, maxSteps) && WellFormed(t) && Stepped(s, t) && Finished(t, r, maxSteps)
    ensures Finished(s, r, maxSteps)
  {
  }

  /** The greedy loop of agents/agent_greedy.py. */
  function GreedyLoop(s: Sim, maxSteps: nat): (r: Sim)
    requires WellFormed(s) && |s.world.goals| <= LabelLimit
    ensures Finished(s, r, maxSteps)
    decreases maxSteps - s.step
  {
    if Stopped(s, maxSteps) then s
    else
      var t := GreedyStep(s);
      var r := GreedyLoop(t, maxSteps);
      FinishedAfterStep(s, t, r, maxSteps);
      r
  }

  /**
   * The rank-priority loop. The model's reply and its sampling draw for
   * agent `i` at step `t` are `replies(t, i)` and `picks(t, i)`; `previous`
   * holds the rankings of the step before (`[]` at the start).
   */
  function RankLoop(s: Sim, previous: seq<seq<string>>, replies: (nat, nat) -> Document, picks: (nat, nat) -> nat, maxSteps: nat): (r: Sim)
    requires WellFormed(s) && |s.world.goals| <= LabelLimit && |previous| == |s.active|
    ensures Finished(s, r, maxSteps)
    decreases maxSteps - s.step
  {
    if Stopped(s, maxSteps) then s
    else
      var n := |s.active|;
      var docs := seq(n, i requires 0 <= i < n => replies(s.step, i));
      var draws := seq(n, i requires 0 <= i < n => picks(s.step, i));
      RankPriorityRankingsFit(s, docs, draws, previous);
      var rs := RankPriorityRankings(s, docs, draws, previous);
      var t := RankPriorityStep(s, rs);
      var r := RankLoop(t, rs, replies, picks, maxSteps);
      FinishedAfterStep(s, t, r, maxSteps);
      r
  }

  /** Whether a label can be looked up depends only on how many goal slots there are. */
  lemma SelectableByLength(g: seq<Option<Cell>>, h: seq<Option<Cell>>, declared: Option<string>)
    requires |g| == |h| && Selectable(g, declared)
    ensures Selectable(h, declared)
  {
  }

  /** The ollama loop, with every agent's goal label fixed before the loop. */
  function OllamaLoop(s: Sim, fixed: seq<Option<string>>, maxSteps: nat): (r: Sim)
    requires WellFormed(s) && |fixed| == |s.active|
    requires forall i :: 0 <= i < |fixed| ==> Selectable(s.world.goals, fixed[i])
    ensures Finished(s, r, maxSteps)
    decreases maxSteps - s.step
  {
    if Stopped(s, maxSteps) then s
    else
      var t := OllamaStep(s, fixed);
      forall i | 0 <= i < |fixed|
        ensures Selectable(t.world.goals, fixed[i])
      {
        SelectableByLength(s.world.goals, t.world.goals, fixed[i]);
      }
      var r := OllamaLoop(t, fixed, maxSteps);
      FinishedAfterStep(s, t, r, maxSteps);
      r
  }

  /**
   * The top-two loop. At step `t`, `replies(t, i)` is agent `i`'s ranking
   * reply, `talk(t, u, k)` is reply `k` of the negotiation over conflict `u`,
   * and `picks(t, i)` is agent `i`'s direction choice; `previous` holds the
   * rankings of the step before (`[]` at the start), kept for agents that do
   * not rank. `None` is an exception from the negotiation phase.
   */
  function TopTwoLoop(s: Sim, previous: seq<seq<string>>, replies: (nat, nat) -> Document,
                      talk: (nat, nat, nat) -> Negotiation.Response, picks: (nat, nat) -> nat, maxSteps: nat): (r: Option<Sim>)
    requires WellFormed(s) && |previous| == |s.active|
    ensures r.Some? ==> Finished(s, r.value, maxSteps)
    ensures Stopped(s, maxSteps) ==> r == Some(s)
    decreases maxSteps - s.step
  {
    if Stopped(s, maxSteps) then Some(s)
    else
      var n := |s.active|;
      var rs := TopTwoRankings(s, previous, replies);
      match TopTwoStep(s, rs, TalkAt(talk, s.step), PicksAt(picks, s.step, n))
      case None => None
      case Some(t) =>
        var r := TopTwoLoop(t, rs, replies, talk, picks, maxSteps);
        assert r.Some? ==> Finished(s, r.value, maxSteps) by {
          if r.Some? { FinishedAfterStep(s, t, r.value, maxSteps); }
        }
        r
  }

  /** The negotiation replies of step `t`. */
  function TalkAt(talk: (nat, nat, nat) -> Negotiation.Response, t: nat): (nat, nat) -> Negotiation.Response
  {
    (u: nat, k: nat) => talk(t, u, k)
  }

  /** The direction choices of step `t`, one per agent. */
  function PicksAt(picks: (nat, nat) -> nat, t: nat, n: nat): (ps: seq<nat>)
    ensures |ps| == n
  {
    seq(n, i requires 0 <= i < n => picks(t, i))
  }

  /** Phase 1: every active agent ranks the goals afresh; the others keep their last ranking. */
  function TopTwoRankings(s: Sim, previous: seq<seq<string>>, replies: (nat, nat) -> Document): (rs: seq<seq<string>>)
    requires |previous| == |s.active|
    ensures |rs| == |s.active|
    ensures forall i :: 0 <= i < |rs| && !s.active[i] ==> rs[i] == previous[i]
    ensures forall i, k :: 0 <= i < |rs| && s.active[i] && 0 <= k < |rs[i]| ==> IsNormal(rs[i][k])
  {
    var rs := seq(|s.active|, i requires 0 <= i < |s.active| => if s.active[i] then ParseRanking(replies(s.step, i)) else previous[i]);
    assert forall i, k :: 0 <= i < |rs| && s.active[i] && 0 <= k < |rs[i]| ==> IsNormal(rs[i][k]) by {
      forall i, k | 0 <= i < |rs| && s.active[i] && 0 <= k < |rs[i]|
        ensures IsNormal(rs[i][k])
      {
        assert rs[i] == ParseRanking(replies(s.step, i));
      }
    }
    rs
  }

  /**
   * An active agent whose reply lists normal labels ranks exactly those
   * labels; one whose reply cannot be decoded ranks nothing.
   */
  lemma TopTwoRankingOfReply(s: Sim, previous: seq<seq<string>>, replies: (nat, nat) -> Document, i: nat, labels: seq<string>)
    requires |previous| == |s.active| && i < |s.active| && s.active[i]
    requires forall k :: 0 <= k < |labels| ==> IsNormal(labels[k])
    ensures replies(s.step, i) == RankingReply(labels) ==> TopTwoRankings(s, previous, replies)[i] == labels
    ensures replies(s.step, i) == Undecodable ==> TopTwoRankings(s, previous, replies)[i] == []
  {
    ParseRankingRoundTrip(labels);
  }

  /** A lone agent never negotiates, so its run never raises. */
  lemma {:induction false} LoneTopTwoCompletes(s: Sim, previous: seq<seq<string>>, replies: (nat, nat) -> Document,
                                               talk: (nat, nat, nat) -> Negotiation.Response, picks: (nat, nat) -> nat, maxSteps: nat)
    requires WellFormed(s) && |previous| == |s.active| && |s.active| <= 1
    ensures TopTwoLoop(s, previous, replies, talk, picks, maxSteps).Some?
    decreases maxSteps - s.step
  {
    if !Stopped(s, maxSteps) {
      var n := |s.active|;
      var rs := TopTwoRankings(s, previous, replies);
      Negotiation.AtMostOneAgentNoConflict(Negotiation.Tops(rs), s.active);
      var t := TopTwoStep(s, rs, TalkAt(talk, s.step), PicksAt(picks, s.step, n)).value;
      LoneTopTwoCompletes(t, rs, replies, talk, picks, maxSteps);
    }
  }

  /** The yes/no loop with assigned goals. */
  function YesNoLoop(s: Sim, picks: (nat, nat) -> nat, maxSteps: nat): (r: Sim)
    requires WellFormed(s) && |s.world.agents| <= |s.world.goals|
    ensures Finished(s, r, maxSteps)
    decreases maxSteps - s.step
  {
    if Stopped(s, maxSteps) then s
    else
      var t := YesNoStep(s, seq(|s.active|, i requires 0 <= i < |s.active| => picks(s.step, i)));
      var r := YesNoLoop(t, picks, maxSteps);
      FinishedAfterStep(s, t, r, maxSteps);
      r
  }

  // ---------------------------------------------------------------------
  // The report and the `failed` flag

  /** `step, failed, collisions` of the returned tuple (the optimum is separate). */
  datatype Report = Report(steps: nat, failed: bool, collisions: nat)

  /** `failed = step >= max_steps`, as every loop computes it. */
  predicate FailedAsWritten(r: Sim, maxSteps: nat)
  {
    r.step >= maxSteps
  }

  /** The evidently intended flag: some agent never reached a goal. */
  predicate FailedIntended(r: Sim)
  {
    AnyActive(r)
  }

  /**
   * On a stopped loop the two flags agree except in one case: the last agent
   * retires on the very last allowed step, which the written flag reports as
   * a failure.
   */
  lemma FailedFlagsDiffer(r: Sim, maxSteps: nat)
    requires Stopped(r, maxSteps) && r.step <= maxSteps
    ensures FailedIntended(r) ==> FailedAsWritten(r, maxSteps)
    ensures FailedAsWritten(r, maxSteps) != FailedIntended(r) <==> !AnyActive(r) && r.step == maxSteps
  {
  }

  /** The report of a finished run. */
  function ReportOf(r: Sim, maxSteps: nat): (rep: Report)
    requires Stopped(r, maxSteps) && r.step <= maxSteps
    ensures rep.steps == r.step && rep.collisions == r.collisions
    ensures rep.failed <==> rep.steps == maxSteps
    ensures !rep.failed ==> !AnyActive(r)
  {
    Report(r.step, FailedAsWritten(r, maxSteps), r.collisions)
  }

  /** `run()` of agents/agent_greedy.py from a placed world. */
  function GreedyRun(w: World, maxSteps: nat): (rep: Report)
    requires Placed(w) && |w.goals| <= LabelLimit
    ensures rep.steps <= maxSteps && (rep.failed <==> rep.steps == maxSteps)
    ensures !rep.failed ==> !AnyActive(GreedyLoop(Start(w), maxSteps))
  {
    ReportOf(GreedyLoop(Start(w), maxSteps), maxSteps)
  }

  /** `run()` of agents/agent_rank_priority_bfs.py. */
  function RankRun(w: World, replies: (nat, nat) -> Document, picks: (nat, nat) -> nat, maxSteps: nat): (rep: Report)
    requires Placed(w) && |w.goals| <= LabelLimit
    ensures rep.steps <= maxSteps && (rep.failed <==> rep.steps == maxSteps)
  {
    ReportOf(RankLoop(Start(w), seq(|w.agents|, _ => []), replies, picks, maxSteps), maxSteps)
  }

  /** `run()` of utils/agent_ollama/agent.py once the goals are fixed. */
  function OllamaRun(w: World, fixed: seq<Option<string>>, maxSteps: nat): (rep: Report)
    requires Placed(w) && |fixed| == |w.agents|
    requires forall i :: 0 <= i < |fixed| ==> Selectable(w.goals, fixed[i])
    ensures rep.steps <= maxSteps && (rep.failed <==> rep.steps == maxSteps)
  {
    ReportOf(OllamaLoop(Start(w), fixed, maxSteps), maxSteps)
  }

  /** `run()` of agents/agent_rank_top2.py; `None` is a run that ends with an exception. */
  function TopTwoRun(w: World, replies: (nat, nat) -> Document, talk: (nat, nat, nat) -> Negotiation.Response,
                     picks: (nat, nat) -> nat, maxSteps: nat): (rep: Option<Report>)
    requires Placed(w)
    ensures rep.Some? ==> rep.value.steps <= maxSteps && (rep.value.failed <==> rep.value.steps == maxSteps)
    ensures |w.agents| <= 1 ==> rep.Some?
  {
    var s := Start(w);
    var previous := seq(|w.agents|, _ => []);
    assert |w.agents| <= 1 ==> TopTwoLoop(s, previous, replies, talk, picks, maxSteps).Some? by {
      if |w.agents| <= 1 { LoneTopTwoCompletes(s, previous, replies, talk, picks, maxSteps); }
    }
    match TopTwoLoop(s, previous, replies, talk, picks, maxSteps)
    case None => None
    case Some(r) => Some(ReportOf(r, maxSteps))
  }

  /**
   * `run()` of agents/agent_multi_yesno.py. `None` is an exception:
   * `goal_positions[i]` raises `IndexError` before the loop when there are
   * more agents than goal slots, and `max(optimal_lengths)` raises
   * `ValueError` after it when there is no agent.
   */
  function YesNoRun(w: World, picks: (nat, nat) -> nat, maxSteps: nat): (rep: Option<Report>)
    requires Placed(w)
    ensures rep.None? <==> |w.agents| == 0 || |w.agents| > |w.goals|
    ensures rep.Some? ==> rep.value.steps <= maxSteps && (rep.value.failed <==> rep.value.steps == maxSteps)
  {
    if |w.agents| > |w.goals| || |w.agents| == 0 then None
    else Some(ReportOf(YesNoLoop(Start(w), picks, maxSteps), maxSteps))
  }

  // ---------------------------------------------------------------------
  // The optimum next to the step count

  /** Python's `+` on step counts, with `inf` absorbing. */
  function Plus(a: Distance, c: Distance): Distance
  {
    if a.Fin? && c.Fin? then Fin(a.n + c.n) else Inf
  }

  /** `[shortest_path_length(start, g, env) for g in env.goals if g is not None]`. */
  function LiveDistances(b: Board, start: Cell, goals: seq<Option<Cell>>): (ds: seq<Distance>)
    ensures |ds| == 0 <==> forall j :: 0 <= j < |goals| ==> goals[j].None?
    ensures forall j :: 0 <= j < |goals| && goals[j].Some? ==> ShortestPathLength(b, start, goals[j].value) in ds
    ensures forall k :: 0 <= k < |ds| ==>
      exists j :: 0 <= j < |goals| && goals[j].Some? && ds[k] == ShortestPathLength(b, start, goals[j].value)
    decreases |goals|
  {
    if |goals| == 0 then []
    else
      var rest := LiveDistances(b, start, goals[1..]);
      assert forall j :: 1 <= j < |goals| ==> goals[j] == goals[1..][j - 1];
      if goals[0].Some? then [ShortestPathLength(b, start, goals[0].value)] + rest else rest
  }

  /** Python's `min` over a non-empty list of step counts. */
  function MinOf(ds: seq<Distance>): (r: Distance)
    requires |ds| > 0
    ensures r in ds && forall k :: 0 <= k < |ds| ==> !Below(ds[k], r)
  {
    if |ds| == 1 then ds[0]
    else
      var m := MinOf(ds[..|ds| - 1]);
      if Below(ds[|ds| - 1], m) then ds[|ds| - 1] else m
  }

  /**
   * `min([... for g in env.goals if g is not None], default=0)`: the distance
   * to a nearest goal still on the board, `0` when none is left.
   */
  function Nearest(b: Board, start: Cell, goals: seq<Option<Cell>>): (r: Distance)
    ensures (forall j :: 0 <= j < |goals| ==> goals[j].None?) ==> r == Fin(0)
    ensures (exists j :: 0 <= j < |goals| && goals[j].Some?) ==>
      (exists j :: 0 <= j < |goals| && goals[j].Some? && r == ShortestPathLength(b, start, goals[j].value))
    ensures forall j :: 0 <= j < |goals| && goals[j].Some? ==> !Below(ShortestPathLength(b, start, goals[j].value), r)
  {
    var ds := LiveDistances(b, start, goals);
    if |ds| == 0 then Fin(0)
    else
      var r := MinOf(ds);
      var k :| 0 <= k < |ds| && ds[k] == r;
      r
  }

  /** Python's `sum` over step counts, added left to right. */
  function SumOf(ds: seq<Distance>): (r: Distance)
    ensures r.Fin? <==> forall k :: 0 <= k < |ds| ==> ds[k].Fin?
    ensures forall k :: 0 <= k < |ds| ==> !Below(r, ds[k])
  {
    if |ds| == 0 then Fin(0)
    else
      var prefix := ds[..|ds| - 1];
      assert forall k :: 0 <= k < |ds| - 1 ==> ds[k] == prefix[k];
      Plus(SumOf(prefix), ds[|ds| - 1])
  }

  lemma PlusAssociates(a: Distance, c: Distance, e: Distance)
    ensures Plus(Plus(a, c), e) == Plus(a, Plus(c, e))
  {
  }

  /** Summing a concatenation sums the two sums. */
  lemma {:induction false} SumOfAppend(d1: seq<Distance>, d2: seq<Distance>)
    ensures SumOf(d1 + d2) == Plus(SumOf(d1), SumOf(d2))
    decreases |d2|
  {
    if |d2| == 0 {
      assert d1 + d2 == d1;
    } else {
      var d2p := d2[..|d2| - 1];
      assert (d1 + d2)[..|d1 + d2| - 1] == d1 + d2p;
      SumOfAppend(d1, d2p);
      PlusAssociates(SumOf(d1), SumOf(d2p), d2[|d2| - 1]);
    }
  }

  /** Each agent's term of `total_opt`; an agent without a cell is skipped, which adds nothing. */
  function NearestTerms(b: Board, starts: seq<Option<Cell>>, goals: seq<Option<Cell>>): (ds: seq<Distance>)
    ensures |ds| == |starts|
    ensures forall k :: 0 <= k < |starts| ==> ds[k] == if starts[k].Some? then Nearest(b, starts[k].value, goals) else Fin(0)
  {
    seq(|starts|, k requires 0 <= k < |starts| => if starts[k].Some? then Nearest(b, starts[k].value, goals) else Fin(0))
  }

  /**
   * `total_opt`: the sum over the agents that have a cell of the distance to
   * their nearest goal.
   */
  function TotalOpt(b: Board, starts: seq<Option<Cell>>, goals: seq<Option<Cell>>): (r: Distance)
    ensures r.Fin? <==> forall k :: 0 <= k < |starts| && starts[k].Some? ==> Nearest(b, starts[k].value, goals).Fin?
    ensures forall k :: 0 <= k < |starts| && starts[k].Some? ==> !Below(r, Nearest(b, starts[k].value, goals))
  {
    var ds := NearestTerms(b, starts, goals);
    assert forall k :: 0 <= k < |starts| && starts[k].Some? ==> ds[k] == Nearest(b, starts[k].value, goals);
    SumOf(ds)
  }

  /** `total_opt` is additive: splitting the agents splits the sum. */
  lemma TotalOptAppend(b: Board, s1: seq<Option<Cell>>, s2: seq<Option<Cell>>, goals: seq<Option<Cell>>)
    ensures TotalOpt(b, s1 + s2, goals) == Plus(TotalOpt(b, s1, goals), TotalOpt(b, s2, goals))
  {
    var d1 := NearestTerms(b, s1, goals);
    var d2 := NearestTerms(b, s2, goals);
    var d := NearestTerms(b, s1 + s2, goals);
    forall k | 0 <= k < |d|
      ensures d[k] == (d1 + d2)[k]
    {
      if k < |s1| {
        assert (s1 + s2)[k] == s1[k];
      } else {
        assert (s1 + s2)[k] == s2[k - |s1|];
      }
    }
    assert d == d1 + d2;
    SumOfAppend(d1, d2);
  }

  /** One agent contributes its nearest-goal distance, a slot without a cell nothing. */
  lemma TotalOptOfOne(b: Board, x: Option<Cell>, goals: seq<Option<Cell>>)
    ensures TotalOpt(b, [x], goals) == if x.Some? then Nearest(b, x.value, goals) else Fin(0)
  {
    var ds := NearestTerms(b, [x], goals);
    assert ds[..0] == [];
    assert SumOf(ds) == Plus(SumOf([]), ds[0]);
  }

  /** `optimal_lengths`: each agent's distance from its start to its own goal. */
  function OwnDistances(b: Board, starts: seq<Option<Cell>>, goals: seq<Option<Cell>>): (ds: seq<Distance>)
    requires |starts| <= |goals|
    requires forall i :: 0 <= i < |starts| ==> starts[i].Some? || goals[i].None?
    ensures |ds| == |starts|
    ensures forall i :: 0 <= i < |starts| ==> ds[i] == DistanceOpt(b, starts[i], goals[i])
  {
    seq(|starts|, i requires 0 <= i < |starts| => DistanceOpt(b, starts[i], goals[i]))
  }

  /**
   * `max(optimal_lengths)` of the yes/no loop: the longest of the agents'
   * distances to their own assigned goals. `max([])` raises, so there is at
   * least one agent, and a slot without a cell may only face an empty goal.
   */
  function MaxOwn(b: Board, starts: seq<Option<Cell>>, goals: seq<Option<Cell>>): (r: Distance)
    requires 0 < |starts| <= |goals|
    requires forall i :: 0 <= i < |starts| ==> starts[i].Some? || goals[i].None?
    ensures exists i :: 0 <= i < |starts| && r == DistanceOpt(b, starts[i], goals[i])
    ensures forall i :: 0 <= i < |starts| ==> AtMost(DistanceOpt(b, starts[i], goals[i]), r)
  {
    var ds := OwnDistances(b, starts, goals);
    var r := MaxOf(ds);
    var i :| 0 <= i < |ds| && ds[i] == r;
    r
  }

  // ---------------------------------------------------------------------
  // A lone greedy agent walks a shortest path

  /** The distance is zero only from the goal itself. */
  lemma ZeroOnlyAtGoal(b: Board, a: Cell, c: Cell)
    requires ShortestPathLength(b, a, c) == Fin(0)
    ensures a == c
  {
    assert Reached(b, a, c, 0);
  }

  /** The nearest goal still on the board is `n` steps from `pos`. */
  ghost predicate NearestIs(w: World, pos: Cell, n: nat)
  {
    && (exists j :: 0 <= j < |w.goals| && w.goals[j].Some? && ShortestPathLength(w.board, pos, w.goals[j].value) == Fin(n))
    && (forall j :: 0 <= j < |w.goals| && w.goals[j].Some? ==> !Below(ShortestPathLength(w.board, pos, w.goals[j].value), Fin(n)))
  }

  lemma NearestIsFromNearest(w: World, pos: Cell, n: nat)
    requires Nearest(w.board, pos, w.goals) == Fin(n) && n >= 1
    ensures NearestIs(w, pos, n)
  {
  }

  /** The single agent slot, still active. */
  predicate Lone(s: Sim)
  {
    WellFormed(s) && |s.active| == 1 && s.active[0]
  }

  /** A lone agent's greedy ranking starts with the label of a nearest goal slot. */
  lemma LoneRankingTop(w: World) returns (top: nat)
    requires |w.agents| == 1 && w.agents[0].Some? && 0 < |w.goals| <= LabelLimit
    ensures top < |w.goals|
    ensures |ComputeGreedyRankingsLive(w)[0]| > 0 && ComputeGreedyRankingsLive(w)[0][0] == Label(top)
    ensures forall j :: 0 <= j < |w.goals| ==> !Below(DistanceRow(w, 0)[j], DistanceRow(w, 0)[top])
  {
    var row := DistanceRow(w, 0);
    var p := RankGoals(row);
    assert ComputeGreedyRankingsLive(w)[0] == LabelsOf(p);
    top := p[0];
    LabelRoundTrip(top);
    GreedyTopIsNearest(w, 0);
    forall j | 0 <= j < |w.goals|
      ensures !Below(row[j], row[top])
    {
      if j != top {
        assert KeyLess(row, top, j);
      }
    }
  }

  /** `select_direction_opt` reads a label below 'a' back as the slot it names. */
  lemma LowLabelTarget(goals: seq<Option<Cell>>, top: nat)
    requires top < |goals| && top < 32
    ensures Selectable(goals, Some(Label(top)))
    ensures Target(goals, Some(Label(top))) == goals[top]
  {
    assert Upper(Label(top)) == Label(top);
    LabelRoundTrip(top);
  }

  /** Alone on the board, every free neighbour is a valid move. */
  lemma LoneNeighboursValid(w: World, pos: Cell)
    requires w.agents == [Some(pos)]
    ensures forall d :: Free(w.board, Neighbour(pos, d)) ==> IsValid(w, Neighbour(pos, d))
  {
    forall d | Free(w.board, Neighbour(pos, d))
      ensures IsValid(w, Neighbour(pos, d))
    {
      NeighbourIsAdjacent(pos, d);
    }
  }

  /** A lone active agent declares the label of the slot its ranking puts first. */
  lemma LoneDeclares(w: World, active: seq<bool>) returns (top: nat)
    requires |w.agents| == 1 && w.agents[0].Some? && active == [true] && 0 < |w.goals| <= LabelLimit
    ensures top < |w.goals|
    ensures forall j :: 0 <= j < |w.goals| ==> !Below(DistanceRow(w, 0)[j], DistanceRow(w, 0)[top])
    ensures var rs := ComputeGreedyRankingsLive(w);
      SerialDictatorship(rs, active, |rs|) == [Some(Label(top))]
  {
    var rs := ComputeGreedyRankingsLive(w);
    top := LoneRankingTop(w);
    LowestActiveGetsFirstChoice(rs, active, 0);
  }

  /** The slot a lone agent ranks first holds a goal at the nearest distance. */
  lemma LoneTarget(w: World, n: nat, top: nat)
    requires |w.agents| == 1 && w.agents[0].Some? && top < |w.goals|
    requires NearestIs(w, w.agents[0].value, n)
    requires forall j :: 0 <= j < |w.goals| ==> !Below(DistanceRow(w, 0)[j], DistanceRow(w, 0)[top])
    ensures w.goals[top].Some? && ShortestPathLength(w.board, w.agents[0].value, w.goals[top].value) == Fin(n)
  {
    var pos := w.agents[0].value;
    var row := DistanceRow(w, 0);
    var j0 :| 0 <= j0 < |w.goals| && w.goals[j0].Some? && ShortestPathLength(w.board, pos, w.goals[j0].value) == Fin(n);
    assert row[j0] == Fin(n);
    assert !Below(row[j0], row[top]);
  }

  /** Heading for a goal `n >= 1` steps away, a lone agent moves one step closer. */
  lemma LoneMoves(w: World, declared: Option<string>, t: Cell, n: nat)
    requires |w.agents| == 1 && w.agents[0].Some?
    requires Selectable(w.goals, declared) && Target(w.goals, declared) == Some(t)
    requires ShortestPathLength(w.board, w.agents[0].value, t) == Fin(n) && n >= 1
    ensures var nb := HeuristicMove(w, w.agents[0].value, declared);
      IsValid(w, nb) && Adjacent(w.agents[0].value, nb) && ShortestPathLength(w.board, nb, t) == Fin(n - 1)
  {
    var pos := w.agents[0].value;
    assert w.agents == [Some(pos)];
    LoneNeighboursValid(w, pos);
    HeuristicMakesProgress(w, pos, declared);
    NeighbourIsAdjacent(pos, SelectDirectionOpt(w, pos, declared).value);
  }

  /** A lone active agent's proposal is its heuristic move. */
  lemma LoneProposals(w: World, declared: seq<Option<string>>)
    requires |w.agents| == 1 && w.agents[0].Some? && |declared| == 1 && Selectable(w.goals, declared[0])
    ensures HeuristicProposals(w, [true], declared) == [Some(HeuristicMove(w, w.agents[0].value, declared[0]))]
  {
  }

  /**
   * A lone agent declares a nearest goal `t` and proposes the neighbour `nb`
   * one step closer to it.
   */
  lemma LoneProposal(s: Sim, n: nat) returns (t: Cell, nb: Cell)
    requires Lone(s) && |s.world.goals| <= 32
    requires NearestIs(s.world, s.world.agents[0].value, n) && n >= 1
    ensures Some(t) in s.world.goals
    ensures IsValid(s.world, nb) && Adjacent(s.world.agents[0].value, nb)
    ensures ShortestPathLength(s.world.board, nb, t) == Fin(n - 1)
    ensures HeuristicProposals(s.world, s.active, GreedyDeclared(s)) == [Some(nb)]
  {
    var w := s.world;
    assert s.active == [true];
    var top := LoneDeclares(w, s.active);
    LoneTarget(w, n, top);
    t := w.goals[top].value;
    LowLabelTarget(w.goals, top);
    var declared := [Some(Label(top))];
    LoneMoves(w, declared[0], t, n);
    nb := HeuristicMove(w, w.agents[0].value, declared[0]);
    LoneProposals(w, declared);
  }

  /** Alone, a valid proposal is committed as it is, with no collision. */
  lemma LoneCommit(s: Sim, nb: Cell)
    requires Lone(s) && IsValid(s.world, nb) && Adjacent(s.world.agents[0].value, nb)
    ensures var m := Advance(s, [Some(nb)], s.active, false);
      WellFormed(m) && m.world.agents == [Some(nb)] && m.collisions == s.collisions
  {
    var props := [Some(nb)];
    ProposalsAreOrderly(s, props);
    AdvanceKeepsWellFormed(s, props, false);
    var m := Advance(s, props, s.active, false);
    var res := Reservation(s.world.agents, props, s.active, 1);
    assert res[..0] == [];
    assert !Blocked(props, s.active, [], 0);
    assert m.world.agents == [Some(nb)];
    assert Reverted(props, m.world.agents) == {};
  }

  /** A greedy step is the commit of the heuristic proposals followed by claiming. */
  lemma GreedyStepUnfolds(s: Sim, props: seq<Option<Cell>>)
    requires WellFormed(s) && |s.world.goals| <= LabelLimit
    requires HeuristicProposals(s.world, s.active, GreedyDeclared(s)) == props
    ensures |props| == |s.world.agents|
    ensures WellFormed(Advance(s, props, s.active, false))
    ensures GreedyStep(s) == ClaimAny(Advance(s, props, s.active, false)).(step := s.step + 1)
  {
    ProposalsAreOrderly(s, props);
    AdvanceKeepsWellFormed(s, props, false);
  }

  /** Committed onto the goal it was heading for, the lone agent retires. */
  lemma LoneArrives(m: Sim, t: Cell)
    requires Lone(m) && m.world.agents == [Some(t)] && Some(t) in m.world.goals
    ensures !ClaimAny(m).active[0]
  {
    assert Claims(m, 0);
  }

  /**
   * One step from a cell whose goals are all at least `n > 1` away, every
   * goal is still at least `n - 1` away, so none is underfoot.
   */
  lemma StillAway(b: Board, pos: Cell, nb: Cell, goals: seq<Option<Cell>>, n: nat)
    requires Adjacent(pos, nb) && Free(b, nb) && n > 1
    requires forall j :: 0 <= j < |goals| && goals[j].Some? ==> !Below(ShortestPathLength(b, pos, goals[j].value), Fin(n))
    ensures forall j :: 0 <= j < |goals| && goals[j].Some? ==> !Below(ShortestPathLength(b, nb, goals[j].value), Fin(n - 1))
    ensures Some(nb) !in goals
  {
    forall j | 0 <= j < |goals| && goals[j].Some?
      ensures !Below(ShortestPathLength(b, nb, goals[j].value), Fin(n - 1))
    {
      if ShortestPathLength(b, nb, goals[j].value).Fin? {
        StepBound(b, pos, nb, goals[j].value);
      }
    }
    assert ShortestPathLength(b, nb, nb) == Fin(0);
  }

  /** When the lone agent stands on no goal, claiming changes nothing. */
  lemma LoneClaimsNothing(m: Sim)
    requires Lone(m) && m.world.agents[0] !in m.world.goals
    ensures ClaimAny(m) == m
  {
    assert !Claims(m, 0);
    var c := ClaimAny(m);
    assert c.world.goals == m.world.goals;
    assert c.world.agents == m.world.agents;
    assert c.active == m.active;
  }

  /**
   * Committed one step closer to a goal `n - 1 >= 1` steps away when every
   * goal was at least `n` away, the lone agent stays active and its nearest
   * goal is now `n - 1` away.
   */
  lemma LoneApproaches(s: Sim, m: Sim, nb: Cell, t: Cell, n: nat)
    requires Lone(s) && Lone(m) && m.world == s.world.(agents := [Some(nb)])
    requires NearestIs(s.world, s.world.agents[0].value, n) && n > 1
    requires Some(t) in s.world.goals && ShortestPathLength(s.world.board, nb, t) == Fin(n - 1)
    requires Adjacent(s.world.agents[0].value, nb) && Free(s.world.board, nb)
    ensures var c := ClaimAny(m);
      c.active[0] && c.world.agents[0] == Some(nb) && NearestIs(c.world, nb, n - 1)
  {
    StillAway(s.world.board, s.world.agents[0].value, nb, s.world.goals, n);
    LoneClaimsNothing(m);
    var k :| 0 <= k < |s.world.goals| && s.world.goals[k] == Some(t);
  }

  /** One step from its nearest goal, the lone agent retires in the next step. */
  lemma LoneGreedyStepArrives(s: Sim)
    requires Lone(s) && |s.world.goals| <= 32
    requires NearestIs(s.world, s.world.agents[0].value, 1)
    ensures var t := GreedyStep(s); t.collisions == s.collisions && !t.active[0]
  {
    var t, nb := LoneProposal(s, 1);
    GreedyStepUnfolds(s, [Some(nb)]);
    LoneCommit(s, nb);
    var m := Advance(s, [Some(nb)], s.active, false);
    ZeroOnlyAtGoal(s.world.board, nb, t);
    LoneArrives(m, t);
  }

  /** Further away, the lone agent's step brings it one step closer to its nearest goal. */
  lemma LoneGreedyStepCloser(s: Sim, n: nat)
    requires Lone(s) && |s.world.goals| <= 32
    requires NearestIs(s.world, s.world.agents[0].value, n) && n > 1
    ensures var t := GreedyStep(s);
      && t.collisions == s.collisions
      && |t.world.goals| == |s.world.goals|
      && t.active[0] && NearestIs(t.world, t.world.agents[0].value, n - 1)
  {
    var t, nb := LoneProposal(s, n);
    GreedyStepUnfolds(s, [Some(nb)]);
    LoneCommit(s, nb);
    var m := Advance(s, [Some(nb)], s.active, false);
    LoneApproaches(s, m, nb, t, n);
  }

  lemma GreedyLoopUnfolds(s: Sim, maxSteps: nat)
    requires WellFormed(s) && |s.world.goals| <= LabelLimit && !Stopped(s, maxSteps)
    ensures GreedyLoop(s, maxSteps) == GreedyLoop(GreedyStep(s), maxSteps)
  {
  }

  lemma GreedyLoopStops(s: Sim, maxSteps: nat)
    requires WellFormed(s) && |s.world.goals| <= LabelLimit && Stopped(s, maxSteps)
    ensures GreedyLoop(s, maxSteps) == s
  {
  }

  /** A lone agent `n >= 1` steps from its nearest goal, with `n` steps of budget left. */
  ghost predicate LoneAt(s: Sim, n: nat, maxSteps: nat)
  {
    && Lone(s) && |s.world.goals| <= 32
    && NearestIs(s.world, s.world.agents[0].value, n) && n >= 1
    && s.step + n <= maxSteps
  }

  /** From `s`, the greedy loop stops after exactly `n` more steps with everyone retired and no collision. */
  ghost predicate FinishesIn(s: Sim, n: nat, maxSteps: nat)
  {
    && WellFormed(s) && |s.world.goals| <= LabelLimit
    && var r := GreedyLoop(s, maxSteps);
      r.step == s.step + n && r.collisions == s.collisions && !AnyActive(r)
  }

  /** A loop whose first step retires everyone stops right after it. */
  lemma GreedyLoopLastStep(s: Sim, maxSteps: nat)
    requires WellFormed(s) && |s.world.goals| <= LabelLimit && !Stopped(s, maxSteps)
    requires !AnyActive(GreedyStep(s))
    ensures GreedyLoop(s, maxSteps) == GreedyStep(s)
  {
    GreedyLoopUnfolds(s, maxSteps);
    GreedyLoopStops(GreedyStep(s), maxSteps);
  }

  /** A lone agent one step from its nearest goal finishes in the next step. */
  lemma LoneGreedyLastStep(s: Sim, maxSteps: nat)
    requires LoneAt(s, 1, maxSteps)
    ensures FinishesIn(s, 1, maxSteps)
  {
    LoneRetiresNow(s);
    GreedyLoopLastStep(s, maxSteps);
  }

  /** One step away, the lone agent's next step retires it without a collision. */
  lemma LoneRetiresNow(s: Sim)
    requires Lone(s) && |s.world.goals| <= 32 && NearestIs(s.world, s.world.agents[0].value, 1)
    ensures AnyActive(s) && !AnyActive(GreedyStep(s)) && GreedyStep(s).collisions == s.collisions
  {
    LoneGreedyStepArrives(s);
    LoneActivity(s);
    LoneActivity(GreedyStep(s));
  }

  /** With one agent, someone is active exactly when that agent is. */
  lemma LoneActivity(s: Sim)
    requires |s.active| == 1
    ensures AnyActive(s) <==> s.active[0]
  {
  }

  /** A lone agent more than one step away is still alone, one step closer, after a step. */
  lemma LoneGreedyNextStep(s: Sim, n: nat, maxSteps: nat) returns (t: Sim)
    requires LoneAt(s, n, maxSteps) && n > 1
    ensures LoneAt(t, n - 1, maxSteps)
    ensures FinishesIn(t, n - 1, maxSteps) ==> FinishesIn(s, n, maxSteps)
  {
    LoneGreedyStepCloser(s, n);
    t := GreedyStep(s);
    assert AnyActive(s);
    GreedyLoopUnfolds(s, maxSteps);
  }

  /**
   * A lone agent whose nearest goal is `n >= 1` steps away finishes in
   * exactly `n` more steps, without a collision, when the budget allows.
   */
  lemma {:induction false} LoneGreedyLoop(s: Sim, n: nat, maxSteps: nat)
    requires LoneAt(s, n, maxSteps)
    ensures FinishesIn(s, n, maxSteps)
    decreases n
  {
    if n == 1 {
      LoneGreedyLastStep(s, maxSteps);
    } else {
      var t := LoneGreedyNextStep(s, n, maxSteps);
      LoneGreedyLoop(t, n - 1, maxSteps);
    }
  }

  /**
   * Alone on the board, the greedy run walks a shortest path: it reports
   * exactly `total_opt` steps and no collision.
   */
  lemma LoneGreedyRunIsOptimal(w: World, n: nat, maxSteps: nat)
    requires |w.agents| == 1 && w.agents[0].Some? && |w.goals| <= 32
    requires Nearest(w.board, w.agents[0].value, w.goals) == Fin(n) && 1 <= n <= maxSteps
    ensures TotalOpt(w.board, w.agents, w.goals) == Fin(n)
    ensures Placed(w) && GreedyRun(w, maxSteps) == Report(n, n == maxSteps, 0)
  {
    LoneStartFinishes(w, n, maxSteps);
    ReportAfterFinishing(Start(w), n, maxSteps);
    LoneTotalOpt(w, n);
  }

  lemma LoneStartFinishes(w: World, n: nat, maxSteps: nat)
    requires |w.agents| == 1 && w.agents[0].Some? && |w.goals| <= 32
    requires Nearest(w.board, w.agents[0].value, w.goals) == Fin(n) && 1 <= n <= maxSteps
    ensures Placed(w) && FinishesIn(Start(w), n, maxSteps)
  {
    LoneStartIsLoneAt(w, n, maxSteps);
    LoneGreedyLoop(Start(w), n, maxSteps);
  }

  lemma LonePlaced(w: World)
    requires |w.agents| == 1 && w.agents[0].Some?
    ensures Placed(w)
  {
  }

  lemma LoneStartIsLoneAt(w: World, n: nat, maxSteps: nat)
    requires |w.agents| == 1 && w.agents[0].Some? && |w.goals| <= 32
    requires Nearest(w.board, w.agents[0].value, w.goals) == Fin(n) && 1 <= n <= maxSteps
    ensures Placed(w) && LoneAt(Start(w), n, maxSteps)
  {
    LonePlaced(w);
    NearestIsFromNearest(w, w.agents[0].value, n);
  }

  /** The report of a greedy run from the start that finishes in `n` steps. */
  lemma ReportAfterFinishing(s: Sim, n: nat, maxSteps: nat)
    requires FinishesIn(s, n, maxSteps) && s.step == 0 && s.collisions == 0 && n <= maxSteps
    ensures ReportOf(GreedyLoop(s, maxSteps), maxSteps) == Report(n, n == maxSteps, 0)
  {
  }

  /** For a lone agent, `total_opt` is its nearest-goal distance. */
  lemma LoneTotalOpt(w: World, n: nat)
    requires |w.agents| == 1 && w.agents[0].Some? && Nearest(w.board, w.agents[0].value, w.goals) == Fin(n)
    ensures TotalOpt(w.board, w.agents, w.goals) == Fin(n)
  {
    assert w.agents == [w.agents[0]];
    TotalOptOfOne(w.board, w.agents[0], w.goals);
  }

  // ---------------------------------------------------------------------
  // Findings

  /**
   * As written, a run whose last agent retires on the last allowed step is
   * reported as failed: a lone agent whose nearest goal is exactly
   * `max_steps` away arrives, and the report still says `failed`.
   */
  lemma ArrivalOnLastStepReportedFailed(w: World, n: nat)
    requires |w.agents| == 1 && w.agents[0].Some? && |w.goals| <= 32
    requires Nearest(w.board, w.agents[0].value, w.goals) == Fin(n) && 1 <= n
    ensures Placed(w) && FinishesIn(Start(w), n, n)
    ensures GreedyRun(w, n) == Report(n, true, 0)
  {
    LoneStartFinishes(w, n, n);
    LoneGreedyRunIsOptimal(w, n, n);
  }

  /** The evidently intended report: failed exactly when some agent is still active. */
  function IntendedReportOf(r: Sim, maxSteps: nat): (rep: Report)
    requires Stopped(r, maxSteps) && r.step <= maxSteps
    ensures rep.steps == r.step && rep.collisions == r.collisions
    ensures rep.failed <==> exists k :: 0 <= k < |r.active| && r.active[k]
    ensures rep.failed ==> rep.steps == maxSteps
  {
    Report(r.step, FailedIntended(r), r.collisions)
  }

  /** The greedy run with the intended flag. */
  function GreedyRunIntended(w: World, maxSteps: nat): (rep: Report)
    requires Placed(w) && |w.goals| <= LabelLimit
    ensures rep.failed <==> AnyActive(GreedyLoop(Start(w), maxSteps))
    ensures rep.steps == GreedyRun(w, maxSteps).steps && rep.collisions == GreedyRun(w, maxSteps).collisions
  {
    IntendedReportOf(GreedyLoop(Start(w), maxSteps), maxSteps)
  }

  /** With the intended flag, the lone agent arriving on the last step is a success. */
  lemma ArrivalOnLastStepIntended(w: World, n: nat)
    requires |w.agents| == 1 && w.agents[0].Some? && |w.goals| <= 32
    requires Nearest(w.board, w.agents[0].value, w.goals) == Fin(n) && 1 <= n
    ensures Placed(w) && GreedyRunIntended(w, n) == Report(n, false, 0)
  {
    LoneStartFinishes(w, n, n);
    LoneGreedyRunIsOptimal(w, n, n);
  }

  /**
   * As written, `compute_greedy_rankings` is called again while an agent is
   * active, and it searches from every agent slot: once one agent has
   * claimed a goal and another goal is still on the board, the world is no
   * longer `GreedyRankable` and the search from the empty slot raises.
   */
  lemma ClaimingBreaksGreedyRanking(s: Sim, i: nat, k: nat, j: nat)
    requires WellFormed(s) && i < |s.active| && k < |s.active| && j < |s.world.goals|
    requires Claims(s, i) && s.active[k] && !Claims(s, k)
    requires s.world.goals[j].Some?
    requires forall a :: 0 <= a < |s.active| && Claims(s, a) ==> s.world.agents[a] != s.world.goals[j]
    ensures AnyActive(ClaimAny(s))
    ensures !GreedyRankable(ClaimAny(s).world)
  {
    var c := ClaimAny(s);
    assert c.active[k];
    assert c.world.agents[i].None?;
    assert c.world.goals[j] == s.world.goals[j];
  }
}

=== FILE: seqs.dfy ===
/** Small sequence facts shared by several modules. */
module Seqs {
  /** Python's `list.index(x)`: the position of the first occurrence of `x`. */
  function FirstIndex<T(==)>(s: seq<T>, x: T): (n: nat)
    requires x in s
    ensures n < |s| && s[n] == x && forall k :: 0 <= k < n ==> s[k] != x
  {
    if s[0] == x then 0 else 1 + FirstIndex(s[1..], x)
  }

  /** Some position holding `x`. */
  lemma IndexOf<T>(s: seq<T>, x: T) returns (i: nat)
    requires x in s
    ensures i < |s| && s[i] == x
  {
    i :| i < |s| && s[i] == x;
  }

  lemma ModSmall(a: nat, n: nat)
    requires a < n
    ensures a % n == a
  {
  }
}

=== FILE: setup.dfy ===
/**
 * Episode setup of core/environment.py: `sample_position` and
 * `initialize_agents_goals`. The random choice is a parameter: `pick` stands
 * for the index `random.choice` draws, reduced modulo the number of
 * candidates.
 */
module Setup {
  import opened Wrappers
  import opened Seqs
  import opened Grid

  /** Row-major order: the order of `for r in range(size) for c in range(size)`. */
  predicate Before(a: Cell, c: Cell)
  {
    a.row < c.row || (a.row == c.row && a.col < c.col)
  }

  predicate Ascending(s: seq<Cell>)
  {
    forall i, j :: 0 <= i < j < |s| ==> Before(s[i], s[j])
  }

  /** `self.is_valid(p) and p not in exclude`. */
  predicate Eligible(w: World, exclude: set<Cell>, p: Cell)
  {
    IsValid(w, p) && p !in exclude
  }

  lemma AscendingConcat(a: seq<Cell>, b: seq<Cell>)
    requires Ascending(a) && Ascending(b)
    requires forall x, y :: x in a && y in b ==> Before(x, y)
    ensures Ascending(a + b)
  {
    forall i, j | 0 <= i < j < |a + b| ensures Before((a + b)[i], (a + b)[j]) {
      if j < |a| {
      } else if i >= |a| {
        assert (a + b)[i] == b[i - |a|] && (a + b)[j] == b[j - |a|];
      } else {
        assert (a + b)[i] in a && (a + b)[j] in b;
      }
    }
  }

  /** The eligible cells of row `row` from column `col` on, in column order. */
  function RowCandidates(w: World, exclude: set<Cell>, row: int, col: nat): (r: seq<Cell>)
    ensures forall p :: p in r <==> p.row == row && col <= p.col && Eligible(w, exclude, p)
    ensures Ascending(r)
    decreases w.board.size - col
  {
    if col >= w.board.size then []
    else
      var rest := RowCandidates(w, exclude, row, col + 1);
      if Eligible(w, exclude, Cell(row, col)) then
        AscendingConcat([Cell(row, col)], rest);
        [Cell(row, col)] + rest
      else rest
  }

  /** The list comprehension of `sample_position`, from row `row` on. */
  function Candidates(w: World, exclude: set<Cell>, row: nat): (r: seq<Cell>)
    ensures forall p :: p in r <==> row <= p.row && Eligible(w, exclude, p)
    ensures Ascending(r)
    decreases w.board.size - row
  {
    if row >= w.board.size then []
    else
      var here := RowCandidates(w, exclude, row, 0);
      var rest := Candidates(w, exclude, row + 1);
      AscendingConcat(here, rest);
      here + rest
  }

  /**
   * `sample_position(exclude)`: a cell that is valid and not excluded, or
   * nothing when no such cell exists.
   */
  function SamplePosition(w: World, exclude: set<Cell>, pick: nat): (r: Option<Cell>)
    ensures r.None? <==> forall p :: !Eligible(w, exclude, p)
    ensures r.Some? ==> Eligible(w, exclude, r.value)
  {
    var cands := Candidates(w, exclude, 0);
    if cands == [] then
      assert forall p :: Eligible(w, exclude, p) ==> p in cands;
      None
    else
      var c := cands[pick % |cands|];
      assert c in cands;
      Some(c)
  }

  /**
   * Every eligible cell is drawn by exactly one pick below the number of
   * candidates: the candidate list holds each cell once.
   */
  lemma SampleDrawsEach(w: World, exclude: set<Cell>, p: Cell) returns (pick: nat)
    requires Eligible(w, exclude, p)
    ensures pick < |Candidates(w, exclude, 0)| && SamplePosition(w, exclude, pick) == Some(p)
    ensures forall q: nat :: q < |Candidates(w, exclude, 0)| && SamplePosition(w, exclude, q) == Some(p) ==> q == pick
  {
    var cands := Candidates(w, exclude, 0);
    assert p in cands;
    pick := IndexOf(cands, p);
    forall q: nat | q < |cands| && SamplePosition(w, exclude, q) == Some(p) ensures q == pick {
      assert cands[q % |cands|] == p;
      ModSmall(q, |cands|);
    }
    ModSmall(pick, |cands|);
  }

  /** The in-bounds cells that are not obstacles. */
  function FreeCells(b: Board): (r: set<Cell>)
    ensures forall p :: p in r <==> Free(b, p)
  {
    Universe(b.size) - b.obstacles
  }

  /** Every placed cell is free, and no cell is placed twice. */
  predicate Separate(b: Board, s: seq<Option<Cell>>)
  {
    && (forall i :: 0 <= i < |s| && s[i].Some? ==> Free(b, s[i].value))
    && (forall i, j :: 0 <= i < j < |s| && s[i].Some? ==> s[i] != s[j])
  }

  /** `used` holds exactly the obstacles and the cells placed so far. */
  ghost predicate Ledger(b: Board, used: set<Cell>, placed: seq<Option<Cell>>)
  {
    forall p :: p in used <==> p in b.obstacles || Some(p) in placed
  }

  /** `used.add(x)`: adding `None` leaves the cells in `used` as they were. */
  function Mark(used: set<Cell>, x: Option<Cell>): set<Cell>
  {
    if x.Some? then used + {x.value} else used
  }

  /** What the setup loops keep after placing `k` slots. */
  ghost predicate Progress(b: Board, used: set<Cell>, placed: seq<Option<Cell>>, k: nat)
  {
    Ledger(b, used, placed) && Separate(b, placed) && |FreeCells(b) - used| + k >= |FreeCells(b)|
  }

  predicate AllPlaced(s: seq<Option<Cell>>)
  {
    forall i :: 0 <= i < |s| ==> s[i].Some?
  }

  lemma AllPlacedAppend(s: seq<Option<Cell>>, x: Option<Cell>)
    requires AllPlaced(s) && x.Some?
    ensures AllPlaced(s + [x])
  {
  }

  lemma AppendAfter(a: seq<Option<Cell>>, b: seq<Option<Cell>>, x: Option<Cell>)
    ensures a + b + [x] == a + (b + [x])
  {
  }

  /** A cell the setup may draw is exactly a free cell not yet used. */
  lemma EligibleIsUnused(b: Board, world: World, placed: seq<Option<Cell>>, used: set<Cell>)
    requires world.board == b && Ledger(b, used, placed)
    requires forall p :: Some(p) in world.agents ==> Some(p) in placed
    ensures forall p :: Eligible(world, used, p) <==> p in FreeCells(b) - used
  {
  }

  /** The drawn cell, if any, is free and not placed before. */
  lemma DrawIsNew(b: Board, world: World, placed: seq<Option<Cell>>, used: set<Cell>, pick: nat)
    requires world.board == b && Ledger(b, used, placed) && Separate(b, placed)
    requires forall p :: Some(p) in world.agents ==> Some(p) in placed
    ensures var x := SamplePosition(world, used, pick);
      Ledger(b, Mark(used, x), placed + [x]) && Separate(b, placed + [x])
  {
    EligibleIsUnused(b, world, placed, used);
  }

  /**
   * One draw of the setup loops: the drawn cell, if any, is free and new, the
   * free cells left shrink by at most one, and the draw fails only when no
   * free cell is left.
   */
  lemma DrawExtends(b: Board, world: World, placed: seq<Option<Cell>>, used: set<Cell>, pick: nat, k: nat)
    requires world.board == b && Progress(b, used, placed, k)
    requires forall p :: Some(p) in world.agents ==> Some(p) in placed
    ensures var x := SamplePosition(world, used, pick);
      && Progress(b, Mark(used, x), placed + [x], k + 1)
      && (|FreeCells(b)| > k ==> x.Some?)
  {
    var free := FreeCells(b);
    var x := SamplePosition(world, used, pick);
    DrawIsNew(b, world, placed, used, pick);
    EligibleIsUnused(b, world, placed, used);
    if x.Some? {
      RemoveOne(free - used, x.value);
      assert free - Mark(used, x) == (free - used) - {x.value};
    } else {
      assert free - used == {};
    }
  }

  /** Taking a cell out of a set lowers its size by one. */
  lemma RemoveOne(s: set<Cell>, x: Cell)
    requires x in s
    ensures |s - {x}| == |s| - 1
  {
  }

  /**
   * `initialize_agents_goals(num_agents)`: `picks[i]` is the draw for agent
   * `i` and `picks[n + i]` the draw for goal `i`. Agents are placed one at a
   * time, each avoiding obstacles and the agents before it; goals then avoid
   * obstacles, every agent and the goals before them. With at least two free
   * cells per agent no slot stays empty.
   */
  method InitializeAgentsGoals(b: Board, n: nat, picks: seq<nat>) returns (w: World)
    requires |picks| == 2 * n
    ensures w.board == b && |w.agents| == n && |w.goals| == n
    ensures Separate(b, w.agents + w.goals)
    ensures |FreeCells(b)| >= 2 * n ==>
      forall i :: 0 <= i < n ==> w.agents[i].Some? && w.goals[i].Some?
  {
    var agents, used := PlaceAgents(b, n, picks[..n]);
    var goals := PlaceGoals(b, agents, used, picks[n..]);
    w := World(b, agents, goals);
  }

  /** The first loop of `initialize_agents_goals`. */
  method PlaceAgents(b: Board, n: nat, picks: seq<nat>) returns (agents: seq<Option<Cell>>, used: set<Cell>)
    requires |picks| == n
    ensures |agents| == n && Progress(b, used, agents, n)
    ensures |FreeCells(b)| >= 2 * n ==> AllPlaced(agents)
  {
    var roomy := |FreeCells(b)| >= 2 * n;
    agents := [];
    used := b.obstacles;
    for i := 0 to n
      invariant |agents| == i && Progress(b, used, agents, i)
      invariant roomy ==> AllPlaced(agents)
    {
      DrawExtends(b, World(b, agents, []), agents, used, picks[i], i);
      var agent := SamplePosition(World(b, agents, []), used, picks[i]);
      if roomy {
        AllPlacedAppend(agents, agent);
      }
      used := Mark(used, agent);
      agents := agents + [agent];
    }
  }

  /** The second loop of `initialize_agents_goals`, with the agents in place. */
  method PlaceGoals(b: Board, agents: seq<Option<Cell>>, used0: set<Cell>, picks: seq<nat>) returns (goals: seq<Option<Cell>>)
    requires Progress(b, used0, agents, |agents|) && |picks| == |agents|
    ensures |goals| == |agents| && Separate(b, agents + goals)
    ensures |FreeCells(b)| >= 2 * |agents| ==> AllPlaced(goals)
  {
    var n := |agents|;
    var world := World(b, agents, []);
    var used := used0;
    var roomy := |FreeCells(b)| >= 2 * n;
    goals := [];
    for i := 0 to n
      invariant |goals| == i && Progress(b, used, agents + goals, n + i)
      invariant roomy ==> AllPlaced(goals)
    {
      DrawExtends(b, world, agents + goals, used, picks[i], n + i);
      var goal := SamplePosition(world, used, picks[i]);
      if roomy {
        AllPlacedAppend(goals, goal);
      }
      AppendAfter(agents, goals, goal);
      used := Mark(used, goal);
      goals := goals + [goal];
    }
  }
}

=== FILE: wrappers.dfy ===
/** The optional value the Python code expresses with `None`. */
module Wrappers {

  datatype Option<+T> = None | Some(value: T)

}
